=== FILE: README.md ===
# rcadmin core, modelled in Dafny

rcadmin is a Django administration system for a network of centres. It keeps
persons and their historic (aspects, statuses), public-work groups of seekers
with their lectures and listeners, workgroups with mentors and members, events
with their frequencies, and the treasury (orders, forms of payment, payments).
This project models the logic of that core as pure Dafny functions and proves
what each operation promises. The ORM, the templates and the request plumbing
are not modelled.

The modules follow the source:

- `Text` and `Wrappers` hold shared string helpers (Python's `split`, `split()`,
  `strip`, `str(int)`, `in`) and `Option`/`Result`.
- `Common` covers `sanitize_name`, `short_name` and `phone_format` of
  `rcadmin/common.py`.
- `Cpf` covers `cpf_validation` and `cpf_format`.
- `SanitizeCsv` covers the `SanitizeCsv` class, with frames modelled as
  rows of cells.
- `Persons` covers the `Person` model's `clean`/`save` and the delete,
  reinsert and access rules of the person views.
- `SeekerHistoric` covers the seeker historic views and their
  "latest date wins" status rule.
- `Memberships` covers the mentoring permission after a membership is updated,
  deleted, or handed to another person.
- `EventFrequencies` covers launching registration numbers on an event.
- `Attendance` holds what the public-work and mentoring views share:
  - reading the attendance POST back into listener records;
  - the rank/frequency tally;
  - the sort by rank;
  - Django's paginator.
- `PublicworkGroups` covers the public-work group views.
- `Mentoring` covers the mentoring views.
- `ImportPersons`, `ImportFields`, `PeopleToCsv` and `Reports` cover the
  three scripts and the report layout they share.
- `TreasuryModels` covers the text forms of the treasury models.
- `Treasury` covers the `OrderByPeriod` grouping and summaries.

Dates are abstract integers where they are compared, and already formatted
text where they are only printed. Money is integer cents. Database order is
the order of the input sequences.

## Model

| member | source | states |
|---|---|---|
| Common.SanitizeName | rcadmin/common.py:135-136 | the words of the result are the words of the input, each capitalised, and the result is exactly those words joined by single spaces |
| Common.SanitizeNameIdempotent | rcadmin/common.py:135-136 | sanitising a sanitised name changes nothing |
| Common.CapitalizeWordIdempotent | rcadmin/common.py:135-136 | capitalising a word twice is capitalising it once |
| Common.CapitalizeWordPlain | rcadmin/common.py:135-136 | capitalising keeps a word non-empty and free of white space, so words survive the join |
| Common.ShortNameWords | rcadmin/common.py:150-167 | a short name keeps the first and last words as they are and has as many words as the name; a middle word of at most 3 letters is lower-cased and any other becomes its initial and a dot; names of one or two words are unchanged |
| Common.ShortName | rcadmin/common.py:150-167 | the short name of a name; what it keeps and abbreviates is stated by Common.ShortNameWords |
| Common.AbbreviateNoSpace | rcadmin/common.py:161-167 | abbreviating a word never introduces a space, so the short name splits back into the same number of words |
| Common.PhoneFormatEmpty | rcadmin/common.py:227-249 | the formatted phone is empty exactly when the number has no leading "+" and no digits |
| Common.PhoneFormatDigits | rcadmin/common.py:227-249 | formatting keeps the digits of the number, adding only the "55" country code in front of a bare 10- or 11-digit Brazilian number |
| Common.PhoneFormat | rcadmin/common.py:227-249 | the formatted phone number; that it keeps the digits and adds only the country code is stated by Common.PhoneFormatDigits |
| Common.PhoneFormatShape | rcadmin/common.py:227-249 | the Brazilian layouts: 11 digits give "+55 AA NNNNN-NNNN", 10 digits give "+55 AA NNNN-NNNN", any other count gives the bare digits |
| Common.PlusLayoutDigits | rcadmin/common.py:228-243 | the "+" layout keeps exactly the digits after the plus |
| Common.BareLayoutDigits | rcadmin/common.py:244-249 | the bare-number layout shows "55" followed by the number's digits |
| Common.LayoutShape | rcadmin/common.py:244-249 | the bare layout puts "+55 ", the area code, a space, the first block, a dash and the rest at fixed positions |
| Cpf.CheckDigit | rcadmin/common.py:189-208 | a check digit is always a single decimal digit |
| Cpf.CpfValidation | rcadmin/common.py:170-210 | a number is accepted only if it has eleven digits |
| Cpf.CpfValidationSpec | rcadmin/common.py:170-210 | a number is accepted exactly when its digits are eleven, not all equal, and both check digits follow the modulo-11 rule over the weighted position sums |
| Cpf.CheckDigitIsModEleven | rcadmin/common.py:189-197 | the check digit is 11 minus the sum's remainder modulo 11, or 0 when that is 10 or 11 |
| Cpf.WeightedSumIsPositionSum | rcadmin/common.py:189-206 | the sum over the weight list equals the position-weighted sum with weights counting down from the top weight |
| Cpf.BlacklistIsSameDigit | rcadmin/common.py:175-187 | the blacklist holds exactly the eleven-digit numbers made of one repeated digit |
| Cpf.SameDigitRule | rcadmin/common.py:189-208 | with weights whose total times ten is one past a multiple of 11, a repeated digit is its own check digit |
| Cpf.BlacklistRows | rcadmin/common.py:175-187 | the blacklist has ten rows, the k-th being eleven copies of digit k |
| Cpf.SameDigitsPassChecksum | rcadmin/common.py:175-208 | every repeated-digit number satisfies both check digits, so only the blacklist rejects it |
| Cpf.CpfValidationDigitsOnly | rcadmin/common.py:171-174 | punctuation does not matter: a number and its digits are accepted alike |
| Cpf.CpfFormatDigits | rcadmin/common.py:213-215 | formatting keeps the digits of the number |
| Cpf.CpfFormat | rcadmin/common.py:213-215 | the formatted CPF; that it keeps the digits is stated by Cpf.CpfFormatDigits |
| Cpf.CpfFormatShape | rcadmin/common.py:213-215 | eleven digits are laid out as "NNN.NNN.NNN-NN" with the digits in order |
| Cpf.CpfFormatKeepsValidity | rcadmin/common.py:213-215 | a formatted number is valid exactly when the original is |
| SanitizeCsv.Objs | rcadmin/common.py:369-371 | the text columns are the configured columns that are neither dates nor "email" |
| SanitizeCsv.Project | rcadmin/common.py:385 | projecting a row keeps exactly the requested columns and their cells |
| SanitizeCsv.GetDataframe | rcadmin/common.py:376-385 | the frame is rejected exactly when a configured column is missing from the file; otherwise every row is projected on the configured columns |
| SanitizeCsv.ClearPhone | rcadmin/common.py:422-426 | a text cell keeps only its digits and a non-text cell is left alone |
| SanitizeCsv.ClearPhoneKeepsDigits | rcadmin/common.py:422-426 | clearing keeps every digit of the phone and is idempotent |
| SanitizeCsv.FillBlank | rcadmin/common.py:389-390 | a missing cell becomes empty text and any other cell is kept |
| SanitizeCsv.FillColumns | rcadmin/common.py:389-390 | only the listed columns are filled; the others are untouched |
| SanitizeCsv.PhoneColumns | rcadmin/common.py:399 | the phone columns are exactly the configured columns whose name contains "phone" |
| SanitizeCsv.ClearPhones | rcadmin/common.py:399-406 | each phone column is cleared then filled, and the other columns are untouched |
| SanitizeCsv.ClearPhoneFilledTwice | rcadmin/common.py:399-406 | cleaning the phones of an already cleaned row changes nothing |
| SanitizeCsv.AdjustRowSpec | rcadmin/common.py:387-406 | after adjustment no text column is missing, each phone column holds digits only, and the other columns are unchanged |
| SanitizeCsv.SplitAddressSpec | rcadmin/common.py:392-397 | the street is the text before the first comma, and a three-piece address joins back into the full address |
| SanitizeCsv.AdjustDataSplitWidth | rcadmin/common.py:392-397 | the address split succeeds exactly when the widest address has three pieces; then no row has more |
| SanitizeCsv.AdjustData | rcadmin/common.py:387-406 | adjusting keeps the number of rows |
| SanitizeCsv.AddColumns | rcadmin/common.py:393 | the new columns are added after the old ones, which keep their order |
| SanitizeCsv.SplitWidthBounds | rcadmin/common.py:393-396 | no row's address has more pieces than the split width |
| SanitizeCsv.ByEmail | rcadmin/common.py:411-418 | each side of the e-mail split holds only input rows of its kind |
| SanitizeCsv.ByEmailPartition | rcadmin/common.py:411-418 | the rows with and without e-mail are together the input rows |
| SanitizeCsv.ByEmailAll | rcadmin/common.py:419-420 | when every row has an e-mail, the with-e-mail side is the whole frame |
| SanitizeCsv.GenerateFiles | rcadmin/common.py:408-420 | the fields file holds the whole frame; otherwise rows without an e-mail go to "without_email/we__" and the rest to the plain file, the first only when non-empty; a frame without "email" fails |
| SanitizeCsv.GenerateFilesPartition | rcadmin/common.py:408-420 | every row is written exactly once |
| Persons.NewPerson | person/models.py:44-46 | a new person is active with status "ACT" and no historic |
| Persons.Clean | person/models.py:57-61 | `is_active` is true exactly for the active statuses, and nothing else changes |
| Persons.DefaultName | person/models.py:63-68 | a person without a name is named after its e-mail between "<<" and ">>" |
| Persons.Save | person/models.py:63-68 | saving fills a missing name, derives the folded and short names from the name, and changes nothing else |
| Persons.SaveIdempotent | person/models.py:63-68 | saving twice is saving once |
| Persons.AddHistoric | person/views/person.py:373-380 | exactly one entry, with the occurrence, date and author, is appended to the historic |
| Persons.Delete | person/views/person.py:324-336 | a person with historic is deactivated with user and status "REM" and one "REM" entry, and is otherwise the saved person; a person without historic is removed |
| Persons.Reinsert | person/views/person.py:353-362 | reinsertion activates person and user with status "ACT" and appends one "ACT" entry, and the person is otherwise the saved person |
| Persons.DeleteReinsertAgreeWithClean | person/views/person.py:324-361 | the active flag set by hand in both views is the one `clean` derives from the new status |
| Persons.ReinsertUndoesDelete | person/views/person.py:324-361 | deleting then reinserting gives an active person whose historic ends with "REM" then "ACT", and whose other data is the saved data |
| Persons.CenterIds | person/views/person.py:80-88 | the ids listed for a centre are exactly the ids of its persons |
| Persons.CanAccess | person/views/person.py:80-88 | a person is visible exactly to superusers and to users of the person's own centre |
| SeekerHistoric.Forward | publicwork/views/historic.py:97-108 | a status dated on or after the current one replaces it, an older one is ignored, and the status date never moves back |
| SeekerHistoric.ForwardIdempotent | publicwork/views/historic.py:104-108 | applying the same dated occurrence twice is applying it once |
| SeekerHistoric.Reverse | publicwork/views/historic.py:98-102 | after a deletion the status becomes the last remaining entry, and fails when no entry remains |
| SeekerHistoric.CreateHistoric | publicwork/views/historic.py:14-32 | the entry is appended; an observation leaves the status alone; any other occurrence goes through the date rule; RST and STD also deactivate the seeker |
| SeekerHistoric.UpdateHistoric | publicwork/views/historic.py:54-69 | the entry is replaced in place, observations leave the status alone, and other occurrences go through the date rule |
| SeekerHistoric.DeleteHistoric | publicwork/views/historic.py:83-90 | removing an OBS or NEW entry keeps the status; removing another recomputes it from the last remaining entry and fails when none remains |
| SeekerHistoric.Latest | publicwork/views/historic.py:104-108 | the chosen entry has the latest date, and is the last of those sharing it |
| SeekerHistoric.ForwardAllIsLatest | publicwork/views/historic.py:104-108 | after recording entries in any order, the status is that of the latest-dated entry |
| SeekerHistoric.ForwardAll | publicwork/views/historic.py:104-108 | records the entries one after another; that the status ends as the latest-dated entry's is stated by SeekerHistoric.ForwardAllIsLatest |
| SeekerHistoric.ForwardAllMonotone | publicwork/views/historic.py:104-108 | recording entries never moves the status date back |
| Memberships.MentorMemberships | workgroup/views/membership.py:126-127 | the mentor rows are exactly the person's memberships with role MTR |
| Memberships.EnsureMentoring | workgroup/views/membership.py:126-132 | the user is in "mentoring" exactly when a membership is MTR, and the other groups are unchanged |
| Memberships.EnsureMentoringIdempotent | workgroup/views/membership.py:126-132 | running the permission rule twice is running it once |
| Memberships.EnsureMentoringRolesOnly | workgroup/views/membership.py:126-132 | only whether some role is MTR decides the outcome |
| Memberships.UpdateRole | workgroup/views/membership.py:89-103 | after a role change the user is a mentor exactly when the new role or another membership is MTR |
| Memberships.Remove | workgroup/views/membership.py:112-116 | removing a membership keeps the others in order |
| Memberships.RemoveMentor | workgroup/views/membership.py:112-116 | after a removal the person is a mentor exactly when another membership is MTR |
| Memberships.DeleteAsWritten | workgroup/views/membership.py:112-116 | the delete view removes the row and leaves the user's groups as they were |
| Memberships.Delete | workgroup/views/membership.py:112-116 | with the permission re-derived, the user is in "mentoring" after a delete exactly when another membership is MTR, and no other group changes |
| Memberships.DeleteAsWrittenKeepsMentoring | workgroup/views/membership.py:112-116 | deleting a person's only MTR membership leaves them in "mentoring" as written, and not in the corrected delete |
| Memberships.AppendMentor | workgroup/views/membership.py:126-127 | one more membership makes a mentor exactly when it or an earlier one is MTR |
| Memberships.MoveAsWritten | workgroup/views/membership.py:89-97 | when the form names another person, the membership moves to them and only their permission is re-derived; the first person's groups stay as they were |
| Memberships.Move | workgroup/views/membership.py:89-97 | with the permission re-derived for both people, the first person is in "mentoring" exactly when another of their memberships is MTR and the new person exactly when the new role or one of theirs is MTR |
| Memberships.MoveAsWrittenKeepsMentoring | workgroup/views/membership.py:89-97 | handing a person's only MTR membership to someone else leaves the first person in "mentoring" as written, and not in the corrected update |
| EventFrequencies.ParseRegs | event/views/frequencies.py:39-47 | the typed numbers are the non-empty comma pieces once spaces are removed, and none holds a space or comma |
| EventFrequencies.ParseJoinedRegs | event/views/frequencies.py:39-47 | numbers written with commas read back as exactly those numbers |
| EventFrequencies.HoldersZero | event/views/frequencies.py:51-60 | no person holds a number exactly when it is absent from the registrations |
| EventFrequencies.FrequenciesAdd | event/views/frequencies.py:33-65 | numbers not yet on the event split into launched and unknown; launched numbers belong to a person; the view redirects exactly when none is unknown |
| EventFrequencies.UnheldIsUnknown | event/views/frequencies.py:51-60 | a number nobody holds and not yet on the event is reported unknown |
| EventFrequencies.UniquelyHeldIsLaunched | event/views/frequencies.py:50-60 | a number held at exactly one index of the registrations and not yet on the event is launched |
| EventFrequencies.DoublyHeldIsUnknown | event/views/frequencies.py:50-60 | a number held at two distinct indices and not yet on the event is reported unknown |
| EventFrequencies.HoldersOne | event/views/frequencies.py:52 | a number at exactly one index has exactly one holder |
| EventFrequencies.HoldersTwo | event/views/frequencies.py:52 | a number at two distinct indices has at least two holders |
| Attendance.FromPost | publicwork/views/group.py:578-591 | the listener data is the POST without the CSRF token |
| Attendance.FromPostIdempotent | publicwork/views/group.py:578-591 | dropping the token twice is dropping it once |
| Attendance.CollectFields | publicwork/views/group.py:583-589 | a listener's record has a field exactly when a posted key names that field for that listener |
| Attendance.CollectLastWins | publicwork/views/group.py:583-589 | a field posted twice for a listener keeps the later value |
| Attendance.FreqIndices | publicwork/views/group.py:583-590 | the kept listeners are, in increasing order, exactly those in range whose record has "freq" |
| Attendance.Listeners | publicwork/views/group.py:578-591 | reading fails exactly when some posted key lacks a "-"; otherwise at most `count` records come back, each with "freq", and they are the records of exactly the positions 1..count that carry "freq", in increasing position order |
| Attendance.ListenerKept | workgroup/views/mentoring.py:456-469 | every listener in range whose record has "freq" is returned |
| Attendance.ListenersIgnoreToken | workgroup/views/mentoring.py:456-469 | the CSRF token never affects the records read |
| Attendance.TallyOf | publicwork/views/group.py:252-258 | a tally's frequency is the number of rankings and its rank their sum |
| Attendance.TallyOfSnoc | publicwork/views/group.py:255-258 | one more ranking adds one frequency and its value to the rank |
| Attendance.Insert | publicwork/views/group.py:226-228 | inserting keeps the rank order and adds exactly the new row |
| Attendance.SortByRank | publicwork/views/group.py:226-228 | the result is ordered by rank, highest first, and is a permutation of the input |
| Attendance.NumPages | rcadmin/common.py:254-263 | there is at least one page, and the last page is the first one whose end reaches the row count |
| Attendance.PageNumber | rcadmin/common.py:254-263 | a page in range is served as asked, anything else gives the last page, and a missing page gives the first |
| Attendance.PageBounds | rcadmin/common.py:254-263 | page p starts at (p-1)·limit and ends at p·limit or at the row count |
| Attendance.SortedSlice | publicwork/views/group.py:226-230 | any page cut from the rank-sorted rows is still sorted |
| Attendance.Paginate | rcadmin/common.py:254-263 | a page holds at most `limit` rows and is the slice of its bounds |
| Attendance.PagesCoverRows | rcadmin/common.py:254-263 | pages 1 to k are the rows up to page k's end; all pages together are all the rows |
| Attendance.MulLe | rcadmin/common.py:254-263 | a larger page number never starts earlier |
| PublicworkGroups.WithoutStatuses | publicwork/views/group.py:91-93 | the listed members are exactly the group's members whose status is not excluded |
| PublicworkGroups.WithoutStatusesAppend | publicwork/views/group.py:91-93 | filtering a concatenation lists the first part's kept members before the second's, so the filter keeps the group's order |
| PublicworkGroups.SheetIsActivePlusRestricted | publicwork/views/group.py:291-295 | the attendance sheet lists the active members plus exactly the RST ones |
| PublicworkGroups.GetFrequencies | publicwork/views/group.py:240-261 | a built table has one row per seeker |
| PublicworkGroups.GetFrequenciesFails | publicwork/views/group.py:240-261 | the table fails exactly when some seeker's status has no caption |
| PublicworkGroups.GetFrequenciesRow | publicwork/views/group.py:244-258 | each row of a built table carries its seeker's id and status caption, rank as the sum of its rankings, and freq as their count |
| PublicworkGroups.StatusCaptioned | rcadmin/common.py:120-128 | every seeker status has a caption |
| PublicworkGroups.GetFrequenciesKnownStatuses | publicwork/views/group.py:240-261 | with known statuses the table never fails |
| PublicworkGroups.WithRankings | publicwork/views/group.py:220-221 | each active member is paired with its own rankings |
| PublicworkGroups.FrequenciesPage | publicwork/views/group.py:214-230 | a page holds at most 20 rows ordered by rank, highest first, and fails only when the table does |
| PublicworkGroups.FrequencyPagesArePermutation | publicwork/views/group.py:214-230 | all the pages together hold every row of the table exactly once |
| PublicworkGroups.FirstRecorded | publicwork/views/group.py:546-560 | the position found is that of the first stored row of the seeker, or past the end when there is none |
| PublicworkGroups.PrepareSession | publicwork/views/group.py:528-575 | one entry per member in order, carrying its id, name and centre; "on" exactly for recorded members, with the first stored ranking and observations; blank with ranking 0 otherwise |
| PublicworkGroups.LectureSheet | publicwork/views/group.py:291-296 | one entry per listed member, in the group's order, each carrying that member's id; every entry is a group member whose status is neither ITD nor STD |
| PublicworkGroups.AddMember | publicwork/views/group.py:356-368 | the seeker joins the group with status MBR dated today, and an MBR entry is added only when the status was not already MBR |
| PublicworkGroups.AddMemberIdempotent | publicwork/views/group.py:356-368 | adding the same member twice on one day is adding it once |
| PublicworkGroups.AddMemberVersusForward | publicwork/views/group.py:356-368 | unlike the historic views, adding a member may move the status date back; otherwise the two rules agree |
| PublicworkGroups.GroupDelete | publicwork/views/group.py:176-183 | a group with members or mentors is deactivated with both kept; an empty one is removed |
| PublicworkGroups.GroupReinsert | publicwork/views/group.py:195-200 | reinsertion reactivates the group and keeps members and mentors |
| PublicworkGroups.DeleteThenReinsert | publicwork/views/group.py:176-200 | deleting a non-empty active group then reinserting it restores it |
| Mentoring.WithRoles | workgroup/views/mentoring.py:67-70 | the rows kept are exactly those whose role is in the set |
| Mentoring.WithRolesAppend | workgroup/views/mentoring.py:67-70 | filtering a concatenation keeps the first part's rows before the second's, so the filter keeps the membership order |
| Mentoring.Mentors | workgroup/views/mentoring.py:67-69 | the mentor list holds the short names of the MTR rows, in order |
| Mentoring.NumMembers | workgroup/views/mentoring.py:28-36 | the member count is never negative |
| Mentoring.WithRolesSplit | workgroup/views/mentoring.py:28-36 | splitting the rows by a role set and its complement loses no row |
| Mentoring.NumMembersCountsMembers | workgroup/views/mentoring.py:28-36 | when every role is MTR, MBR or CTT, the home page count equals the number of members the detail views list |
| Mentoring.MemberTally | workgroup/views/mentoring.py:119-121 | a member's freq is the number of its frequencies and its rank their sum |
| Mentoring.MemberFrequencies | workgroup/views/mentoring.py:100-125 | a page holds at most 25 rows ordered by rank, and is a permutation of the tallies of that page of members |
| Mentoring.MemberFrequenciesFromPage | workgroup/views/mentoring.py:110-121 | every row shown is the tally of a member of the requested page |
| Mentoring.FirstRecorded | workgroup/views/mentoring.py:424-438 | the position found is that of the person's first stored frequency, or past the end when there is none |
| Mentoring.SheetPersons | workgroup/views/mentoring.py:352-357 | the sheet lists the persons of the MBR rows, in order |
| Mentoring.PrepareSession | workgroup/views/mentoring.py:405-453 | one entry per person, in order, with its id, name, centre and current aspect; "on" exactly for recorded persons, with the first stored ranking and observations; blank with ranking 0 otherwise |
| Mentoring.EventSheet | workgroup/views/mentoring.py:352-358 | one entry per MBR membership, in membership order, carrying that member's person id; every entry is an MBR member of the workgroup |
| Mentoring.ParseInt | workgroup/views/mentoring.py:281-283 | only text with something besides white space can be read as a number |
| Mentoring.ParseUnsigned | workgroup/views/mentoring.py:281-283 | a run of digits reads as its decimal value |
| Mentoring.ParseNegative | workgroup/views/mentoring.py:281-283 | a minus sign before a run of digits reads as the negated value |
| Mentoring.ParseIntToString | workgroup/views/mentoring.py:281-283 | reading back any written integer gives that integer |
| Mentoring.RankingOf | workgroup/views/mentoring.py:281-283 | a missing or empty ranking is 0 and anything else is read as a Python integer |
| Mentoring.RankingRoundTrip | workgroup/views/mentoring.py:281-283 | a ranking posted as the text of a number is stored as that number |
| ImportPersons.AddressAsWritten | scripts/import_persons.py:62-70 | the address split as written aborts exactly when the address has no comma |
| ImportPersons.SplitAddress | scripts/import_persons.py:62-70 | the street is the text before the first comma; with no comma the whole text is the street; otherwise it agrees with the address split as written |
| ImportPersons.SplitAddressNumber | scripts/import_persons.py:66-70 | number and complement are the trimmed texts around the first "\|" of the second segment, or the trimmed segment and blank when it has none |
| ImportPersons.SplitNoSepIff | scripts/import_persons.py:63-70 | an address splits into fewer than two pieces exactly when it has no comma |
| ImportPersons.AspectHistory | scripts/import_persons.py:95-121 | each aspect entry comes from a filled aspect column, is dated with its text, and is made by the importer |
| ImportPersons.AspectHistoryComplete | scripts/import_persons.py:95-121 | an aspect column gets an entry exactly when it is filled |
| ImportPersons.AspectHistoryOrdered | scripts/import_persons.py:95-121 | the entries follow the order of the aspect columns: splitting the column list anywhere splits the entries the same way |
| ImportPersons.StatusHistory | scripts/import_persons.py:140-155 | a status entry is recorded exactly when the restriction is one of the status codes, with the restriction date |
| ImportPersons.ImportedProfile | scripts/import_persons.py:56-81 | the profile takes the short name, the trimmed zip code and the centre's country |
| ImportPersons.ImportedPerson | scripts/import_persons.py:82-157 | the person takes the row's aspect and name, the restriction as status when it is a status code (else ACT), and the aspect then status entries as historic |
| ImportPersons.ImportRow | scripts/import_persons.py:36-51 | a row without e-mail is reported by name, a row whose e-mail is taken is reported as "name (email)", and any other is imported |
| ImportPersons.StepOneList | scripts/import_persons.py:36-159 | each row grows exactly the report list its outcome names |
| ImportPersons.Run | scripts/import_persons.py:21-159 | every row lands in exactly one list, each import creates one user, and the only e-mails registered are known ones or read from the file |
| ImportPersons.RepeatedEmailIsUsed | scripts/import_persons.py:43-51 | once a row with an e-mail is processed, that e-mail is taken, so a later row with it is reported as used |
| ImportPersons.ReportCounts | scripts/import_persons.py:161-185 | the three summary counts add up to the rows read, and an empty file has no detail sections |
| ImportPersons.ReportPath | scripts/import_persons.py:28 | the report file is "../imports/" followed by the input file's name and "_report.txt" |
| ImportPersons.Summary | scripts/import_persons.py:166-169 | the summary block is seven lines: two blank lines, the SUMMARY title, a blank line, then the IMPORTEDS, NOT EMAIL and USED EMAIL lines, each of which reads back as the length of its list |
| ImportPersons.SummaryLinesReadBack | scripts/import_persons.py:166-169 | splitting the summary block at its line breaks gives back its seven lines, and each count line parses back to the count it was written from |
| ImportPersons.Report | scripts/import_persons.py:161-185 | the report contains the summary block with the three list lengths, and ends with the DETAIL title followed by the IMPORTEDS, NOT EMAIL and USED EMAIL sections |
| Reports.NumberedFrom | scripts/import_persons.py:174-185 | the numbered list is empty exactly when there is nothing to list |
| Reports.NumberedSnoc | scripts/import_persons.py:176-177 | one more item adds one line numbered after the others |
| Reports.Section | scripts/import_fields_to_persons.py:113-116 | a section is omitted exactly when its list is empty, and otherwise starts with its title |
| Reports.CountLineReadsBack | scripts/import_persons.py:167-169 | a count line "TAG" + n parses back to n |
| Reports.ReportLines | scripts/import_persons.py:161-172 | lines without line breaks, joined by line breaks, split back into the same lines |
| Reports.NoBreakInCount | scripts/import_persons.py:167-169 | a printed count holds no line break |
| ImportFields.KeepAsWritten | scripts/import_fields_to_persons.py:43-48 | the header filter as written keeps at most the header's cells |
| ImportFields.KeepCells | scripts/import_fields_to_persons.py:43-48 | no field is blank or "name", and none keeps a line break |
| ImportFields.KeepCellsSound | scripts/import_fields_to_persons.py:43-48 | every field is a header cell with its line break removed |
| ImportFields.KeepCellsComplete | scripts/import_fields_to_persons.py:43-48 | every header cell that is neither blank nor "name" once its line break is removed is a field |
| ImportFields.FieldList | scripts/import_fields_to_persons.py:43-48 | no field is blank or "name", and none keeps a line break |
| ImportFields.TrailingNameKept | scripts/import_fields_to_persons.py:43-48 | with "name" as the last header column, the list as written keeps "name" and the corrected one drops it |
| ImportFields.KeepNameCell | scripts/import_fields_to_persons.py:45-47 | the cell "name\n" passes the filter as written and not the corrected one |
| ImportFields.IdCardFromRg | scripts/import_fields_to_persons.py:62-67 | the id card is the rg, followed by " / exp" when an issuer is given |
| ImportFields.SetIfDifferent | scripts/import_fields_to_persons.py:68-70 | the attribute is written, and counted, exactly when the value differs |
| ImportFields.ApplyFieldAsWritten | scripts/import_fields_to_persons.py:71-91 | as written, a CPF shorter than 11 characters reaches the generic branch and fails on the person's missing "cpf" attribute |
| ImportFields.ApplyField | scripts/import_fields_to_persons.py:60-91 | a field fails only when the person lacks it; "exp" and invalid or short CPFs change nothing; a change is flagged and keeps the person's attributes and e-mail |
| ImportFields.IdCardRules | scripts/import_fields_to_persons.py:62-77 | "rg" sets the id card from rg and issuer, and a valid CPF of 11 characters or more sets the formatted CPF |
| ImportFields.ApplyFields | scripts/import_fields_to_persons.py:60-91 | applying the field list never counts more changes than fields, never writes "exp", keeps the person when nothing changed, and fails only on a listed field |
| ImportFields.ChangedIsCounted | scripts/import_fields_to_persons.py:60-94 | a person that changed has at least one counted change |
| ImportFields.FindPerson | scripts/import_fields_to_persons.py:54-56 | the first person whose name contains the row's name, ignoring case, is chosen, and none is found only when no name contains it |
| ImportFields.SaveTarget | scripts/import_fields_to_persons.py:94 | saving keeps a non-empty name and derives the short name from it |
| ImportFields.ProcessRow | scripts/import_fields_to_persons.py:53-94 | a row is counted when a person matches, else skipped; at most one adjusted name is appended; an unadjusted row changes no person |
| ImportFields.Run | scripts/import_fields_to_persons.py:40-94 | entries and skipped rows add up to the rows, adjusted persons never outnumber entries, and nothing changes when nothing is adjusted |
| ImportFields.ReadsWhatSanitizerWrites | scripts/import_fields_to_persons.py:33-34 | the file the import reads is the "fields__" file the sanitiser writes |
| ImportFields.ReportPath | scripts/import_fields_to_persons.py:35-37 | the report is "reports/fields/" plus the file name before its first dot plus "__report.txt" |
| ImportFields.ReportPathOfBase | scripts/import_fields_to_persons.py:35-37 | a file "base.ext" reports to "reports/fields/base__report.txt" |
| ImportFields.ReportFieldsReadBack | scripts/import_fields_to_persons.py:109 | the FIELDS line of the report splits back into the field list |
| ImportFields.FilePath | scripts/import_fields_to_persons.py:33-34 | the file read is the imports directory, then "/fields__", then the file name |
| ImportFields.SummaryCounts | scripts/import_fields_to_persons.py:107-110 | when no field holds a line break, the summary block is five lines whose ENTRIES line reads back as the entry total, whose FIELDS line lists the fields joined by ",", and whose ADJUSTEDS line reads back as the number of adjusted persons |
| ImportFields.SummaryLinesReadBack | scripts/import_fields_to_persons.py:107-110 | splitting the summary block at its line breaks gives back its five lines, and each count line parses back to its count |
| ImportFields.Report | scripts/import_fields_to_persons.py:97-116 | the report contains the summary block with the entry total and adjusted count, and ends with the centred DETAIL title followed by the ADJUSTEDS section |
| PeopleToCsv.FoldAspects | scripts/people_to_csv.py:56-70 | the aspect columns set are exactly the aspect occurrences of the historic |
| PeopleToCsv.LastDateOf | scripts/people_to_csv.py:56-70 | an aspect has a date exactly when the historic records it, and the date is that of a recording entry |
| PeopleToCsv.FoldAspectsIsLast | scripts/people_to_csv.py:56-70 | an aspect column holds the date of its last entry, and keeps its initial value when there is none |
| PeopleToCsv.OtherLines | scripts/people_to_csv.py:72-77 | the extra lines are empty exactly when no occurrence code is longer than two characters |
| PeopleToCsv.Obs2 | scripts/people_to_csv.py:55-79 | obs2 is empty exactly when there is no longer occurrence, and otherwise starts with the banner |
| PeopleToCsv.OtherLinesSnoc | scripts/people_to_csv.py:72-77 | a longer occurrence adds one line after the others, and a shorter one adds nothing |
| PeopleToCsv.ExportRow | scripts/people_to_csv.py:22-79 | cpf, from, to and date are blank, both phone columns carry the profile's phone, and all aspect columns are present |
| PeopleToCsv.ExportRowObs2 | scripts/people_to_csv.py:55-79 | a row's obs2 is empty exactly when no occurrence code of the person is longer than two characters, and otherwise starts with the banner |
| PeopleToCsv.ExportAspectColumns | scripts/people_to_csv.py:45-70 | each aspect column of a row is the date of the aspect's last entry, or blank |
| PeopleToCsv.Export | scripts/people_to_csv.py:17-81 | the export is empty exactly when no person of the centre is active |
| PeopleToCsv.ExportSound | scripts/people_to_csv.py:17-81 | every exported row comes from an active person of the centre |
| PeopleToCsv.ExportComplete | scripts/people_to_csv.py:17-81 | every active person of the centre is exported |
| PeopleToCsv.SelectEmpty | scripts/people_to_csv.py:16-21 | the export loop yields nothing exactly when no person passes its filter |
| PeopleToCsv.SelectSound | scripts/people_to_csv.py:16-21 | every line the export loop yields is the line of a person that passes the filter |
| PeopleToCsv.SelectComplete | scripts/people_to_csv.py:16-21 | every person that passes the export filter yields a line |
| PeopleToCsv.EntryLine | scripts/people_to_csv.py:72-77 | an entry adds an obs2 line exactly when its occurrence code is longer than two characters |
| TreasuryModels.DecimalText | treasury/models.py:59-68 | an amount as stored (two decimal places) is printed with two decimals and a minus sign exactly when negative |
| TreasuryModels.DecimalTextRoundTrip | treasury/models.py:59-68 | reading back a printed amount gives the amount |
| TreasuryModels.VoucherPath | treasury/models.py:95-113 | an empty upload name gives the bare folder; otherwise the voucher is stored under "voucher_pics/" as the name date_type_value[_bank][_ctrl], then "." and the uploaded file's extension |
| TreasuryModels.VoucherStemParts | treasury/models.py:95-113 | the voucher name records the bank flag and control number when set, and is just date, type and value when neither is |
| TreasuryModels.FormOfPaymentText | treasury/models.py:151-155 | the text starts with "type $value"; it is nothing more exactly when no bank flag is set, and otherwise continues with " - <bank flag> <control number>" |
| TreasuryModels.Reference | treasury/models.py:70-75 | the reference is empty exactly when there is no reference month |
| TreasuryModels.ReferenceRoundTrip | treasury/models.py:70-75 | the reference text reads back as the reference month |
| TreasuryModels.PersonPart | treasury/models.py:61-64 | the person part is empty exactly when no person is set, and is " person: <name> (<centre>)" otherwise |
| TreasuryModels.MonthPart | treasury/models.py:65-66 | the month part is empty exactly when no reference month is set, and is " month: <month>/<year>" with a non-empty reference otherwise |
| TreasuryModels.PaymentText | treasury/models.py:59-68 | the text is "type $value", the person part, the month part, then " at <creation stamp>"; a payment without person and month prints as "type $value at date" |
| TreasuryModels.PaymentTextSegments | treasury/models.py:59-68 | a set person or reference month shows up in the text as its " person: …" or " month: …" segment |
| Treasury.PayformLabel | treasury/views/useful.py:53-57 | a code's label is that of its entry in the type table, and it is missing exactly when no entry has the code |
| Treasury.FindKey | treasury/views/useful.py:68-75 | the group found is the first with the key, or none exists |
| Treasury.AddItem | treasury/views/useful.py:48-83 | a new key opens a group at the end and a known key keeps the keys as they are |
| Treasury.FirstAppearances | treasury/views/useful.py:48-67 | the keys in order of first appearance hold each key of the items once |
| Treasury.GroupItemsGrouped | treasury/views/useful.py:33-84 | the grouping has one group per key in order of first appearance; each holds that key's items in order, and its totals are theirs |
| Treasury.GroupItems | treasury/views/useful.py:33-84 | groups the payment items by key; the grouping and totals are stated by Treasury.GroupItemsGrouped |
| Treasury.GroupKeysUnique | treasury/views/useful.py:33-84 | no key has two groups |
| Treasury.GroupedSum | treasury/views/useful.py:33-84 | grouping neither loses nor duplicates items: any per-item measure has the same total over the groups |
| Treasury.GroupedCount | treasury/views/useful.py:33-84 | the groups hold as many items as there are |
| Treasury.FormItems | treasury/views/useful.py:36-47 | each form of payment of an order becomes one item |
| Treasury.PayformItemsCount | treasury/views/useful.py:35-47 | there is one item per (order, form of payment) pair |
| Treasury.PayformItems | treasury/views/useful.py:35-47 | one item per (order, form of payment) pair, as stated by Treasury.PayformItemsCount |
| Treasury.FormItemsKeys | treasury/views/useful.py:36-47 | the keys of an order's items are exactly the codes of its forms of payment |
| Treasury.PayformItemsKeys | treasury/views/useful.py:35-57 | the item keys are exactly the codes of the forms of payment |
| Treasury.PayformList | treasury/views/useful.py:33-84 | the form-of-payment list fails exactly when a code is not in the type table; otherwise it is the grouping of the flattened items |
| Treasury.SelfPayeds | treasury/views/useful.py:30-31 | the self-paid orders are exactly the orders so marked |
| Treasury.SelfPayedItems | treasury/views/useful.py:30-47 | every item of the self-paid orders is self-paid |
| Treasury.SelfPayedGroups | treasury/views/useful.py:30-47 | the groups of the self-paid orders hold only self-paid items |
| Treasury.EventText | treasury/views/useful.py:109-117 | the event column is empty exactly when the payment has no event |
| Treasury.PaymentItemsOf | treasury/views/useful.py:105-128 | one item per payment, keyed by pay type, and failure exactly when some payment lacks a person or reference month |
| Treasury.PaymentItems | treasury/views/useful.py:105-128 | the items fail exactly when some payment of some order lacks a person or reference month |
| Treasury.PaymentList | treasury/views/useful.py:105-161 | the payment list fails exactly when a payment cannot be listed; otherwise it is the grouping of the payment items |
| Treasury.Summary | treasury/views/useful.py:86-96 | the summary has one line per group with its caption, item count and requested column |
| Treasury.SummaryTotal | treasury/views/useful.py:86-103 | a summary's total is the column's measure over all the items |
| Treasury.SummaryTotalOfGroups | treasury/views/useful.py:86-96 | a summary's total is the sum of the groups' columns |
| Treasury.SelfPendingOf | treasury/views/useful.py:97-102 | the pending self-paid codes of a group come from its items, and their sum is the group's self-paid pending total |
| Treasury.SelfPayedSummary | treasury/views/useful.py:97-102 | the self-paid total is the sum of the groups' self-paid pending items |
| Treasury.SelfPayedTotal | treasury/views/useful.py:97-102 | the self-paid total is the value of every self-paid pending item |

## Left out

- Database access, the ORM, templates, messages, redirects and the HTTP session. Views are modelled as functions of the rows they read. The session dictionary is the returned sheet or list.
- Database ordering (`order_by`, queryset order) is the order of the input sequences.
- Dates are integers where compared and text where printed. `strftime`, `parse` and the current time are parameters.
- Case mapping and digit classes are ASCII only. White space follows Python's `str.isspace`, the set `str.split()` and `str.strip()` use.
- The accent folding of `us_inter_char` is an opaque function parameter.
- Python's `int()` is modelled for an optional sign and ASCII digits only, without underscores or other Unicode digits.
- The profile's `phone` read by the CSV export is modelled as the profile's first phone. user/models.py is not part of this model.
- Translation (`_()`), e-mail sending, invitations, file uploads, image handling and `get_filename` are left out, because they only produce text or side effects.
- `belongs_center` and the permission decorators are left out, because they are authorisation plumbing.
- `membership_insert` is left out: it adds the person to the workgroup with the membership's default role and does not re-derive the "mentoring" permission (workgroup/views/membership.py:37-39). workgroup/models.py, where that default is set, is not part of this model.
- TreasuryModels.VoucherPath: prints the value with two decimals, as `str()` of an amount loaded from the database. `voucher_img_filename` (treasury/models.py:99-103) runs while the upload is saved, on an instance that still carries the value as entered, so an entered "50" or "12.5" is printed "50" or "12.5" there. Amounts are integer cents here and cannot carry the entered number of decimals.
- The list windows `regs * (page - 1)` of the detail pages are left out, because they only slice a listing.
- Age computed with `// 365` is left out, because it depends only on the clock.
- The frequency-creation POST of `group_add_frequencies` and `mentoring_add_frequencies` is left out. Only reading the posted listeners back is modelled. Creating the rows adds nothing beyond a database insert per listener.
- The e-mail uniqueness of user creation is modelled as a set of known e-mails. Any other database error is not modelled.
- Attendance.SortByRank: sort stability (Python's `sorted` keeps equal ranks in input order) is not stated; only order and permutation are.
- Mentoring.NumMembers: states only that the count is non-negative. Its relation to the listed members is in Mentoring.NumMembersCountsMembers, which needs every role to be MTR, MBR or CTT.
- Mentoring.PrepareSession: requires that a stored frequency and a listed person with the same id are the same person, as the database guarantees. The source reads the aspect through the stored frequency.
- Mentoring.ParseInt: only states that an accepted text is not blank; its round trip is in Mentoring.ParseIntToString.
- SanitizeCsv.AdjustData: states only that the row count is kept; the per-row content is in SanitizeCsv.AdjustRowSpec and SanitizeCsv.AdjustDataSplitWidth.
- ImportFields.KeepAsWritten: states only a length bound; its behaviour is exhibited in ImportFields.TrailingNameKept.
- Attendance.MulLe: an arithmetic helper for page bounds.
- PublicworkGroups.GetFrequencies: states only the row count; when the table fails and what each row holds are in PublicworkGroups.GetFrequenciesFails and PublicworkGroups.GetFrequenciesRow.
- PeopleToCsv.ExportRow: does not state the obs2 column; that is in PeopleToCsv.ExportRowObs2.
- PeopleToCsv.ExportRow: birth dates and historic dates are always present, as formatted text. person/models.py:36 and person/models.py:89 allow them to be null, and `strftime` on a null date (scripts/people_to_csv.py:25, 58-70) raises `AttributeError` and ends the export; that abort is not modelled.
- ImportPersons.Field: reads an absent column as blank. The script reads every column but "email" and "address" by indexing (scripts/import_persons.py:46-155), so a file without one of them ends the run with `KeyError`; a short row's missing cells arrive as `None`, on which `.strip()` (line 76) or the `in` test (line 140) raises. The model assumes every row carries every column the script reads, as the sanitised file written by the CSV sanitiser does, and does not model that abort. Only "email" and "address" are read with `.get` (lines 37 and 62), where an absent column really does read as blank.
- ImportFields.Field: reads an absent cell as blank. The field columns come from the file's own header, so they are always present, but a short row's missing cells arrive as `None` (scripts/import_fields_to_persons.py:60-91): `len` or the date parser then raises, and the generic branch would write `None` into the person. The model assumes complete rows and does not model that. "name" and "exp" are read with `.get` (lines 55 and 65), where an absent column reads as `None` and is handled like blank, as here.
- ImportPersons.ImportRow: splits the address with the corrected ImportPersons.SplitAddress, so a non-empty address without "," is imported with the whole text as the street. The source aborts the import there; see the first row under Findings and ImportPersons.AddressAsWritten.
- ImportPersons.Run: runs ImportPersons.ImportRow, so it inherits the corrected address split described in the line above rather than the abort.
- ImportFields.ProcessRow: applies fields with the corrected ImportFields.ApplyField, so a "cpf" cell shorter than 11 characters changes nothing. The source raises `AttributeError` there; see the third row under Findings and ImportFields.ApplyFieldAsWritten.
- ImportFields.Run: runs ImportFields.ProcessRow, so it inherits the corrected short-CPF rule described in the line above rather than the error.

## Findings

| source | as written | input that shows it | evidently intended | confidence | as-written member | corrected member |
|---|---|---|---|---|---|---|
| scripts/import_persons.py:62-70 | the fallback handler for an address without "\|" indexes the second comma piece again, so an address with no comma raises inside the handler and aborts the whole import | address "Rua A" | the whole text becomes the street, with number and complement blank | medium, not executed | ImportPersons.AddressAsWritten | ImportPersons.SplitAddress |
| scripts/import_fields_to_persons.py:43-48 | the header cells are compared with "name" before the line break is removed, so a last column "name" arrives as "name\n", passes the filter and becomes the field "name" | header "rg,name\n" | "name" is never a field to copy, whatever its position | high, not executed | ImportFields.TrailingNameKept | ImportFields.FieldList |
| scripts/import_fields_to_persons.py:71-91 | a "cpf" column shorter than 11 characters skips the CPF branch and reaches the generic branch, which reads the person's nonexistent "cpf" attribute | a "cpf" cell "123" | a short CPF is ignored like an invalid one | medium, not executed | ImportFields.ApplyFieldAsWritten | ImportFields.ApplyField |
| workgroup/views/membership.py:112-116 | the delete view removes the membership without re-deriving the "mentoring" permission, so a person whose only mentor membership is deleted keeps the group | a person with one MTR membership, which is deleted | the permission follows the remaining memberships, as after an update | medium, not executed | Memberships.DeleteAsWritten | Memberships.Delete |
| workgroup/views/membership.py:89-97 | the update view re-derives the permission only for the person the form names, so when the form hands a mentor membership to another person the first person keeps the group | a person's only MTR membership updated to name someone else | both people's permissions follow their memberships | medium, not executed | Memberships.MoveAsWritten | Memberships.Move |

=== FILE: attendance.dfy ===
/** The attendance helpers shared by publicwork/views/group.py and
    workgroup/views/mentoring.py: reading the attendance sheet back from the
    POST data (`get_listeners_dict`, identical in both views), the rank and
    frequency tally of a person, the descending sort by rank, and the
    `paginator` of rcadmin/common.py. */
module Attendance {
  import opened Text
  import opened Wrappers

  // ------------------------------------------------------------ POST data

  /** POST items in order; a key appears once. */
  type Post = seq<(string, string)>

  const CsrfKey := "csrfmiddlewaretoken"

  /** The items other than the CSRF token. */
  function FromPost(post: Post): (r: Post)
    ensures forall e :: e in r <==> e in post && e.0 != CsrfKey
  {
    if post == [] then []
    else (if post[0].0 != CsrfKey then [post[0]] else []) + FromPost(post[1..])
  }

  /** A key of the form "field-i…": splitting on "-" gives a second piece. */
  predicate Keyed(key: string) {
    |Split(key, '-')| >= 2
  }

  function Field(key: string): string { Split(key, '-')[0] }

  /** The index piece of a keyed key. */
  function Index(key: string): string
    requires Keyed(key)
  {
    Split(key, '-')[1]
  }

  predicate AllKeyed(items: Post) {
    forall j :: 0 <= j < |items| ==> Keyed(items[j].0)
  }

  /** Whether an item belongs to listener `i`. */
  predicate ForListener(e: (string, string), i: nat)
    requires Keyed(e.0)
  {
    Index(e.0) == NatToString(i)
  }

  /** The inner loop for listener `i`: every item whose index piece is
      `str(i)` sets its field; a later item overwrites an earlier one. */
  function Collect(items: Post, i: nat): map<string, string>
    requires AllKeyed(items)
  {
    if items == [] then map[]
    else
      var n := |items| - 1;
      var m := Collect(items[..n], i);
      if ForListener(items[n], i) then m[Field(items[n].0) := items[n].1] else m
  }

  /** Listener `i` has exactly the fields of the items given for it. */
  lemma {:induction false} CollectFields(items: Post, i: nat, f: string)
    requires AllKeyed(items)
    ensures f in Collect(items, i) <==> exists j :: 0 <= j < |items| && ForListener(items[j], i) && Field(items[j].0) == f
  {
    if items != [] {
      var n := |items| - 1;
      var init := items[..n];
      assert forall j :: 0 <= j < n ==> init[j] == items[j];
      CollectFields(init, i, f);
      if f in Collect(items, i) && !(ForListener(items[n], i) && Field(items[n].0) == f) {
        var j :| 0 <= j < n && ForListener(init[j], i) && Field(init[j].0) == f;
        assert ForListener(items[j], i) && Field(items[j].0) == f;
      }
    }
  }

  /** The value of a field is the one of the last item setting it. */
  lemma {:induction false} CollectLastWins(items: Post, i: nat, j: nat)
    requires AllKeyed(items)
    requires j < |items| && ForListener(items[j], i)
    requires forall k :: j < k < |items| ==> !(ForListener(items[k], i) && Field(items[k].0) == Field(items[j].0))
    ensures Field(items[j].0) in Collect(items, i) && Collect(items, i)[Field(items[j].0)] == items[j].1
  {
    var n := |items| - 1;
    if j < n {
      var init := items[..n];
      assert forall k :: 0 <= k < n ==> init[k] == items[k];
      CollectLastWins(init, i, j);
      assert !(ForListener(items[n], i) && Field(items[n].0) == Field(items[j].0));
    }
  }

  /** Whether listener `i` has a "freq" field: the test the loop applies. */
  function HasFreq(items: Post): (kept: nat -> bool)
    requires AllKeyed(items)
    ensures forall i: nat :: kept(i) <==> "freq" in Collect(items, i)
  {
    (i: nat) => "freq" in Collect(items, i)
  }

  /** `ix` lists, in increasing order, exactly the indices `from`..`to`
      that pass `kept`. */
  predicate KeptRun(kept: nat -> bool, ix: seq<nat>, from: nat, to: nat) {
    && |ix| <= (if from <= to then to - from + 1 else 0)
    && (forall k :: 0 <= k < |ix| ==> from <= ix[k] <= to && kept(ix[k]))
    && (forall k, k' :: 0 <= k < k' < |ix| ==> ix[k] < ix[k'])
    && (forall i :: from <= i <= to && kept(i) ==> i in ix)
  }

  /** The indices `from`..`to` whose listener has a "freq" field, in
      increasing order: the listeners the loop keeps. */
  function FreqIndices(items: Post, from: nat, to: nat): (ix: seq<nat>)
    requires AllKeyed(items)
    ensures KeptRun(HasFreq(items), ix, from, to)
    decreases (to as int) + 1 - (from as int)
  {
    if from > to then []
    else
      var rest := FreqIndices(items, from + 1, to);
      KeptRunCons(HasFreq(items), from, to, rest);
      (if "freq" in Collect(items, from) then [from] else []) + rest
  }

  /** Index `from`, when kept, goes in front of the run that starts after it. */
  lemma KeptRunCons(kept: nat -> bool, from: nat, to: nat, rest: seq<nat>)
    requires from <= to && KeptRun(kept, rest, from + 1, to)
    ensures KeptRun(kept, (if kept(from) then [from] else []) + rest, from, to)
  {
    var head: seq<nat> := if kept(from) then [from] else [];
    ConsInRange(kept, from, to, head, rest);
    ConsIncreasing(from, head, rest);
    ConsComplete(kept, from, to, head, rest);
  }

  lemma ConsInRange(kept: nat -> bool, from: nat, to: nat, head: seq<nat>, rest: seq<nat>)
    requires from <= to && head == (if kept(from) then [from] else [])
    requires forall k :: 0 <= k < |rest| ==> from + 1 <= rest[k] <= to && kept(rest[k])
    ensures forall k :: 0 <= k < |head + rest| ==> from <= (head + rest)[k] <= to && kept((head + rest)[k])
  {
    var ix := head + rest;
    forall k | 0 <= k < |ix| ensures from <= ix[k] <= to && kept(ix[k]) {
      if k >= |head| { assert ix[k] == rest[k - |head|]; }
    }
  }

  lemma ConsIncreasing(from: nat, head: seq<nat>, rest: seq<nat>)
    requires head == [] || head == [from]
    requires forall k :: 0 <= k < |rest| ==> from + 1 <= rest[k]
    requires forall k, k' :: 0 <= k < k' < |rest| ==> rest[k] < rest[k']
    ensures forall k, k' :: 0 <= k < k' < |head + rest| ==> (head + rest)[k] < (head + rest)[k']
  {
    var ix := head + rest;
    forall k, k' | 0 <= k < k' < |ix| ensures ix[k] < ix[k'] {
      assert ix[k'] == rest[k' - |head|];
      if k >= |head| { assert ix[k] == rest[k - |head|]; }
    }
  }

  lemma ConsComplete(kept: nat -> bool, from: nat, to: nat, head: seq<nat>, rest: seq<nat>)
    requires from <= to && head == (if kept(from) then [from] else [])
    requires forall i :: from + 1 <= i <= to && kept(i) ==> i in rest
    ensures forall i :: from <= i <= to && kept(i) ==> i in head + rest
  {
    forall i | from <= i <= to && kept(i) ensures i in head + rest {
      if i > from {
        assert i in rest;
      }
    }
  }

  /** The records at the given indices, in their order. */
  function Gather(items: Post, ix: seq<nat>): (records: seq<map<string, string>>)
    requires AllKeyed(items)
    ensures |records| == |ix|
    ensures forall k :: 0 <= k < |ix| ==> records[k] == Collect(items, ix[k])
  {
    seq(|ix|, k requires 0 <= k < |ix| => Collect(items, ix[k]))
  }

  /** `get_listeners_dict` for a sheet of `count` listeners: the fields of
      listeners 1..count that have a "freq" field, in order. A key other
      than the token without a "-" makes `lis[1]` fail as soon as the loop
      runs (None). */
  function Listeners(post: Post, count: nat): (r: Option<seq<map<string, string>>>)
    ensures r.None? <==> count >= 1 && !AllKeyed(FromPost(post))
    ensures r.Some? ==> |r.value| <= count && forall k :: 0 <= k < |r.value| ==> "freq" in r.value[k]
    ensures r.Some? && count >= 1 ==>
      AllKeyed(FromPost(post)) &&
      exists ix :: KeptRun(HasFreq(FromPost(post)), ix, 1, count) && |ix| == |r.value| &&
        forall k :: 0 <= k < |ix| ==> r.value[k] == Collect(FromPost(post), ix[k])
  {
    var items := FromPost(post);
    if count >= 1 && !AllKeyed(items) then None
    else if count == 0 then Some([])
    else
      var ix := FreqIndices(items, 1, count);
      Some(Gather(items, ix))
  }

  /** A listener with a "freq" field is on the list, with the fields its
      items give it. */
  lemma ListenerKept(post: Post, count: nat, i: nat)
    requires AllKeyed(FromPost(post)) && 1 <= i <= count
    requires "freq" in Collect(FromPost(post), i)
    ensures Listeners(post, count).Some?
    ensures Collect(FromPost(post), i) in Listeners(post, count).value
  {
    var items := FromPost(post);
    var ix := FreqIndices(items, 1, count);
    assert i in ix;
    var k :| 0 <= k < |ix| && ix[k] == i;
    var r := Listeners(post, count).value;
    assert |r| == |ix| && r[k] == Collect(items, ix[k]);
  }

  /** The token never matters. */
  lemma ListenersIgnoreToken(post: Post, count: nat)
    ensures Listeners(post, count) == Listeners(FromPost(post), count)
  {
    FromPostIdempotent(post);
  }

  lemma {:induction false} FromPostIdempotent(post: Post)
    ensures FromPost(FromPost(post)) == FromPost(post)
  {
    if post != [] {
      FromPostIdempotent(post[1..]);
      if post[0].0 != CsrfKey {
        var once := FromPost(post);
        assert once == [post[0]] + FromPost(post[1..]);
        assert once[0] == post[0] && once[1..] == FromPost(post[1..]);
        assert FromPost(once) == [once[0]] + FromPost(once[1..]);
      } else {
        assert FromPost(post) == [] + FromPost(post[1..]);
        assert [] + FromPost(post[1..]) == FromPost(post[1..]);
      }
    }
  }

  // ------------------------------------------------------------ tallies

  function Sum(xs: seq<int>): int {
    if xs == [] then 0 else Sum(xs[..|xs| - 1]) + xs[|xs| - 1]
  }

  /** One row of a frequency table: rank is the sum of the person's
      rankings and freq their number. */
  datatype Tally = Tally(id: string, name: string, status: string, rank: int, freq: nat)

  function TallyOf(id: string, name: string, status: string, rankings: seq<int>): (t: Tally)
    ensures t.freq == |rankings| && t.rank == Sum(rankings)
    ensures rankings == [] ==> t.rank == 0 && t.freq == 0
  {
    Tally(id, name, status, Sum(rankings), |rankings|)
  }

  /** One more attendance adds its ranking to the rank and one to freq. */
  lemma TallyOfSnoc(id: string, name: string, status: string, rankings: seq<int>, r: int)
    ensures TallyOf(id, name, status, rankings + [r]).rank == TallyOf(id, name, status, rankings).rank + r
    ensures TallyOf(id, name, status, rankings + [r]).freq == TallyOf(id, name, status, rankings).freq + 1
  {
    assert (rankings + [r])[..|rankings|] == rankings;
  }

  // ------------------------------------------------------------ sorting

  predicate SortedByRank(xs: seq<Tally>) {
    forall i, j :: 0 <= i < j < |xs| ==> xs[i].rank >= xs[j].rank
  }

  /** Puts `x` before the first row whose rank is not higher, so that rows
      of equal rank keep their order. */
  function Insert(x: Tally, ys: seq<Tally>): (r: seq<Tally>)
    requires SortedByRank(ys)
    ensures SortedByRank(r)
    ensures multiset(r) == multiset(ys) + multiset{x}
  {
    if ys == [] || ys[0].rank <= x.rank then
      TopOfSorted(ys, x.rank);
      ConsSorted(x, ys);
      MultisetCons(x, ys);
      [x] + ys
    else
      HeadTail(ys);
      TopOfSorted(ys, ys[0].rank);
      var rest := Insert(x, ys[1..]);
      BoundedByPool(rest, ys[1..], x, ys[0].rank);
      ConsSorted(ys[0], rest);
      MultisetCons(ys[0], ys[1..]);
      MultisetCons(ys[0], rest);
      [ys[0]] + rest
  }

  /** A sorted sequence whose head is at most `top` is bounded by `top`;
      and so is its tail, which is sorted too. */
  lemma TopOfSorted(ys: seq<Tally>, top: int)
    requires SortedByRank(ys) && (ys == [] || ys[0].rank <= top)
    ensures forall k :: 0 <= k < |ys| ==> ys[k].rank <= top
    ensures ys != [] ==> SortedByRank(ys[1..])
  {
    if ys != [] {
      forall k | 0 < k < |ys| ensures ys[k].rank <= top {
        assert ys[0].rank >= ys[k].rank;
      }
      var t := ys[1..];
      forall i, j | 0 <= i < j < |t| ensures t[i].rank >= t[j].rank {
        assert t[i] == ys[i + 1] && t[j] == ys[j + 1];
      }
    }
  }

  /** Every row drawn from a pool bounded by `top`, or the bounded `x`, is bounded. */
  lemma BoundedByPool(rest: seq<Tally>, pool: seq<Tally>, x: Tally, top: int)
    requires multiset(rest) == multiset(pool) + multiset{x}
    requires x.rank <= top && forall k :: 0 <= k < |pool| ==> pool[k].rank <= top
    ensures forall k :: 0 <= k < |rest| ==> rest[k].rank <= top
  {
    forall k | 0 <= k < |rest| ensures rest[k].rank <= top {
      assert rest[k] in multiset(rest);
      if rest[k] != x {
        assert rest[k] in multiset(pool);
        var j :| 0 <= j < |pool| && pool[j] == rest[k];
      }
    }
  }

  lemma MultisetCons<T>(y: T, rest: seq<T>)
    ensures multiset([y] + rest) == multiset(rest) + multiset{y}
  {
  }

  /** A row at least as high as every row of a sorted sequence can lead it. */
  lemma ConsSorted(y: Tally, rest: seq<Tally>)
    requires SortedByRank(rest) && forall k :: 0 <= k < |rest| ==> rest[k].rank <= y.rank
    ensures SortedByRank([y] + rest)
  {
    var r := [y] + rest;
    forall i, j | 0 <= i < j < |r| ensures r[i].rank >= r[j].rank {
      assert r[j] == rest[j - 1];
      if i > 0 { assert r[i] == rest[i - 1]; }
    }
  }

  /** Any slice of a rank-ordered table is rank-ordered. */
  lemma SortedSlice(xs: seq<Tally>, lo: nat, hi: nat)
    requires SortedByRank(xs) && lo <= hi <= |xs|
    ensures SortedByRank(xs[lo..hi])
  {
    var ys := xs[lo..hi];
    forall i, j | 0 <= i < j < |ys| ensures ys[i].rank >= ys[j].rank {
      assert ys[i] == xs[lo + i] && ys[j] == xs[lo + j];
    }
  }

  /** `sorted(rows, key=rank, reverse=True)`. */
  function SortByRank(xs: seq<Tally>): (r: seq<Tally>)
    ensures SortedByRank(r)
    ensures multiset(r) == multiset(xs)
  {
    if xs == [] then []
    else
      assert xs == [xs[0]] + xs[1..];
      Insert(xs[0], SortByRank(xs[1..]))
  }

  // ------------------------------------------------------------ pages

  /** The number of pages of `n` rows: at least one, even when empty. */
  function NumPages(n: nat, limit: nat): (p: nat)
    requires limit > 0
    ensures p >= 1
    ensures n > 0 ==> (p - 1) * limit < n <= p * limit
  {
    if n == 0 then 1
    else
      var p := (n + limit - 1) / limit;
      assert p * limit <= n + limit - 1 < p * limit + limit;
      p
  }

  /** `paginator(rows, limit, page)`: a page that is not a number gives
      page 1; a number outside 1..NumPages gives the last page. */
  function PageNumber(n: nat, limit: nat, page: Option<int>): (p: nat)
    requires limit > 0
    ensures 1 <= p <= NumPages(n, limit)
    ensures page.None? ==> p == 1
    ensures page.Some? && 1 <= page.value <= NumPages(n, limit) ==> p == page.value
    ensures page.Some? && !(1 <= page.value <= NumPages(n, limit)) ==> p == NumPages(n, limit)
  {
    if page.None? then 1
    else if 1 <= page.value <= NumPages(n, limit) then page.value
    else NumPages(n, limit)
  }

  lemma MulLe(a: nat, b: nat, c: nat)
    requires a <= b
    ensures a * c <= b * c
  {
    assert b * c == a * c + (b - a) * c;
  }

  /** Where page `p` of `n` rows starts and ends. */
  function PageBounds(n: nat, limit: nat, p: nat): (b: (nat, nat))
    requires limit > 0 && 1 <= p <= NumPages(n, limit)
    ensures b.0 == (p - 1) * limit && b.0 <= b.1 <= n && b.1 - b.0 <= limit
    ensures b.1 == if p * limit <= n then p * limit else n
  {
    PageStartFits(n, limit, p);
    var lo := (p - 1) * limit;
    (lo, if p * limit <= n then p * limit else n)
  }

  /** Page `p` starts within the rows and one page before where page `p + 1` starts. */
  lemma PageStartFits(n: nat, limit: nat, p: nat)
    requires limit > 0 && 1 <= p <= NumPages(n, limit)
    ensures (p - 1) * limit <= n
    ensures (p - 1) * limit + limit == p * limit
  {
    assert (p - 1) * limit + limit == p * limit;
    if n > 0 {
      var q := NumPages(n, limit);
      assert (q - 1) * limit < n;
      MulLe(p - 1, q - 1, limit);
    }
  }

  function Paginate<T>(xs: seq<T>, limit: nat, page: Option<int>): (r: seq<T>)
    requires limit > 0
    ensures |r| <= limit
    ensures var b := PageBounds(|xs|, limit, PageNumber(|xs|, limit, page)); r == xs[b.0..b.1]
  {
    var b := PageBounds(|xs|, limit, PageNumber(|xs|, limit, page));
    xs[b.0..b.1]
  }

  /** The pages 1..k one after the other. */
  function FirstPages<T>(xs: seq<T>, limit: nat, k: nat): seq<T>
    requires limit > 0 && k <= NumPages(|xs|, limit)
  {
    if k == 0 then [] else FirstPages(xs, limit, k - 1) + Paginate(xs, limit, Some(k))
  }

  /** The pages 1..k are the rows up to the end of page k; all pages
      together are the rows, in order. */
  lemma {:induction false} PagesCoverRows<T>(xs: seq<T>, limit: nat, k: nat)
    requires limit > 0 && 1 <= k <= NumPages(|xs|, limit)
    ensures FirstPages(xs, limit, k) == xs[..PageBounds(|xs|, limit, k).1]
    ensures k == NumPages(|xs|, limit) ==> FirstPages(xs, limit, k) == xs
  {
    if k > 1 {
      PagesCoverRows(xs, limit, k - 1);
      NextPageExtends(xs, limit, k);
      var b := PageBounds(|xs|, limit, k);
      assert xs[..b.0] + xs[b.0..b.1] == xs[..b.1];
    } else {
      assert FirstPages(xs, limit, 0) == [];
    }
    if k == NumPages(|xs|, limit) {
      LastPageEnds(|xs|, limit);
    }
  }

  /** Page `k` continues where the pages before it end. */
  lemma NextPageExtends<T>(xs: seq<T>, limit: nat, k: nat)
    requires limit > 0 && 2 <= k <= NumPages(|xs|, limit)
    ensures PageBounds(|xs|, limit, k - 1).1 == PageBounds(|xs|, limit, k).0
    ensures FirstPages(xs, limit, k) == FirstPages(xs, limit, k - 1) + xs[PageBounds(|xs|, limit, k).0..PageBounds(|xs|, limit, k).1]
  {
  }

  /** The last page ends at the last row. */
  lemma LastPageEnds(n: nat, limit: nat)
    requires limit > 0
    ensures PageBounds(n, limit, NumPages(n, limit)).1 == n
  {
  }
}

=== FILE: common.dfy ===
/** The name and phone helpers of rcadmin/common.py. */
module Common {
  import opened Text

  // ---------------------------------------------------------------- names

  /** One word of `sanitize_name`: `w.lower().capitalize()`. */
  function CapitalizeWord(w: string): string {
    Capitalize(Lower(w))
  }

  function CapitalizeAll(ws: seq<string>): (r: seq<string>)
    ensures |r| == |ws|
    ensures forall i :: 0 <= i < |ws| ==> r[i] == CapitalizeWord(ws[i])
  {
    seq(|ws|, i requires 0 <= i < |ws| => CapitalizeWord(ws[i]))
  }

  lemma CapitalizeWordPlain(w: string)
    requires |w| > 0 && NoSpace(w)
    ensures |CapitalizeWord(w)| > 0 && NoSpace(CapitalizeWord(w))
  {
    var r := CapitalizeWord(w);
    forall i | 0 <= i < |r| ensures !IsSpace(r[i]) {
      if i == 0 {
        CaseKeepsSpaces(w[0]);
        CaseKeepsSpaces(LowerChar(w[0]));
      } else {
        assert r[i] == LowerChar(Lower(w)[i]);
        CaseKeepsSpaces(w[i]);
        CaseKeepsSpaces(LowerChar(w[i]));
      }
    }
  }

  lemma CapitalizeWordIdempotent(w: string)
    ensures CapitalizeWord(CapitalizeWord(w)) == CapitalizeWord(w)
  {
    var c := CapitalizeWord(w);
    assert Lower(c) == Lower(w);
  }

  /** `sanitize_name`: the whitespace-separated words, each lower-cased and
      capitalised, joined by single spaces. Splitting the result on
      whitespace gives back exactly the capitalised words. */
  function SanitizeName(name: string): (r: string)
    ensures Words(r) == CapitalizeAll(Words(name))
    ensures r == Join(Words(r), " ")
  {
    var ws := CapitalizeAll(Words(name));
    assert PlainWords(ws) by {
      forall i | 0 <= i < |ws| ensures |ws[i]| > 0 && NoSpace(ws[i]) {
        CapitalizeWordPlain(Words(name)[i]);
      }
    }
    WordsOfJoin(ws);
    Join(ws, " ")
  }

  /** Sanitising a sanitised name changes nothing. */
  lemma SanitizeNameIdempotent(name: string)
    ensures SanitizeName(SanitizeName(name)) == SanitizeName(name)
  {
    var once := SanitizeName(name);
    var ws := Words(once);
    assert ws == CapitalizeAll(Words(name));
    forall i | 0 <= i < |ws| ensures CapitalizeAll(ws)[i] == ws[i] {
      CapitalizeWordIdempotent(Words(name)[i]);
    }
    assert CapitalizeAll(ws) == ws;
    var twice := SanitizeName(once);
    assert Words(twice) == ws;
    assert twice == Join(ws, " ") == once;
  }

  /** A middle word of `short_name`: kept lower-cased when it has at most
      three characters, otherwise reduced to its initial and a dot. */
  function Abbreviate(word: string): string {
    if |word| <= 3 then Lower(word) else [word[0], '.']
  }

  function AbbreviateAll(ws: seq<string>): (r: seq<string>)
    ensures |r| == |ws|
    ensures forall i :: 0 <= i < |ws| ==> r[i] == Abbreviate(ws[i])
  {
    seq(|ws|, i requires 0 <= i < |ws| => Abbreviate(ws[i]))
  }

  /** `short_name`: the words are the pieces of `name.split(" ")`. */
  function ShortName(name: string): string {
    var words := Split(name, ' ');
    if |words| <= 2 then name else Join(ShortParts(words), " ")
  }

  /** The words of a long name once its middle words are abbreviated. */
  function ShortParts(ws: seq<string>): (r: seq<string>)
    requires |ws| > 2
    ensures |r| == |ws| && r[0] == ws[0] && r[|r| - 1] == ws[|ws| - 1]
    ensures forall i :: 0 < i < |ws| - 1 ==> r[i] == Abbreviate(ws[i])
  {
    var mid := AbbreviateAll(ws[1..|ws| - 1]);
    var r := [ws[0]] + mid + [ws[|ws| - 1]];
    assert forall i :: 0 < i < |ws| - 1 ==> r[i] == mid[i - 1] && ws[1..|ws| - 1][i - 1] == ws[i];
    r
  }

  lemma AbbreviateNoSpace(word: string)
    requires ' ' !in word
    ensures ' ' !in Abbreviate(word)
  {
    if |word| <= 3 {
      var r := Lower(word);
      forall i | 0 <= i < |r| ensures r[i] != ' ' {
        CaseKeepsSpaces(word[i]);
      }
    }
  }

  /** What `short_name` does to each space-separated word: up to two words
      the name is returned as it is; otherwise the result has the same
      number of words, the first and the last are kept verbatim, and every
      middle word is lower-cased (length at most 3) or becomes its initial
      followed by a dot. */
  lemma ShortNameWords(name: string)
    ensures var ws := Split(name, ' ');
            |ws| <= 2 ==> ShortName(name) == name
    ensures var ws := Split(name, ' ');
            var rs := Split(ShortName(name), ' ');
            && |rs| == |ws|
            && rs[0] == ws[0]
            && rs[|rs| - 1] == ws[|ws| - 1]
            && forall i :: 0 < i < |ws| - 1 ==>
                 rs[i] == (if |ws[i]| <= 3 then Lower(ws[i]) else [ws[i][0], '.'])
  {
    var ws := Split(name, ' ');
    if |ws| > 2 {
      ShortNameSplit(name, ws);
    }
  }

  /** Splitting a shortened long name gives its abbreviated words back. */
  lemma ShortNameSplit(name: string, ws: seq<string>)
    requires ws == Split(name, ' ') && |ws| > 2
    ensures Split(ShortName(name), ' ') == ShortParts(ws)
  {
    ShortPartsNoSpace(ws);
    SplitJoin(ShortParts(ws), ' ');
  }

  lemma ShortPartsNoSpace(ws: seq<string>)
    requires |ws| > 2 && forall i :: 0 <= i < |ws| ==> ' ' !in ws[i]
    ensures forall i :: 0 <= i < |ws| ==> ' ' !in ShortParts(ws)[i]
  {
    var parts := ShortParts(ws);
    forall i | 0 <= i < |parts| ensures ' ' !in parts[i] {
      if 0 < i < |parts| - 1 {
        AbbreviateNoSpace(ws[i]);
      }
    }
  }

  // ---------------------------------------------------------------- phones

  predicate StartsWithPlus(s: string) {
    |s| > 0 && s[0] == '+'
  }

  /** `phone_format(num, country)`. */
  function PhoneFormat(num: string, country: string): (r: string) {
    var n := if StartsWithPlus(num) then "+" + Digits(num) else Digits(num);
    if n == "" then ""
    else if country == "BR" then
      if StartsWithPlus(n) then
        if |n| == 14 then
          "+" + Slice(n, 1, 3) + " " + Slice(n, 3, 5) + " " + Slice(n, 5, 10) + "-" + From(n, 10)
        else
          "+" + Slice(n, 1, 3) + " " + Slice(n, 3, 5) + " " + Slice(n, 5, 9) + "-" + From(n, 9)
      else if |n| == 11 then "+55 " + n[..2] + " " + n[2..7] + "-" + n[7..]
      else if |n| == 10 then "+55 " + n[..2] + " " + n[2..6] + "-" + n[6..]
      else n
    else n
  }

  /** The result is empty exactly when the input neither starts with "+"
      nor holds a digit. */
  lemma PhoneFormatEmpty(num: string, country: string)
    ensures PhoneFormat(num, country) == "" <==> !StartsWithPlus(num) && Digits(num) == ""
  {
  }

  /** Separators without digits vanish from `Digits`. */
  lemma DigitsSkip(x: string, sep: string, y: string)
    requires forall i :: 0 <= i < |sep| ==> !IsDigit(sep[i])
    ensures Digits(x + sep + y) == Digits(x) + Digits(y)
  {
    var xs := x + sep;
    DigitsOfNonDigits(sep);
    DigitsAppend(x, sep);
    assert Digits(xs) == Digits(x) + [];
    assert Digits(xs) == Digits(x);
    DigitsAppend(xs, y);
  }

  lemma DigitsOfLayout(lead: string, a: string, b: string, c: string, d: string, s2: string)
    requires forall i :: 0 <= i < |lead| ==> !IsDigit(lead[i])
    requires forall i :: 0 <= i < |s2| ==> !IsDigit(s2[i])
    ensures Digits(lead + a + " " + b + s2 + c + "-" + d) == Digits(a + b + c + d)
  {
    var p1 := lead + a;
    var p2 := p1 + " " + b;
    var p3 := p2 + s2 + c;
    DigitsSkip(p3, "-", d);
    DigitsSkip(p2, s2, c);
    DigitsSkip(p1, " ", b);
    DigitsOfNonDigits(lead);
    DigitsAppend(lead, a);
    EmptyAppend(Digits(a));
    DigitsAppend(a + b + c, d);
    DigitsAppend(a + b, c);
    DigitsAppend(a, b);
  }

  /** Formatting keeps every digit of the input, in order, and adds none,
      except the "55" country code put in front of a bare 10- or 11-digit
      Brazilian number. */
  lemma PhoneFormatDigits(num: string, country: string)
    ensures var d := Digits(num);
            Digits(PhoneFormat(num, country))
              == if country == "BR" && !StartsWithPlus(num) && (|d| == 10 || |d| == 11)
                 then "55" + d else d
  {
    var d := Digits(num);
    if StartsWithPlus(num) {
      if country == "BR" {
        PlusLayoutDigits(d);
      } else {
        DigitsOfDigits(d);
        DigitsAppend("+", d);
      }
    } else if country == "BR" && (|d| == 11 || |d| == 10) {
      BareLayoutDigits(d);
    } else {
      DigitsOfDigits(d);
    }
  }

  /** The "+" layout of PhoneFormat keeps the digits after the plus. */
  lemma PlusLayoutDigits(d: string)
    requires AllDigits(d)
    ensures var n := "+" + d;
            var cut := if |n| == 14 then 10 else 9;
            Digits("+" + Slice(n, 1, 3) + " " + Slice(n, 3, 5) + " " + Slice(n, 5, cut) + "-" + From(n, cut)) == d
  {
    var n := "+" + d;
    var cut := if |n| == 14 then 10 else 9;
    var top := if |n| >= cut then |n| else cut;
    SliceConcat(n, 1, 3, 5);
    SliceConcat(n, 1, 5, cut);
    SliceConcat(n, 1, cut, top);
    assert Slice(n, cut, top) == From(n, cut);
    assert Slice(n, 1, top) == d;
    DigitsOfLayout("+", Slice(n, 1, 3), Slice(n, 3, 5), Slice(n, 5, cut), From(n, cut), " ");
    DigitsOfDigits(d);
  }

  /** The bare 10/11-digit layout of PhoneFormat prefixes "55". */
  lemma BareLayoutDigits(d: string)
    requires AllDigits(d) && (|d| == 11 || |d| == 10)
    ensures var cut := if |d| == 11 then 7 else 6;
            Digits("+55 " + d[..2] + " " + d[2..cut] + "-" + d[cut..]) == "55" + d
  {
    var cut := if |d| == 11 then 7 else 6;
    assert "+55 " + d[..2] + " " + d[2..cut] + "-" + d[cut..]
        == "+" + "55" + " " + d[..2] + " " + d[2..cut] + "-" + d[cut..];
    DigitsOfLayout("+", "55", d[..2], d[2..cut], d[cut..], " ");
    assert "55" + d[..2] + d[2..cut] + d[cut..] == "55" + d;
    DigitsAppend("55", d);
    DigitsOfDigits("55");
    DigitsOfDigits(d);
  }

  /** The Brazilian layouts: 11 digits give "+55 AA NNNNN-NNNN", 10 digits
      give "+55 AA NNNN-NNNN", any other count without "+" gives the bare
      digits; a leading "+" is kept. */
  lemma PhoneFormatShape(num: string)
    ensures var d := Digits(num);
            var r := PhoneFormat(num, "BR");
            && (!StartsWithPlus(num) && |d| == 11 ==>
                 |r| == 17 && r[..4] == "+55 " && r[6] == ' ' && r[12] == '-'
                 && r[4..6] == d[..2] && r[7..12] == d[2..7] && r[13..] == d[7..])
            && (!StartsWithPlus(num) && |d| == 10 ==>
                 |r| == 16 && r[..4] == "+55 " && r[6] == ' ' && r[11] == '-'
                 && r[4..6] == d[..2] && r[7..11] == d[2..6] && r[12..] == d[6..])
            && (!StartsWithPlus(num) && |d| != 10 && |d| != 11 ==> r == d)
            && (StartsWithPlus(num) ==> |r| > 0 && r[0] == '+')
  {
    var d := Digits(num);
    if !StartsWithPlus(num) {
      if |d| == 11 {
        LayoutShape(d, 7);
      } else if |d| == 10 {
        LayoutShape(d, 6);
      }
    }
  }

  /** The bare layout "+55 AA N…N-NNNN" cut at `cut`, character by character. */
  lemma LayoutShape(d: string, cut: nat)
    requires 2 <= cut <= |d|
    ensures var r := "+55 " + d[..2] + " " + d[2..cut] + "-" + d[cut..];
            && |r| == |d| + 6 && r[..4] == "+55 " && r[6] == ' ' && r[cut + 5] == '-'
            && r[4..6] == d[..2] && r[7..cut + 5] == d[2..cut] && r[cut + 6..] == d[cut..]
  {
  }
}

=== FILE: cpf.dfy ===
/** The Brazilian taxpayer number (CPF) helpers of rcadmin/common.py:
    `cpf_validation` and `cpf_format`. A CPF has eleven digits; the last
    two are check digits computed modulo 11 from the ones before them. */
module Cpf {
  import opened Text
  import opened Common

  /** The weights of the first check digit, for the nine leading digits. */
  const Weights1: seq<nat> := [10, 9, 8, 7, 6, 5, 4, 3, 2]

  /** The weights of the second check digit, for the ten leading digits. */
  const Weights2: seq<nat> := [11, 10, 9, 8, 7, 6, 5, 4, 3, 2]

  /** The ten rejected numbers "00000000000" … "99999999999". */
  const Blacklist: seq<string> := [
    "00000000000", "11111111111", "22222222222", "33333333333", "44444444444",
    "55555555555", "66666666666", "77777777777", "88888888888", "99999999999"
  ]

  /** `sum(int(d) * ws[n] for n, d in enumerate(ds))`. */
  function WeightedSum(ds: string, ws: seq<nat>): nat
    requires AllDigits(ds) && |ds| <= |ws|
  {
    if ds == [] then 0 else DigitValue(ds[0]) * ws[0] + WeightedSum(ds[1..], ws[1..])
  }

  /** `11 - sum % 11`, replaced by 0 when it exceeds 9. */
  function CheckDigit(sum: nat): (d: nat)
    ensures d <= 9
  {
    var d := 11 - sum % 11;
    if d > 9 then 0 else d
  }

  /** `cpf_validation(num)`: the digits of `num` form a valid CPF. */
  function CpfValidation(num: string): (ok: bool)
    ensures ok ==> |Digits(num)| == 11
  {
    var cpf := Digits(num);
    if |cpf| != 11 then false
    else if cpf in Blacklist then false
    else
      var digit1 := CheckDigit(WeightedSum(cpf[..9], Weights1));
      if cpf[9..10] != NatToString(digit1) then false
      else
        var digit2 := CheckDigit(WeightedSum(cpf[..9] + NatToString(digit1), Weights2));
        if cpf[9..] != NatToString(digit1) + NatToString(digit2) then false
        else true
  }

  // ------------------------------------------------------ reference rule

  /** The check-digit sum written position by position: digit `i` of the
      first `n` digits weighs `top - i`. */
  function PositionSum(c: string, n: nat, top: nat): nat
    requires n <= |c| && AllDigits(c) && n <= top
  {
    if n == 0 then 0 else PositionSum(c, n - 1, top) + DigitValue(c[n - 1]) * (top - (n - 1))
  }

  /** The usual statement of the CPF check digit: ten times the sum, modulo
      11, modulo 10. */
  function ModElevenDigit(sum: nat): nat {
    (10 * sum) % 11 % 10
  }

  predicate SameDigit(c: string) {
    forall i :: 0 <= i < |c| ==> c[i] == c[0]
  }

  /** A valid CPF: eleven digits, not all the same, whose tenth and
      eleventh digits are the mod-11 check digits of the digits before. */
  predicate ValidCpf(c: string) {
    && |c| == 11 && AllDigits(c) && !SameDigit(c)
    && DigitValue(c[9]) == ModElevenDigit(PositionSum(c, 9, 10))
    && DigitValue(c[10]) == ModElevenDigit(PositionSum(c, 10, 11))
  }

  // ------------------------------------------------------------- proofs

  lemma {:induction false} WeightedSumIsPositionSum(c: string, n: nat, ws: seq<nat>, top: nat)
    requires AllDigits(c) && n <= |c| && n <= top && |ws| == n
    requires forall i :: 0 <= i < n ==> ws[i] == top - i
    ensures WeightedSum(c[..n], ws) == PositionSum(c, n, top)
  {
    if n > 0 {
      WeightedSumSnoc(c[..n - 1], ws[..n - 1], c[n - 1], ws[n - 1]);
      assert c[..n - 1] + [c[n - 1]] == c[..n];
      assert ws[..n - 1] + [ws[n - 1]] == ws;
      WeightedSumIsPositionSum(c, n - 1, ws[..n - 1], top);
    }
  }

  lemma {:induction false} WeightedSumSnoc(ds: string, ws: seq<nat>, d: char, w: nat)
    requires AllDigits(ds) && |ds| == |ws| && IsDigit(d)
    ensures AllDigits(ds + [d])
    ensures WeightedSum(ds + [d], ws + [w]) == WeightedSum(ds, ws) + DigitValue(d) * w
  {
    assert AllDigits(ds + [d]) by {
      forall i | 0 <= i < |ds + [d]| ensures IsDigit((ds + [d])[i]) {
        if i < |ds| { assert (ds + [d])[i] == ds[i]; }
      }
    }
    if ds != [] {
      assert (ds + [d])[1..] == ds[1..] + [d];
      assert (ws + [w])[1..] == ws[1..] + [w];
      WeightedSumSnoc(ds[1..], ws[1..], d, w);
    }
  }

  /** `11 - s % 11` with 10 and 11 mapped to 0 is the usual mod-11 rule. */
  lemma CheckDigitIsModEleven(sum: nat)
    ensures CheckDigit(sum) == ModElevenDigit(sum)
  {
    var q := sum / 11;
    var r := sum % 11;
    assert 10 * sum == 110 * q + 10 * r;
    assert (10 * sum) % 11 == (10 * r) % 11;
  }

  lemma DigitString(d: nat)
    requires d <= 9
    ensures NatToString(d) == [DigitChar(d)]
  {
  }

  /** An eleven-digit string is in the blacklist exactly when all its digits
      are the same. */
  lemma BlacklistIsSameDigit(c: string)
    requires |c| == 11 && AllDigits(c)
    ensures c in Blacklist <==> SameDigit(c)
  {
    BlacklistRows();
    if SameDigit(c) {
      var k := DigitValue(c[0]);
      assert DigitChar(k) == c[0];
      assert Blacklist[k] == c;
    }
    if c in Blacklist {
      var k :| 0 <= k < 10 && Blacklist[k] == c;
    }
  }

  /** Row `k` of the blacklist is digit `k` eleven times. */
  lemma BlacklistRows()
    ensures |Blacklist| == 10
    ensures forall k :: 0 <= k < 10 ==> Blacklist[k] == Repeat(DigitChar(k), 11)
  {
    forall k | 0 <= k < 10 ensures Blacklist[k] == Repeat(DigitChar(k), 11) {
      var row, rep := Blacklist[k], Repeat(DigitChar(k), 11);
      assert |row| == 11;
      forall i | 0 <= i < 11 ensures row[i] == rep[i] {
      }
    }
  }

  /** `cpf_validation` accepts exactly the strings whose digits form a valid
      CPF. */
  lemma CpfValidationSpec(num: string)
    ensures CpfValidation(num) <==> ValidCpf(Digits(num))
  {
    var c := Digits(num);
    if |c| == 11 {
      BlacklistIsSameDigit(c);
      WeightedSumIsPositionSum(c, 9, Weights1, 10);
      WeightedSumIsPositionSum(c, 10, Weights2, 11);
      var d1 := CheckDigit(WeightedSum(c[..9], Weights1));
      CheckDigitIsModEleven(WeightedSum(c[..9], Weights1));
      DigitString(d1);
      assert c[9..10] == [c[9]];
      if c[9..10] == NatToString(d1) {
        assert c[..9] + NatToString(d1) == c[..10];
        var d2 := CheckDigit(WeightedSum(c[..10], Weights2));
        CheckDigitIsModEleven(WeightedSum(c[..10], Weights2));
        DigitString(d2);
        assert c[9..] == [c[9], c[10]];
      } else {
        assert DigitValue(c[9]) != d1;
      }
    }
  }

  /** Only the digits of the input matter. */
  lemma CpfValidationDigitsOnly(num: string)
    ensures CpfValidation(num) == CpfValidation(Digits(num))
  {
    DigitsOfDigits(Digits(num));
  }

  /** The sum of the weights `top - i` for `i < n`. */
  function WeightTotal(n: nat, top: nat): nat
    requires n <= top
  {
    if n == 0 then 0 else WeightTotal(n - 1, top) + (top - (n - 1))
  }

  lemma {:induction false} PositionSumSame(c: string, n: nat, top: nat, k: nat)
    requires n <= |c| && AllDigits(c) && n <= top
    requires forall i :: 0 <= i < n ==> DigitValue(c[i]) == k
    ensures PositionSum(c, n, top) == k * WeightTotal(n, top)
  {
    if n > 0 {
      PositionSumSame(c, n - 1, top, k);
      var w := WeightTotal(n - 1, top);
      var m := top - (n - 1);
      assert k * w + k * m == k * (w + m);
    }
  }

  /** Every number of eleven equal digits passes both check-digit tests, so
      the blacklist is what rejects it. */
  lemma SameDigitsPassChecksum(k: nat)
    requires k <= 9
    ensures var c := Repeat(DigitChar(k), 11);
            && DigitValue(c[9]) == ModElevenDigit(PositionSum(c, 9, 10))
            && DigitValue(c[10]) == ModElevenDigit(PositionSum(c, 10, 11))
  {
    var c := Repeat(DigitChar(k), 11);
    assert DigitValue(c[9]) == k && DigitValue(c[10]) == k;
    PositionSumSame(c, 9, 10, k);
    PositionSumSame(c, 10, 11, k);
    assert WeightTotal(9, 10) == 54;
    assert WeightTotal(10, 11) == 65;
    SameDigitRule(k, 54, 49);
    SameDigitRule(k, 65, 59);
  }

  /** When ten times the weight total is one more than a multiple of 11,
      every digit is its own check digit. */
  lemma SameDigitRule(k: nat, w: nat, q: nat)
    requires k <= 9 && 10 * w == 11 * q + 1
    ensures ModElevenDigit(k * w) == k
  {
    var a := k * q;
    assert 10 * (k * w) == k * (10 * w);
    assert k * (11 * q + 1) == 11 * a + k;
    ElevenMultiplePlus(a, k);
  }

  lemma ElevenMultiplePlus(a: nat, k: nat)
    requires k < 11
    ensures (11 * a + k) % 11 == k
  {
    var x := 11 * a + k;
    assert x == 11 * a + k;
  }

  // ------------------------------------------------------------ format

  /** `cpf_format(num)`: the digits laid out as "DDD.DDD.DDD-DD" (Python's
      clamped slices when there are fewer digits). */
  function CpfFormat(num: string): (r: string) {
    var cpf := Digits(num);
    Slice(cpf, 0, 3) + "." + Slice(cpf, 3, 6) + "." + Slice(cpf, 6, 9) + "-" + From(cpf, 9)
  }

  /** The separators add no digit: formatting keeps the digits, so a
      formatted CPF reads back as the same number. */
  lemma CpfFormatDigits(num: string)
    ensures Digits(CpfFormat(num)) == Digits(num)
  {
    var c := Digits(num);
    var top := if |c| >= 9 then |c| else 9;
    var a, b, d, e := Slice(c, 0, 3), Slice(c, 3, 6), Slice(c, 6, 9), From(c, 9);
    SliceConcat(c, 0, 3, 6);
    SliceConcat(c, 0, 6, 9);
    SliceConcat(c, 0, 9, top);
    assert Slice(c, 9, top) == e;
    assert a + b + d + e == c;
    var p1 := a + "." + b;
    var p2 := p1 + "." + d;
    assert CpfFormat(num) == p2 + "-" + e;
    DigitsSkip(p2, "-", e);
    DigitsSkip(p1, ".", d);
    DigitsSkip(a, ".", b);
    DigitsAppend(a + b + d, e);
    DigitsAppend(a + b, d);
    DigitsAppend(a, b);
    DigitsOfDigits(c);
  }

  /** With eleven digits the layout is fixed: dots at positions 3 and 7, a
      dash at 11, and the digits in order in between. */
  lemma CpfFormatShape(num: string)
    requires |Digits(num)| == 11
    ensures var c := Digits(num);
            var r := CpfFormat(num);
            && |r| == 14 && r[3] == '.' && r[7] == '.' && r[11] == '-'
            && r[..3] == c[..3] && r[4..7] == c[3..6] && r[8..11] == c[6..9] && r[12..] == c[9..]
  {
  }

  /** Formatting does not change whether a number is a valid CPF. */
  lemma CpfFormatKeepsValidity(num: string)
    ensures CpfValidation(CpfFormat(num)) == CpfValidation(num)
  {
    CpfFormatDigits(num);
  }
}

=== FILE: event_frequencies.dfy ===
/** event/views/frequencies.py, `frequencies_add`: registration numbers
    typed as a comma-separated list are launched on an event. Numbers
    already on the event are skipped; every other number is launched when
    exactly one person has it, and is reported unknown otherwise. The view
    iterates a Python set, so both outcomes are modelled as sets. */
module EventFrequencies {
  import opened Text

  /** The numbers of the typed text: spaces removed, split on ",", empty
      pieces dropped, duplicates collapsed. */
  function ParseRegs(text: string): (regs: set<string>)
    ensures forall r :: r in regs <==> r in Split(RemoveChar(text, ' '), ',') && r != ""
    ensures forall r :: r in regs ==> r != "" && ' ' !in r && ',' !in r
  {
    var parts := Split(RemoveChar(text, ' '), ',');
    assert forall r :: r in parts ==> ' ' !in r by {
      forall r | r in parts ensures ' ' !in r {
        PartsAvoid(RemoveChar(text, ' '), ',', ' ', r);
      }
    }
    set r | r in parts && r != ""
  }

  /** A character absent from a text is absent from its parts. */
  lemma {:induction false} PartsAvoid(s: string, sep: char, c: char, part: string)
    requires c !in s && part in Split(s, sep)
    ensures c !in part
  {
    if s != [] {
      var rest := Split(s[1..], sep);
      assert c !in s[1..] by { assert forall k :: 0 <= k < |s[1..]| ==> s[1..][k] == s[k + 1]; }
      if part in rest {
        PartsAvoid(s[1..], sep, c, part);
      } else if s[0] != sep && part == [s[0]] + rest[0] {
        PartsAvoid(s[1..], sep, c, rest[0]);
      }
    }
  }

  /** Numbers written with commas, without spaces or empty pieces, read
      back as exactly the set of those numbers. */
  lemma ParseJoinedRegs(regs: seq<string>)
    requires |regs| >= 1
    requires forall i :: 0 <= i < |regs| ==> regs[i] != "" && ' ' !in regs[i] && ',' !in regs[i]
    ensures ParseRegs(Join(regs, ",")) == set r | r in regs
  {
    var text := Join(regs, ",");
    JoinAvoids(regs, ",", ' ');
    RemoveAbsentChar(text, ' ');
    SplitJoin(regs, ',');
  }

  /** How many persons have a registration number. */
  function Holders(regsOfPeople: seq<string>, reg: string): nat {
    if regsOfPeople == [] then 0
    else (if regsOfPeople[0] == reg then 1 else 0) + Holders(regsOfPeople[1..], reg)
  }

  lemma {:induction false} HoldersZero(regsOfPeople: seq<string>, reg: string)
    ensures Holders(regsOfPeople, reg) == 0 <==> reg !in regsOfPeople
  {
    if regsOfPeople != [] {
      HoldersZero(regsOfPeople[1..], reg);
      assert regsOfPeople == [regsOfPeople[0]] + regsOfPeople[1..];
    }
  }

  /** `Person.objects.get(reg=reg)` succeeds: exactly one holder. */
  predicate Found(regsOfPeople: seq<string>, reg: string) {
    Holders(regsOfPeople, reg) == 1
  }

  /** The result of a POST: the numbers launched, the ones reported
      unknown, and whether the view redirects. */
  datatype Outcome = Outcome(launched: set<string>, unknown: set<string>, redirects: bool)

  function FrequenciesAdd(text: string, onEvent: set<string>, regsOfPeople: seq<string>): (o: Outcome)
    ensures o.launched !! o.unknown
    ensures o.launched + o.unknown == ParseRegs(text) - onEvent
    ensures o.launched !! onEvent && o.unknown !! onEvent
    ensures forall r :: r in o.launched ==> r in regsOfPeople
    ensures o.redirects <==> o.unknown == {}
  {
    var toLaunch := ParseRegs(text) - onEvent;
    var launched := set r | r in toLaunch && Found(regsOfPeople, r);
    var unknown := set r | r in toLaunch && !Found(regsOfPeople, r);
    assert forall r :: r in launched ==> r in regsOfPeople by {
      forall r | r in launched ensures r in regsOfPeople {
        HoldersZero(regsOfPeople, r);
      }
    }
    Outcome(launched, unknown, unknown == {})
  }

  /** A number nobody holds is reported unknown, unless it is already on
      the event. */
  lemma UnheldIsUnknown(text: string, onEvent: set<string>, regsOfPeople: seq<string>, reg: string)
    requires reg in ParseRegs(text) && reg !in onEvent && reg !in regsOfPeople
    ensures reg in FrequenciesAdd(text, onEvent, regsOfPeople).unknown
  {
    HoldersZero(regsOfPeople, reg);
  }

  /** A number held by exactly one person, at index `i`, and not yet on
      the event is launched. */
  lemma UniquelyHeldIsLaunched(text: string, onEvent: set<string>, regsOfPeople: seq<string>, reg: string, i: int)
    requires reg in ParseRegs(text) && reg !in onEvent
    requires 0 <= i < |regsOfPeople| && regsOfPeople[i] == reg
    requires forall j :: 0 <= j < |regsOfPeople| && j != i ==> regsOfPeople[j] != reg
    ensures reg in FrequenciesAdd(text, onEvent, regsOfPeople).launched
  {
    HoldersOne(regsOfPeople, reg, i);
  }

  /** A number held by two persons, at indices `i` and `j`, and not yet on
      the event is reported unknown: `get` finds more than one object. */
  lemma DoublyHeldIsUnknown(text: string, onEvent: set<string>, regsOfPeople: seq<string>, reg: string, i: int, j: int)
    requires reg in ParseRegs(text) && reg !in onEvent
    requires 0 <= i < |regsOfPeople| && 0 <= j < |regsOfPeople| && i != j
    requires regsOfPeople[i] == reg && regsOfPeople[j] == reg
    ensures reg in FrequenciesAdd(text, onEvent, regsOfPeople).unknown
  {
    if i < j {
      HoldersTwo(regsOfPeople, reg, i, j);
    } else {
      HoldersTwo(regsOfPeople, reg, j, i);
    }
  }

  /** One index holding the number makes exactly one holder. */
  lemma {:induction false} HoldersOne(regsOfPeople: seq<string>, reg: string, i: int)
    requires 0 <= i < |regsOfPeople| && regsOfPeople[i] == reg
    requires forall j :: 0 <= j < |regsOfPeople| && j != i ==> regsOfPeople[j] != reg
    ensures Holders(regsOfPeople, reg) == 1
  {
    var tail := regsOfPeople[1..];
    if i == 0 {
      assert reg !in tail by {
        forall k | 0 <= k < |tail| ensures tail[k] != reg {
          assert tail[k] == regsOfPeople[k + 1];
        }
      }
      HoldersZero(tail, reg);
    } else {
      assert forall k :: 0 <= k < |tail| && k != i - 1 ==> tail[k] == regsOfPeople[k + 1];
      HoldersOne(tail, reg, i - 1);
    }
  }

  /** Two indices holding the number make at least two holders. */
  lemma {:induction false} HoldersTwo(regsOfPeople: seq<string>, reg: string, i: int, j: int)
    requires 0 <= i < j < |regsOfPeople|
    requires regsOfPeople[i] == reg && regsOfPeople[j] == reg
    ensures Holders(regsOfPeople, reg) >= 2
  {
    var tail := regsOfPeople[1..];
    assert tail[j - 1] == reg;
    if i == 0 {
      HoldersZero(tail, reg);
    } else {
      assert tail[i - 1] == reg;
      HoldersTwo(tail, reg, i - 1, j - 1);
    }
  }
}

=== FILE: import_fields.dfy ===
/** scripts/import_fields_to_persons.py: reads a "fields__" CSV file whose
    first line names the columns to copy, finds for every row the first
    person of the centre whose name contains the row's name, copies the
    listed columns onto that person (deriving `id_card` from "rg"/"exp" or
    from a valid "cpf"), counts the changes, saves changed persons and
    writes a report. A person is its e-mail plus a map of attribute name to
    value; reading an attribute a person does not have is an error, as in
    Python. */
module ImportFields {
  import opened Text
  import opened Common
  import opened Wrappers
  import opened Cpf
  import opened Persons
  import opened Reports
  import SanitizeCsv

  /** A CSV row by column name; an absent column reads as "". */
  type Row = map<string, string>

  function Field(row: Row, k: string): string {
    if k in row then row[k] else ""
  }

  /** A person as the script sees it: `getattr`/`setattr` on named attributes. */
  datatype Target = Target(email: string, attrs: map<string, string>)

  /** Every person has a name, an id card, a short name and an accent-free name. */
  predicate HasPersonFields(t: Target) {
    "name" in t.attrs && "id_card" in t.attrs && "short_name" in t.attrs && "name_sa" in t.attrs
  }

  const DefaultDates: seq<string> := ["birth", "A1", "A2", "A3", "A4", "GR", "A5", "A6"]

  // --------------------------------------------------------- field list

  /** The cells of the header line kept as written: those equal to "" or
      "name" are dropped first, and only then is "\n" removed. */
  function KeepAsWritten(cells: seq<string>): (fs: seq<string>)
    ensures |fs| <= |cells|
  {
    if cells == [] then []
    else
      var rest := KeepAsWritten(cells[1..]);
      if cells[0] != "" && cells[0] != "name" then [RemoveChar(cells[0], '\n')] + rest else rest
  }

  /** The field list as written: the header line, which still ends in "\n",
      is split on ",". */
  function FieldListAsWritten(header: string): seq<string> {
    KeepAsWritten(Split(header, ','))
  }

  /** The header cells with "\n" removed first, then "" and "name" dropped. */
  function KeepCells(cells: seq<string>): (fs: seq<string>)
    ensures forall i :: 0 <= i < |fs| ==> fs[i] != "" && fs[i] != "name" && '\n' !in fs[i]
  {
    if cells == [] then []
    else
      var c := RemoveChar(cells[0], '\n');
      var rest := KeepCells(cells[1..]);
      if c != "" && c != "name" then [c] + rest else rest
  }

  /** Every field is a header cell with its line break removed. */
  lemma {:induction false} KeepCellsSound(cells: seq<string>, k: nat) returns (j: nat)
    requires k < |KeepCells(cells)|
    ensures j < |cells| && KeepCells(cells)[k] == RemoveChar(cells[j], '\n')
  {
    var c := RemoveChar(cells[0], '\n');
    var rest := KeepCells(cells[1..]);
    var here := c != "" && c != "name";
    assert KeepCells(cells) == if here then [c] + rest else rest;
    if here && k == 0 {
      j := 0;
    } else {
      var j' := KeepCellsSound(cells[1..], if here then k - 1 else k);
      j := j' + 1;
    }
  }

  /** Every header cell that is neither blank nor "name" once its line
      break is removed is a field. */
  lemma {:induction false} KeepCellsComplete(cells: seq<string>, j: nat)
    requires j < |cells| && RemoveChar(cells[j], '\n') != "" && RemoveChar(cells[j], '\n') != "name"
    ensures RemoveChar(cells[j], '\n') in KeepCells(cells)
  {
    var c := RemoveChar(cells[0], '\n');
    var rest := KeepCells(cells[1..]);
    assert KeepCells(cells) == if c != "" && c != "name" then [c] + rest else rest;
    if j > 0 {
      assert cells[1..][j - 1] == cells[j];
      KeepCellsComplete(cells[1..], j - 1);
    }
  }

  /** The field list with the line break removed before the filter: no
      field is blank or "name", and none keeps a line break. */
  function FieldList(header: string): (fs: seq<string>)
    ensures forall i :: 0 <= i < |fs| ==> fs[i] != "" && fs[i] != "name" && '\n' !in fs[i]
  {
    KeepCells(Split(header, ','))
  }

  /** Whenever the header's last column is "name", the field list as
      written keeps "name" (the cell is still "name\n" when the filter looks
      at it), so the row's name is later copied over the person's name; the
      corrected list drops it. */
  lemma TrailingNameKept(p: string)
    requires ',' !in p && '\n' !in p && p != "" && p != "name"
    ensures FieldListAsWritten(p + ",name\n") == [p, "name"]
    ensures FieldList(p + ",name\n") == [p]
  {
    SplitTrailingName(p);
    RemoveAbsentChar(p, '\n');
    TrailingNameAsWritten(p, Split(p + ",name\n", ','));
    TrailingNameDropped(p, Split(p + ",name\n", ','));
  }

  lemma TrailingNameAsWritten(p: string, cells: seq<string>)
    requires cells == [p, "name\n"] && RemoveChar(p, '\n') == p && p != "" && p != "name"
    ensures KeepAsWritten(cells) == [p, "name"]
  {
    KeepNameCell();
    var rest := cells[1..];
    assert rest == ["name\n"];
    assert cells[0] != "" && cells[0] != "name";
    assert KeepAsWritten(cells) == [RemoveChar(cells[0], '\n')] + KeepAsWritten(rest);
  }

  lemma TrailingNameDropped(p: string, cells: seq<string>)
    requires cells == [p, "name\n"] && RemoveChar(p, '\n') == p && p != "" && p != "name"
    ensures KeepCells(cells) == [p]
  {
    KeepNameCell();
    assert cells[1..] == ["name\n"];
  }

  /** The cell "name\n" passes the filter as written and not the corrected one. */
  lemma KeepNameCell()
    ensures KeepAsWritten(["name\n"]) == ["name"]
    ensures KeepCells(["name\n"]) == []
  {
    var cells := ["name\n"];
    RemoveNewlineOfName();
    assert cells[0] != "" && cells[0] != "name" by { assert |cells[0]| == 5; }
    assert cells[1..] == [];
    assert KeepAsWritten(cells) == [RemoveChar(cells[0], '\n')] + KeepAsWritten(cells[1..]);
    assert KeepCells(cells) == KeepCells(cells[1..]);
  }

  lemma RemoveNewlineOfName()
    ensures RemoveChar("name\n", '\n') == "name"
  {
    assert "name\n" == "name" + "\n";
    RemoveCharAppend("name", "\n", '\n');
    RemoveAbsentChar("name", '\n');
    assert RemoveChar("\n", '\n') == [];
  }

  lemma SplitTrailingName(p: string)
    requires ',' !in p
    ensures Split(p + ",name\n", ',') == [p, "name\n"]
  {
    var t := ",name\n";
    SplitCommaName();
    SplitPrefix(p, t, ',');
    var st := Split(t, ',');
    assert st[0] == "" && st[1..] == ["name\n"];
    AppendEmpty(p);
  }

  lemma SplitCommaName()
    ensures Split(",name\n", ',') == ["", "name\n"]
  {
    var t := [','] + "name\n";
    SplitNoSep("name\n", ',');
    assert t[1..] == "name\n";
    assert t == ",name\n";
  }

  // --------------------------------------------------------- one field

  /** The id card an "rg" column gives: "rg / exp" when "exp" is not empty. */
  function IdCardFromRg(row: Row): (idCard: string)
    ensures Field(row, "exp") == "" ==> idCard == Field(row, "rg")
    ensures Field(row, "exp") != "" ==> idCard == Field(row, "rg") + " / " + Field(row, "exp")
  {
    if Field(row, "exp") != "" then Field(row, "rg") + " / " + Field(row, "exp") else Field(row, "rg")
  }

  /** Sets `attr` to `value` and reports whether this changed it. */
  function SetIfDifferent(t: Target, attr: string, value: string, current: string): (r: (Target, bool))
    requires attr in t.attrs
    ensures r.1 <==> current != value
    ensures r.1 ==> r.0 == t.(attrs := t.attrs[attr := value])
    ensures !r.1 ==> r.0 == t
  {
    if current != value then (t.(attrs := t.attrs[attr := value]), true) else (t, false)
  }

  /** One column of the field list applied to the matched person as the
      source does it: a "cpf" of fewer than 11 characters falls through to
      the generic branch, where reading the person's "cpf" attribute fails. */
  function ApplyFieldAsWritten(t: Target, row: Row, attr: string, parseDate: string -> string): (r: Result<(Target, bool), string>)
    requires HasPersonFields(t)
    ensures "cpf" !in t.attrs && attr == "cpf" && |Field(row, "cpf")| < 11 ==> r == Err("cpf")
  {
    if attr == "cpf" && |Field(row, "cpf")| < 11 then
      if attr in t.attrs then Ok(SetIfDifferent(t, attr, Field(row, attr), t.attrs[attr])) else Err(attr)
    else ApplyField(t, row, attr, parseDate)
  }

  /** One column of the field list applied to the matched person, with a
      short "cpf" skipped: "rg" sets the id card from rg and exp, a valid
      "cpf" of at least 11 characters sets the formatted CPF, "exp" is never
      written, a date column is compared after parsing, and any other column
      is copied when it differs; a missing attribute is an error. The flag
      says whether the attribute changed. */
  function ApplyField(t: Target, row: Row, attr: string, parseDate: string -> string): (r: Result<(Target, bool), string>)
    requires HasPersonFields(t)
    ensures r.Err? <==> attr !in t.attrs && attr != "rg" && attr != "cpf" && attr != "exp"
    ensures attr == "exp" ==> r == Ok((t, false))
    ensures attr == "cpf" && (|Field(row, "cpf")| < 11 || !CpfValidation(Field(row, "cpf"))) ==> r == Ok((t, false))
    ensures r.Ok? ==> HasPersonFields(r.value.0) && r.value.0.attrs.Keys == t.attrs.Keys && r.value.0.email == t.email
    ensures r.Ok? && !r.value.1 ==> r.value.0 == t
  {
    if attr == "rg" then
      Ok(SetIfDifferent(t, "id_card", IdCardFromRg(row), t.attrs["id_card"]))
    else if attr == "cpf" then
      var cpf := Field(row, "cpf");
      if |cpf| >= 11 && CpfValidation(cpf) then Ok(SetIfDifferent(t, "id_card", CpfFormat(cpf), t.attrs["id_card"]))
      else Ok((t, false))
    else if attr == "exp" then Ok((t, false))
    else if attr !in t.attrs then Err(attr)
    else if attr in DefaultDates then
      if t.attrs[attr] != parseDate(Field(row, attr)) then Ok((t.(attrs := t.attrs[attr := Field(row, attr)]), true))
      else Ok((t, false))
    else Ok(SetIfDifferent(t, attr, Field(row, attr), t.attrs[attr]))
  }

  /** The id card the "rg" and "cpf" columns derive. */
  lemma IdCardRules(t: Target, row: Row, parseDate: string -> string)
    requires HasPersonFields(t)
    ensures var r := ApplyField(t, row, "rg", parseDate).value;
            r.0.attrs["id_card"] == IdCardFromRg(row) && (r.1 <==> t.attrs["id_card"] != IdCardFromRg(row))
    ensures var cpf := Field(row, "cpf");
            var r := ApplyField(t, row, "cpf", parseDate).value;
            |cpf| >= 11 && CpfValidation(cpf) ==>
              r.0.attrs["id_card"] == CpfFormat(cpf) && ValidCpf(Digits(r.0.attrs["id_card"]))
  {
    var cpf := Field(row, "cpf");
    if |cpf| >= 11 && CpfValidation(cpf) {
      CpfValidationSpec(cpf);
      CpfFormatDigits(cpf);
    }
  }

  /** The columns of the field list applied in order; the count is the
      number of columns that changed the person when they were applied. */
  function ApplyFields(t: Target, row: Row, fields: seq<string>, parseDate: string -> string): (r: Result<(Target, nat), string>)
    requires HasPersonFields(t)
    ensures r.Ok? ==> HasPersonFields(r.value.0) && r.value.0.attrs.Keys == t.attrs.Keys && r.value.0.email == t.email
    ensures r.Ok? ==> r.value.1 <= |fields|
    ensures r.Ok? && r.value.1 == 0 ==> r.value.0 == t
    ensures r.Ok? && "exp" in t.attrs ==> r.value.0.attrs["exp"] == t.attrs["exp"]
    ensures r.Err? ==> r.error in fields
    decreases fields
  {
    if fields == [] then Ok((t, 0))
    else
      match ApplyField(t, row, fields[0], parseDate)
      case Err(e) => Err(e)
      case Ok(step) =>
        match ApplyFields(step.0, row, fields[1..], parseDate)
        case Err(e) => Err(e)
        case Ok(rest) => Ok((rest.0, rest.1 + if step.1 then 1 else 0))
  }

  /** A person that ends up different was counted as changed. */
  lemma ChangedIsCounted(t: Target, row: Row, fields: seq<string>, parseDate: string -> string)
    requires HasPersonFields(t)
    requires ApplyFields(t, row, fields, parseDate).Ok?
    ensures ApplyFields(t, row, fields, parseDate).value.0 != t ==> ApplyFields(t, row, fields, parseDate).value.1 > 0
  {
  }

  // --------------------------------------------------------- one row

  /** `name__icontains`: the person's name contains the row's name, ignoring case. */
  predicate NameMatches(t: Target, name: string) {
    "name" in t.attrs && Contains(Lower(t.attrs["name"]), Lower(name))
  }

  /** `.first()` of the matching persons, in the given order. */
  function FindPerson(people: seq<Target>, name: string): (r: Option<nat>)
    ensures r.Some? ==> r.value < |people| && NameMatches(people[r.value], name)
                        && forall j :: 0 <= j < r.value ==> !NameMatches(people[j], name)
    ensures r.None? ==> forall j :: 0 <= j < |people| ==> !NameMatches(people[j], name)
  {
    if people == [] then None
    else if NameMatches(people[0], name) then Some(0)
    else
      match FindPerson(people[1..], name)
      case None => None
      case Some(i) => Some(i + 1)
  }

  /** `person.save()` on the attribute view: an empty name gets the default,
      and the accent-free and short names are derived from the name. */
  function SaveTarget(t: Target, fold: string -> string): (r: Target)
    requires HasPersonFields(t)
    ensures HasPersonFields(r) && r.attrs.Keys == t.attrs.Keys
    ensures r.attrs["short_name"] == ShortName(r.attrs["name"])
    ensures t.attrs["name"] != "" ==> r.attrs["name"] == t.attrs["name"]
  {
    var name := if t.attrs["name"] == "" then DefaultName(t.email) else t.attrs["name"];
    t.(attrs := t.attrs["name" := name]["name_sa" := fold(name)]["short_name" := ShortName(name)])
  }

  predicate AllPersons(people: seq<Target>) {
    forall i :: 0 <= i < |people| ==> HasPersonFields(people[i])
  }

  lemma SavedKeepsPersons(people: seq<Target>, i: nat, saved: Target)
    requires AllPersons(people) && i < |people| && HasPersonFields(saved)
    ensures AllPersons(people[i := saved]) && |people[i := saved]| == |people|
  {
  }

  lemma SnocPrefix<T>(xs: seq<T>, x: T)
    ensures (xs + [x])[..|xs|] == xs && |xs + [x]| == |xs| + 1
  {
  }

  /** The state the script keeps across rows. */
  datatype State = State(people: seq<Target>, total: nat, skipped: nat, adjusteds: seq<string>)

  /** One row: skipped when no person matches; otherwise counted, and when
      some column changed the person, the person's short name before saving
      is listed and the person is saved. */
  function ProcessRow(s: State, row: Row, fields: seq<string>, parseDate: string -> string, fold: string -> string): (r: Result<State, string>)
    requires AllPersons(s.people)
    ensures r.Ok? ==> AllPersons(r.value.people) && |r.value.people| == |s.people|
    ensures r.Ok? ==> r.value.total + r.value.skipped == s.total + s.skipped + 1
    ensures r.Ok? ==> (r.value.total == s.total + 1 <==> FindPerson(s.people, Field(row, "name")).Some?)
    ensures r.Ok? ==> |s.adjusteds| <= |r.value.adjusteds| <= |s.adjusteds| + 1 && r.value.adjusteds[..|s.adjusteds|] == s.adjusteds
    ensures r.Ok? && |r.value.adjusteds| == |s.adjusteds| ==> r.value.people == s.people
  {
    match FindPerson(s.people, Field(row, "name"))
    case None => Ok(s.(skipped := s.skipped + 1))
    case Some(i) =>
      match ApplyFields(s.people[i], row, fields, parseDate)
      case Err(e) => Err(e)
      case Ok(res) =>
        var (t, alter) := res;
        if alter > 0 then
          var saved := SaveTarget(t, fold);
          SavedKeepsPersons(s.people, i, saved);
          SnocPrefix(s.adjusteds, t.attrs["short_name"]);
          Ok(State(s.people[i := saved], s.total + 1, s.skipped, s.adjusteds + [t.attrs["short_name"]]))
        else
          Ok(s.(total := s.total + 1))
  }

  /** The rows in file order; an attribute error stops the run. */
  function Run(rows: seq<Row>, people: seq<Target>, fields: seq<string>, parseDate: string -> string, fold: string -> string): (r: Result<State, string>)
    requires AllPersons(people)
    ensures r.Ok? ==> r.value.total + r.value.skipped == |rows| && |r.value.adjusteds| <= r.value.total
    ensures r.Ok? ==> AllPersons(r.value.people) && |r.value.people| == |people|
    ensures r.Ok? && r.value.adjusteds == [] ==> r.value.people == people
    decreases |rows|
  {
    if rows == [] then Ok(State(people, 0, 0, []))
    else
      var n := |rows| - 1;
      match Run(rows[..n], people, fields, parseDate, fold)
      case Err(e) => Err(e)
      case Ok(s) => ProcessRow(s, rows[n], fields, parseDate, fold)
  }

  // --------------------------------------------------------- paths, report

  /** The file the script reads: the one the sanitizer writes in fields mode. */
  function FilePath(importsDir: string, fileName: string): (p: string)
    ensures |p| == |importsDir| + 9 + |fileName|
    ensures p[..|importsDir|] == importsDir && p[|importsDir|..|importsDir| + 9] == "/fields__"
    ensures p[|importsDir| + 9..] == fileName
  {
    var p := importsDir + "/fields__" + fileName;
    assert p[..|importsDir|] == importsDir;
    assert p[|importsDir|..|importsDir| + 9] == "/fields__";
    p
  }

  lemma ReadsWhatSanitizerWrites(f: SanitizeCsv.Frame, importsDir: string, fileName: string)
    ensures SanitizeCsv.GenerateFiles(f, importsDir, fileName, true).value[0].path == FilePath(importsDir, fileName)
  {
  }

  /** The report file: named after the text before the first "." of the
      file name. */
  function ReportPath(importsDir: string, fileName: string): (p: string)
    ensures p == importsDir + "/reports/fields/" + fileName[..IndexOf(fileName, '.')] + "__report.txt"
  {
    SplitHead(fileName, '.');
    importsDir + "/reports/fields/" + Split(fileName, '.')[0] + "__report.txt"
  }

  /** A name "base.ext" with no "." in base is reported as "base__report.txt". */
  lemma ReportPathOfBase(importsDir: string, base: string, ext: string)
    requires '.' !in base
    ensures ReportPath(importsDir, base + "." + ext) == importsDir + "/reports/fields/" + base + "__report.txt"
  {
    var f := base + "." + ext;
    IndexOfPrefix(base, "." + ext, '.');
    assert f == base + ("." + ext);
    assert f[..|base|] == base;
  }

  lemma {:induction false} IndexOfPrefix(p: string, t: string, c: char)
    requires c !in p && t != [] && t[0] == c
    ensures IndexOf(p + t, c) == |p|
  {
    if p != [] {
      assert (p + t)[1..] == p[1..] + t;
      IndexOfPrefix(p[1..], t, c);
    } else {
      assert p + t == t;
    }
  }

  /** The report text; the printed centre and user, the start time and the
      elapsed time are parameters. It holds the summary counts and ends with
      the detail banner and the adjusted persons, omitted when there are none. */
  function Report(fields: seq<string>, s: State, center: string, fileName: string, user: string, start: string, elapsed: string): (r: string)
    ensures Contains(r, SummaryCounts(fields, s))
    ensures var detail := "\n\n" + Center("  DETAIL  ", 80, '*') + Section("ADJUSTEDS", s.adjusteds);
            |detail| <= |r| && r[|r| - |detail|..] == detail
  {
    var head := Center("  ADJUSTED FIELDS ON PERSON  ", 80, '*')
      + "\n\ncenter:      " + center
      + "\nfile:        " + fileName
      + "\nimported_by: " + user
      + "\nimported_on: " + start
      + "\ntime:        " + elapsed
      + "\n\n" + Center("  SUMMARY  ", 80, '*');
    var detail := "\n\n" + Center("  DETAIL  ", 80, '*') + Section("ADJUSTEDS", s.adjusteds);
    ContainsMiddle(head, SummaryCounts(fields, s), detail);
    var r := head + SummaryCounts(fields, s) + detail;
    assert r[|r| - |detail|..] == detail;
    r
  }

  /** The summary lines under the banner: a blank line, then the ENTRIES,
      FIELDS and ADJUSTEDS lines. When no field holds a line break, as
      the header's fields never do, the lines read back: ENTRIES gives the
      matched rows, FIELDS the fields joined by ",", ADJUSTEDS the number of
      adjusted persons. */
  function SummaryCounts(fields: seq<string>, s: State): (r: string)
    ensures (forall i :: 0 <= i < |fields| ==> '\n' !in fields[i]) ==>
              var lines := Split(r, '\n');
              && |lines| == 5
              && CountOn(lines[2], "- ENTRIES:         ") == Some(s.total)
              && lines[3] == "- FIELDS:          " + Join(fields, ",")
              && CountOn(lines[4], "- ADJUSTEDS:       ") == Some(|s.adjusteds|)
  {
    var lines := ["", "",
                  "- ENTRIES:         " + NatToString(s.total),
                  "- FIELDS:          " + Join(fields, ","),
                  "- ADJUSTEDS:       " + NatToString(|s.adjusteds|)];
    SummaryLinesReadBack(fields, s.total, |s.adjusteds|);
    Join(lines, "\n")
  }

  /** The summary lines split back apart when no field holds a line break. */
  lemma SummaryLinesReadBack(fields: seq<string>, total: nat, adjusted: nat)
    ensures (forall i :: 0 <= i < |fields| ==> '\n' !in fields[i]) ==>
              var lines := ["", "",
                            "- ENTRIES:         " + NatToString(total),
                            "- FIELDS:          " + Join(fields, ","),
                            "- ADJUSTEDS:       " + NatToString(adjusted)];
              && Split(Join(lines, "\n"), '\n') == lines
              && CountOn(lines[2], "- ENTRIES:         ") == Some(total)
              && CountOn(lines[4], "- ADJUSTEDS:       ") == Some(adjusted)
  {
    if forall i :: 0 <= i < |fields| ==> '\n' !in fields[i] {
      JoinAvoids(fields, ",", '\n');
      NoBreakInCount(total);
      NoBreakInCount(adjusted);
      ReportLines(["", "", "- ENTRIES:         " + NatToString(total),
                   "- FIELDS:          " + Join(fields, ","), "- ADJUSTEDS:       " + NatToString(adjusted)]);
      CountLineReadsBack("- ENTRIES:         ", total);
      CountLineReadsBack("- ADJUSTEDS:       ", adjusted);
    }
  }

  /** The FIELDS line lists the fields joined by ",", and they can be read
      back from it. */
  lemma ReportFieldsReadBack(header: string)
    requires FieldList(header) != []
    ensures Split(Join(FieldList(header), ","), ',') == FieldList(header)
  {
    var fs := FieldList(header);
    var cells := Split(header, ',');
    forall i | 0 <= i < |fs| ensures ',' !in fs[i] {
      var j := KeepCellsSound(cells, i);
      assert ',' !in cells[j];
    }
    SplitJoin(fs, ',');
  }
}

=== FILE: import_persons.dfy ===
/** scripts/import_persons.py: reads the rows of a CSV file, creates a user,
    profile and person for every row with an unused e-mail, and writes a
    report. The user table is the set of e-mails already taken; it grows as
    rows are imported, since the e-mail is unique. */
module ImportPersons {
  import opened Text
  import opened Common
  import opened Wrappers
  import opened Persons
  import opened Reports

  /** A CSV row, by column name; an absent column reads as "". */
  type Row = map<string, string>

  function Field(row: Row, k: string): string {
    if k in row then row[k] else ""
  }

  /** The centre the rows are imported into. */
  datatype Center = Center(name: string, country: string, madeBy: string)

  /** The aspect columns, in the order the script looks at them. */
  const AspectCodes: seq<string> := ["PRP", "PRB", "PRF", "A1", "A2", "A3", "A4", "GR", "A5", "A6"]

  /** The restriction codes that become the person's status. */
  const StatusCodes: set<string> := {"ACT", "LIC", "DEA", "DIS", "REM"}

  // ------------------------------------------------------------- address

  /** The parts of the "address" column the profile receives. */
  datatype Address = Address(street: string, number: string, complement: string)

  /** The address split as written: the street is the text before the first
      ",", the second ","-segment is split on "|" into number and
      complement. With no "," at all the fallback handler indexes the
      missing segment again and the run aborts (None). */
  function AddressAsWritten(addr: string): (r: Option<Address>)
    ensures r.None? <==> ',' !in addr
  {
    var parts := Split(addr, ',');
    SplitNoSepIff(addr, ',');
    if |parts| < 2 then None
    else
      var nc := Split(parts[1], '|');
      if |nc| >= 2 then Some(Address(parts[0], Strip(nc[0]), Strip(nc[1])))
      else Some(Address(parts[0], Strip(parts[1]), ""))
  }

  lemma SplitNoSepIff(s: string, sep: char)
    ensures |Split(s, sep)| < 2 <==> sep !in s
  {
    if sep !in s {
      SplitNoSep(s, sep);
    } else {
      var i := IndexOf(s, sep);
      SplitHead(s, sep);
      SplitOfSep(s, sep);
    }
  }

  lemma {:induction false} SplitOfSep(s: string, sep: char)
    requires sep in s
    ensures |Split(s, sep)| >= 2
  {
    if s[0] != sep {
      assert sep in s[1..] by {
        var k :| 0 <= k < |s| && s[k] == sep;
        assert s[1..][k - 1] == sep;
      }
      SplitOfSep(s[1..], sep);
    }
  }

  /** The address split with the missing-comma case handled: the whole text
      is the street and number and complement stay blank. */
  function SplitAddress(addr: string): (r: Address)
    ensures r.street == addr[..IndexOf(addr, ',')]
    ensures ',' !in addr ==> r == Address(addr, "", "")
    ensures ',' in addr ==> AddressAsWritten(addr) == Some(r)
  {
    SplitHead(addr, ',');
    match AddressAsWritten(addr)
    case Some(a) => a
    case None =>
      SplitNoSep(addr, ',');
      Address(addr, "", "")
  }

  /** With a "|" in the second segment, number and complement are the
      trimmed texts around the first "|"; without one, the trimmed segment is
      the number and the complement is blank. */
  lemma SplitAddressNumber(addr: string)
    requires ',' in addr
    ensures |Split(addr, ',')| >= 2
    ensures var seg := Split(addr, ',')[1];
            var r := SplitAddress(addr);
            && ('|' in seg ==> r.number == Strip(seg[..IndexOf(seg, '|')]))
            && ('|' !in seg ==> r.number == Strip(seg) && r.complement == "")
  {
    SplitNoSepIff(addr, ',');
    var seg := Split(addr, ',')[1];
    SplitNoSepIff(seg, '|');
    SplitHead(seg, '|');
  }

  // -------------------------------------------------------------- history

  /** The aspect entries of one row: one per non-empty aspect column, in the
      order of `codes`, dated with the column's text. */
  function AspectHistory(row: Row, codes: seq<string>, actor: string): (h: seq<HistoricEntry>)
    ensures |h| <= |codes|
    ensures forall e :: e in h ==> e.occurrence in codes && e.date == Field(row, e.occurrence) && e.date != "" && e.madeBy == actor
  {
    if codes == [] then []
    else
      var rest := AspectHistory(row, codes[1..], actor);
      if Field(row, codes[0]) != "" then [HistoricEntry(codes[0], Field(row, codes[0]), actor)] + rest else rest
  }

  /** The entry for `code` is there exactly when its column is non-empty, and
      entries follow the order of the codes. */
  lemma {:induction false} AspectHistoryComplete(row: Row, codes: seq<string>, actor: string, c: string)
    requires c in codes
    ensures Field(row, c) != "" <==> HistoricEntry(c, Field(row, c), actor) in AspectHistory(row, codes, actor)
  {
    if codes[0] != c {
      AspectHistoryComplete(row, codes[1..], actor, c);
    }
  }

  /** The entries follow the order of the codes: splitting the code list
      anywhere splits the entries the same way, so those of earlier codes
      come before those of later ones. */
  lemma {:induction false} AspectHistoryOrdered(row: Row, a: seq<string>, b: seq<string>, actor: string)
    ensures AspectHistory(row, a + b, actor) == AspectHistory(row, a, actor) + AspectHistory(row, b, actor)
  {
    if a != [] {
      assert (a + b)[1..] == a[1..] + b;
      AspectHistoryOrdered(row, a[1..], b, actor);
    } else {
      assert a + b == b;
    }
  }

  /** The status entry: present only for a whitelisted restriction code. */
  function StatusHistory(row: Row, actor: string): (h: seq<HistoricEntry>)
    ensures h != [] <==> Field(row, "restriction") in StatusCodes
    ensures h != [] ==> h == [HistoricEntry(Field(row, "restriction"), Field(row, "restriction_date"), actor)]
  {
    var r := Field(row, "restriction");
    if r in StatusCodes then [HistoricEntry(r, Field(row, "restriction_date"), actor)] else []
  }

  // ------------------------------------------------------------ one row

  /** The profile filled from one row; `address` is the split of a non-empty
      "address" column. */
  function ImportedProfile(row: Row, center: Center, address: Option<Address>): (p: Profile)
    ensures p.socialName == ShortName(Field(row, "name"))
    ensures p.zipCode == Strip(Field(row, "zip"))
    ensures p.country == center.country
  {
    var a := if address.Some? then address.value else Address("", "", "");
    Profile(ShortName(Field(row, "name")), Field(row, "gender"), Field(row, "profession"),
            a.street, a.number, a.complement,
            Field(row, "district"), Field(row, "city"), Field(row, "state_prov"), center.country,
            Strip(Field(row, "zip")), Field(row, "cell_phone"), Field(row, "phone"),
            Field(row, "sos_contact"), Field(row, "sos_phone"))
  }

  /** The person made from one row, after `save`: aspect and aspect date are
      copied verbatim, the status is the whitelisted restriction or stays
      "ACT", and the history is the aspect entries followed by the status
      entry. */
  function ImportedPerson(row: Row, id: string, center: Center, fold: string -> string): (p: Person)
    ensures p.aspect == Field(row, "aspect") && p.aspectDate == Field(row, "aspect_date")
    ensures p.status == if Field(row, "restriction") in StatusCodes then Field(row, "restriction") else "ACT"
    ensures p.history == AspectHistory(row, AspectCodes, center.madeBy) + StatusHistory(row, center.madeBy)
    ensures p.shortName == ShortName(p.name)
    ensures Field(row, "name") != "" ==> p.name == Field(row, "name")
  {
    var restriction := Field(row, "restriction");
    var p := NewPerson(id, Field(row, "email")).(
      center := center.name, reg := Field(row, "reg"), name := Field(row, "name"),
      shortName := ShortName(Field(row, "name")), birth := Field(row, "birthday"),
      observations := Field(row, "ps"), madeBy := center.madeBy,
      aspect := Field(row, "aspect"), aspectDate := Field(row, "aspect_date"),
      history := AspectHistory(row, AspectCodes, center.madeBy) + StatusHistory(row, center.madeBy));
    var p' := if restriction in StatusCodes then p.(status := restriction) else p;
    Save(p', fold)
  }

  /** What became of one row. */
  datatype Outcome =
    | NotEmail(name: string)
    | UsedEmail(entry: string)
    | Imported(name: string, profile: Profile, person: Person)

  /** One row against the e-mails already taken: no e-mail, an e-mail
      already used (the user creation fails), or a new user, profile and
      person. */
  function ImportRow(row: Row, users: set<string>, id: string, center: Center, fold: string -> string): (o: Outcome)
    ensures o.NotEmail? <==> Field(row, "email") == ""
    ensures o.UsedEmail? <==> Field(row, "email") != "" && Field(row, "email") in users
    ensures o.NotEmail? ==> o.name == Field(row, "name")
    ensures o.UsedEmail? ==> o.entry == Field(row, "name") + " (" + Field(row, "email") + ")"
  {
    var email := Field(row, "email");
    if email == "" then NotEmail(Field(row, "name"))
    else if email in users then UsedEmail(Field(row, "name") + " (" + email + ")")
    else
      var addr := Field(row, "address");
      var address := if addr != "" then Some(SplitAddress(addr)) else None;
      Imported(Field(row, "name"), ImportedProfile(row, center, address), ImportedPerson(row, id, center, fold))
  }

  // ------------------------------------------------------------ the run

  /** The three report lists, the e-mails taken so far and what was created. */
  datatype State = State(
    users: set<string>,
    importeds: seq<string>,
    notEmail: seq<string>,
    usedEmail: seq<string>,
    created: seq<(Profile, Person)>)

  /** Rows are processed in file order; `ids` supplies the new persons' ids. */
  function Run(rows: seq<Row>, users: set<string>, ids: seq<string>, center: Center, fold: string -> string): (s: State)
    requires |ids| == |rows|
    ensures |s.importeds| + |s.notEmail| + |s.usedEmail| == |rows|
    ensures |s.created| == |s.importeds|
    ensures users <= s.users
    ensures forall e :: e in s.users && e !in users ==> exists i :: 0 <= i < |rows| && Field(rows[i], "email") == e
    decreases |rows|
  {
    if rows == [] then State(users, [], [], [], [])
    else
      var n := |rows| - 1;
      var s := Run(rows[..n], users, ids[..n], center, fold);
      var r := Step(s, rows[n], ids[n], center, fold);
      assert forall e :: e in r.users && e !in users ==> exists i :: 0 <= i < |rows| && Field(rows[i], "email") == e by {
        forall e | e in r.users && e !in users
          ensures exists i :: 0 <= i < |rows| && Field(rows[i], "email") == e
        {
          if e in s.users {
            var i :| 0 <= i < n && Field(rows[..n][i], "email") == e;
            assert rows[..n][i] == rows[i];
          } else {
            assert Field(rows[n], "email") == e;
          }
        }
      }
      r
  }

  /** One row: exactly one list grows by one, a user is created only with
      an imported row, and the only e-mail that can be taken is the row's. */
  function Step(s: State, row: Row, id: string, center: Center, fold: string -> string): (r: State)
    ensures |r.importeds| + |r.notEmail| + |r.usedEmail| == |s.importeds| + |s.notEmail| + |s.usedEmail| + 1
    ensures |r.created| - |r.importeds| == |s.created| - |s.importeds|
    ensures r.users == s.users || r.users == s.users + {Field(row, "email")}
  {
    match ImportRow(row, s.users, id, center, fold)
    case NotEmail(name) => s.(notEmail := s.notEmail + [name])
    case UsedEmail(entry) => s.(usedEmail := s.usedEmail + [entry])
    case Imported(name, profile, person) =>
      s.(users := s.users + {Field(row, "email")}, importeds := s.importeds + [name],
         created := s.created + [(profile, person)])
  }

  /** Each row lands in exactly one list: the list it grows is the one its
      outcome names, and the other two are unchanged. */
  lemma StepOneList(s: State, row: Row, id: string, center: Center, fold: string -> string)
    ensures var r := Step(s, row, id, center, fold);
            var o := ImportRow(row, s.users, id, center, fold);
            && (o.NotEmail? ==> r.notEmail == s.notEmail + [Field(row, "name")] && r.importeds == s.importeds && r.usedEmail == s.usedEmail)
            && (o.UsedEmail? ==> r.usedEmail == s.usedEmail + [o.entry] && r.importeds == s.importeds && r.notEmail == s.notEmail)
            && (o.Imported? ==> r.importeds == s.importeds + [Field(row, "name")] && r.notEmail == s.notEmail && r.usedEmail == s.usedEmail
                                && Field(row, "email") in r.users)
  {
  }

  /** A second row with an e-mail already imported in the same file is
      reported as a used e-mail. */
  lemma RepeatedEmailIsUsed(rows: seq<Row>, users: set<string>, ids: seq<string>, center: Center, fold: string -> string, i: nat)
    requires |ids| == |rows| && i < |rows|
    requires Field(rows[i], "email") != ""
    ensures var s := Run(rows[..i + 1], users, ids[..i + 1], center, fold);
            Field(rows[i], "email") in s.users
  {
    var pre := rows[..i + 1];
    assert pre[..i] == rows[..i];
    assert ids[..i + 1][..i] == ids[..i];
    assert pre[i] == rows[i];
  }

  // ------------------------------------------------------------ report

  /** The report is written beside the imported file: "../imports/<name>_report.txt". */
  function ReportPath(fileName: string): (p: string)
    ensures |p| == 22 + |fileName|
    ensures p[..11] == "../imports/" && p[11..11 + |fileName|] == fileName && p[11 + |fileName|..] == "_report.txt"
  {
    var p := "../imports/" + fileName + "_report.txt";
    assert p[..11] == "../imports/";
    assert p[11..11 + |fileName|] == fileName;
    p
  }

  /** The report text; the timestamps and the centre's and user's printed
      forms are parameters. It holds the summary and ends with the detail
      sections, each omitted when its list is empty. */
  function Report(s: State, center: string, fileName: string, user: string, start: string, end: string): (r: string)
    ensures Contains(r, Summary(s))
    ensures var detail := "\n\n#######  DETAIL  #######" + Section("IMPORTEDS", s.importeds)
                          + Section("NOT EMAIL", s.notEmail) + Section("USED EMAIL", s.usedEmail);
            |detail| <= |r| && r[|r| - |detail|..] == detail
  {
    var head := "#######  IMPORT PERSONS  #######"
      + "\n\ncenter:     " + center
      + "\nfile:       " + fileName + ".csv"
      + "\ncreated_by: " + user
      + "\nstart:      " + start
      + "\nend:        " + end;
    var detail := "\n\n#######  DETAIL  #######" + Section("IMPORTEDS", s.importeds)
                  + Section("NOT EMAIL", s.notEmail) + Section("USED EMAIL", s.usedEmail);
    ContainsMiddle(head, Summary(s), detail);
    var r := head + Summary(s) + detail;
    assert r[|r| - |detail|..] == detail;
    r
  }

  /** The summary block: two blank lines, the banner, a blank line, then one
      count line per list. Read line by line, each count line gives back the
      length of its list. */
  function Summary(s: State): (r: string)
    ensures var lines := Split(r, '\n');
            && |lines| == 7 && lines[2] == "#######  SUMMARY  #######"
            && CountOn(lines[4], "IMPORTEDS:  ") == Some(|s.importeds|)
            && CountOn(lines[5], "NOT EMAIL:  ") == Some(|s.notEmail|)
            && CountOn(lines[6], "USED EMAIL: ") == Some(|s.usedEmail|)
  {
    var lines := ["", "", "#######  SUMMARY  #######", "",
                  "IMPORTEDS:  " + NatToString(|s.importeds|),
                  "NOT EMAIL:  " + NatToString(|s.notEmail|),
                  "USED EMAIL: " + NatToString(|s.usedEmail|)];
    SummaryLinesReadBack(|s.importeds|, |s.notEmail|, |s.usedEmail|);
    Join(lines, "\n")
  }

  /** The summary lines split back apart, and each count line gives back
      its count. */
  lemma SummaryLinesReadBack(importeds: nat, notEmail: nat, usedEmail: nat)
    ensures var lines := ["", "", "#######  SUMMARY  #######", "",
                          "IMPORTEDS:  " + NatToString(importeds),
                          "NOT EMAIL:  " + NatToString(notEmail),
                          "USED EMAIL: " + NatToString(usedEmail)];
            && Split(Join(lines, "\n"), '\n') == lines
            && CountOn(lines[4], "IMPORTEDS:  ") == Some(importeds)
            && CountOn(lines[5], "NOT EMAIL:  ") == Some(notEmail)
            && CountOn(lines[6], "USED EMAIL: ") == Some(usedEmail)
  {
    NoBreakInCount(importeds);
    NoBreakInCount(notEmail);
    NoBreakInCount(usedEmail);
    ReportLines(["", "", "#######  SUMMARY  #######", "",
                 "IMPORTEDS:  " + NatToString(importeds),
                 "NOT EMAIL:  " + NatToString(notEmail),
                 "USED EMAIL: " + NatToString(usedEmail)]);
    CountLineReadsBack("IMPORTEDS:  ", importeds);
    CountLineReadsBack("NOT EMAIL:  ", notEmail);
    CountLineReadsBack("USED EMAIL: ", usedEmail);
  }

  /** The three counts the summary prints always add up to the number of
      rows read, and a run over nothing prints no detail section. */
  lemma ReportCounts(rows: seq<Row>, users: set<string>, ids: seq<string>, center: Center, fold: string -> string)
    requires |ids| == |rows|
    ensures var s := Run(rows, users, ids, center, fold);
            && ParseDigits(NatToString(|s.importeds|)) + ParseDigits(NatToString(|s.notEmail|))
               + ParseDigits(NatToString(|s.usedEmail|)) == |rows|
            && (rows == [] ==> Section("IMPORTEDS", s.importeds) + Section("NOT EMAIL", s.notEmail)
                               + Section("USED EMAIL", s.usedEmail) == "")
  {
    var s := Run(rows, users, ids, center, fold);
    ParseNatToString(|s.importeds|);
    ParseNatToString(|s.notEmail|);
    ParseNatToString(|s.usedEmail|);
  }
}

=== FILE: membership.dfy ===
/** workgroup/views/membership.py: the "mentoring" permission group and the
    person's memberships. Right after `ensure_mentoring_permission` runs for a
    person, they hold the group exactly when one of their memberships has the
    mentor role. The delete view never runs it, and the update view runs it
    only for the person the form names, so the person who lost a mentor
    membership can keep the group (`DeleteAsWritten`, `MoveAsWritten`). */
module Memberships {

  /** A `Membership` row of one person: its workgroup and role type
      (MTR mentor, CTT contact, MBR member). */
  datatype Membership = Membership(workgroup: string, role: string)

  const Mentoring := "mentoring"

  predicate IsMentor(ms: seq<Membership>) {
    exists i :: 0 <= i < |ms| && ms[i].role == "MTR"
  }

  /** The mentor memberships, as the list the source tests for emptiness. */
  function MentorMemberships(ms: seq<Membership>): (r: seq<Membership>)
    ensures r == [] <==> !IsMentor(ms)
    ensures forall m :: m in r <==> m in ms && m.role == "MTR"
  {
    if ms == [] then []
    else
      var rest := MentorMemberships(ms[1..]);
      assert forall i :: 1 <= i < |ms| ==> ms[i] == ms[1..][i - 1];
      (if ms[0].role == "MTR" then [ms[0]] else []) + rest
  }

  /** `ensure_mentoring_permission`: adds "mentoring" to the user's groups
      when some membership is a mentor one, removes it otherwise; no other
      group changes. */
  function EnsureMentoring(ms: seq<Membership>, groups: set<string>): (r: set<string>)
    ensures Mentoring in r <==> IsMentor(ms)
    ensures r - {Mentoring} == groups - {Mentoring}
  {
    if MentorMemberships(ms) != [] then groups + {Mentoring} else groups - {Mentoring}
  }

  /** A second call changes nothing. */
  lemma EnsureMentoringIdempotent(ms: seq<Membership>, groups: set<string>)
    ensures EnsureMentoring(ms, EnsureMentoring(ms, groups)) == EnsureMentoring(ms, groups)
  {
  }

  /** Only the role types matter: two membership lists with a mentor role
      in the same cases give the same groups. */
  lemma EnsureMentoringRolesOnly(ms: seq<Membership>, ns: seq<Membership>, groups: set<string>)
    requires IsMentor(ms) <==> IsMentor(ns)
    ensures EnsureMentoring(ms, groups) == EnsureMentoring(ns, groups)
  {
  }

  /** `membership_update`: the role of membership `i` changes, then the
      permission is re-derived. Afterwards the user is in "mentoring" exactly
      when some membership (the updated one included) is a mentor one. */
  function UpdateRole(ms: seq<Membership>, i: nat, role: string, groups: set<string>): (r: (seq<Membership>, set<string>))
    requires i < |ms|
    ensures r.0 == ms[i := ms[i].(role := role)]
    ensures role == "MTR" ==> Mentoring in r.1
    ensures Mentoring in r.1 <==> role == "MTR" || exists j :: 0 <= j < |ms| && j != i && ms[j].role == "MTR"
  {
    var updated := ms[i := ms[i].(role := role)];
    var after := EnsureMentoring(updated, groups);
    assert role == "MTR" ==> updated[i].role == "MTR";
    assert (exists j :: 0 <= j < |ms| && j != i && ms[j].role == "MTR") ==> IsMentor(updated) by {
      if exists j :: 0 <= j < |ms| && j != i && ms[j].role == "MTR" {
        var j :| 0 <= j < |ms| && j != i && ms[j].role == "MTR";
        assert updated[j].role == "MTR";
      }
    }
    (updated, after)
  }

  // ------------------------------------------ losing a membership

  /** The memberships without the `i`-th. */
  function Remove(ms: seq<Membership>, i: nat): (r: seq<Membership>)
    requires i < |ms|
    ensures |r| == |ms| - 1
    ensures forall j :: 0 <= j < i ==> r[j] == ms[j]
    ensures forall j :: i <= j < |r| ==> r[j] == ms[j + 1]
  {
    ms[..i] + ms[i + 1..]
  }

  /** After a removal the person is a mentor exactly when another
      membership is a mentor one. */
  lemma RemoveMentor(ms: seq<Membership>, i: nat)
    requires i < |ms|
    ensures IsMentor(Remove(ms, i)) <==> exists j :: 0 <= j < |ms| && j != i && ms[j].role == "MTR"
  {
    var r := Remove(ms, i);
    if IsMentor(r) {
      var k :| 0 <= k < |r| && r[k].role == "MTR";
      if k < i {
        assert ms[k].role == "MTR";
      } else {
        assert ms[k + 1].role == "MTR";
      }
    }
    if exists j :: 0 <= j < |ms| && j != i && ms[j].role == "MTR" {
      var j :| 0 <= j < |ms| && j != i && ms[j].role == "MTR";
      if j < i {
        assert r[j].role == "MTR";
      } else {
        assert r[j - 1].role == "MTR";
      }
    }
  }

  /** `membership_delete` as written: the row goes, the user's groups stay
      as they were. */
  function DeleteAsWritten(ms: seq<Membership>, i: nat, groups: set<string>): (r: (seq<Membership>, set<string>))
    requires i < |ms|
    ensures r.0 == Remove(ms, i) && r.1 == groups
  {
    (Remove(ms, i), groups)
  }

  /** The delete view with the permission re-derived, as the update view
      does: the user is in "mentoring" exactly when another membership is
      a mentor one, and no other group changes. */
  function Delete(ms: seq<Membership>, i: nat, groups: set<string>): (r: (seq<Membership>, set<string>))
    requires i < |ms|
    ensures r.0 == Remove(ms, i)
    ensures Mentoring in r.1 <==> exists j :: 0 <= j < |ms| && j != i && ms[j].role == "MTR"
    ensures r.1 - {Mentoring} == groups - {Mentoring}
  {
    var rest := Remove(ms, i);
    RemoveMentor(ms, i);
    (rest, EnsureMentoring(rest, groups))
  }

  /** Deleting a person's only mentor membership leaves them in
      "mentoring" as written, though no membership is a mentor one any
      more; the corrected delete takes the group away. */
  lemma DeleteAsWrittenKeepsMentoring(ms: seq<Membership>, i: nat, groups: set<string>)
    requires i < |ms| && ms[i].role == "MTR"
    requires forall j :: 0 <= j < |ms| && j != i ==> ms[j].role != "MTR"
    requires groups == EnsureMentoring(ms, groups)
    ensures Mentoring in DeleteAsWritten(ms, i, groups).1
    ensures !IsMentor(DeleteAsWritten(ms, i, groups).0)
    ensures Mentoring !in Delete(ms, i, groups).1
  {
  }

  /** Both people's memberships and groups after the update form hands
      membership `i` of one person to another. */
  datatype Moved = Moved(from: seq<Membership>, to: seq<Membership>, fromGroups: set<string>, toGroups: set<string>)

  /** `membership_update` when the form names another person, as written:
      the permission is re-derived for the new person only. */
  function MoveAsWritten(from: seq<Membership>, to: seq<Membership>, i: nat, role: string,
                         fromGroups: set<string>, toGroups: set<string>): (r: Moved)
    requires i < |from|
    ensures r.from == Remove(from, i) && r.to == to + [from[i].(role := role)]
    ensures r.fromGroups == fromGroups
    ensures Mentoring in r.toGroups <==> role == "MTR" || IsMentor(to)
  {
    var moved := to + [from[i].(role := role)];
    AppendMentor(to, from[i].(role := role));
    Moved(Remove(from, i), moved, fromGroups, EnsureMentoring(moved, toGroups))
  }

  /** The update with the permission re-derived for both people. */
  function Move(from: seq<Membership>, to: seq<Membership>, i: nat, role: string,
                fromGroups: set<string>, toGroups: set<string>): (r: Moved)
    requires i < |from|
    ensures r.from == Remove(from, i) && r.to == to + [from[i].(role := role)]
    ensures Mentoring in r.fromGroups <==> exists j :: 0 <= j < |from| && j != i && from[j].role == "MTR"
    ensures r.fromGroups - {Mentoring} == fromGroups - {Mentoring}
    ensures Mentoring in r.toGroups <==> role == "MTR" || IsMentor(to)
  {
    var w := MoveAsWritten(from, to, i, role, fromGroups, toGroups);
    RemoveMentor(from, i);
    w.(fromGroups := EnsureMentoring(w.from, fromGroups))
  }

  /** One more membership makes a mentor exactly when it or an earlier one
      is a mentor membership. */
  lemma AppendMentor(ms: seq<Membership>, m: Membership)
    ensures IsMentor(ms + [m]) <==> m.role == "MTR" || IsMentor(ms)
  {
    var r := ms + [m];
    assert r[|ms|] == m;
    if IsMentor(ms) {
      var k :| 0 <= k < |ms| && ms[k].role == "MTR";
      assert r[k] == ms[k];
    }
  }

  /** Handing a person's only mentor membership to someone else leaves the
      first person in "mentoring" as written; the corrected update takes
      the group away from them. */
  lemma MoveAsWrittenKeepsMentoring(from: seq<Membership>, to: seq<Membership>, i: nat, role: string,
                                    fromGroups: set<string>, toGroups: set<string>)
    requires i < |from| && from[i].role == "MTR"
    requires forall j :: 0 <= j < |from| && j != i ==> from[j].role != "MTR"
    requires fromGroups == EnsureMentoring(from, fromGroups)
    ensures Mentoring in MoveAsWritten(from, to, i, role, fromGroups, toGroups).fromGroups
    ensures !IsMentor(MoveAsWritten(from, to, i, role, fromGroups, toGroups).from)
    ensures Mentoring !in Move(from, to, i, role, fromGroups, toGroups).fromGroups
  {
  }
}

=== FILE: mentoring.dfy ===
/** workgroup/views/mentoring.py: the mentor/member split of a workgroup,
    its member count, the frequency table of a page of members, the
    attendance sheet kept in the session (`preparing_the_session`), and the
    ranking read by `membership_update_frequency`. */
module Mentoring {
  import opened Text
  import opened Wrappers
  import opened Attendance

  /** The fields of a `Person` the views read. */
  datatype PersonRef = PersonRef(id: string, shortName: string, center: string, aspect: string)

  /** A `Membership` row of the workgroup, in `person__name_sa` order. */
  datatype MemberRow = MemberRow(person: PersonRef, role: string)

  /** The rows whose role is in `roles`, in order. */
  function WithRoles(ms: seq<MemberRow>, roles: set<string>): (r: seq<MemberRow>)
    ensures |r| <= |ms|
    ensures forall m :: m in r <==> m in ms && m.role in roles
  {
    if ms == [] then []
    else
      var rest := WithRoles(ms[1..], roles);
      assert forall m :: m in ms <==> m == ms[0] || m in ms[1..];
      (if ms[0].role in roles then [ms[0]] else []) + rest
  }

  /** The filter keeps the rows' order: filtering a concatenation is
      concatenating the filtered parts. */
  lemma {:induction false} WithRolesAppend(a: seq<MemberRow>, b: seq<MemberRow>, roles: set<string>)
    ensures WithRoles(a + b, roles) == WithRoles(a, roles) + WithRoles(b, roles)
  {
    if a == [] {
      assert a + b == b;
      EmptyAppend(WithRoles(b, roles));
    } else {
      assert (a + b)[0] == a[0] && (a + b)[1..] == a[1..] + b;
      WithRolesAppend(a[1..], b, roles);
      var head := if a[0].role in roles then [a[0]] else [];
      AppendAssoc(head, WithRoles(a[1..], roles), WithRoles(b, roles));
    }
  }

  /** The short names of the mentors (role MTR), in order. */
  function Mentors(ms: seq<MemberRow>): (r: seq<string>)
    ensures |r| == |WithRoles(ms, {"MTR"})|
    ensures forall k :: 0 <= k < |r| ==> r[k] == WithRoles(ms, {"MTR"})[k].person.shortName
  {
    var mtr := WithRoles(ms, {"MTR"});
    seq(|mtr|, k requires 0 <= k < |mtr| => mtr[k].person.shortName)
  }

  /** The members proper: role MBR or CTT. */
  function Members(ms: seq<MemberRow>): seq<MemberRow> {
    WithRoles(ms, {"MBR", "CTT"})
  }

  /** `num_members` of `mentoring_home`: every membership that is not a
      mentor one. */
  function NumMembers(ms: seq<MemberRow>): (n: int)
    ensures n >= 0
  {
    |ms| - |Mentors(ms)|
  }

  /** Splitting by a set of roles and by its complement loses no row. */
  lemma {:induction false} WithRolesSplit(ms: seq<MemberRow>, roles: set<string>, others: set<string>)
    requires roles !! others
    requires forall k :: 0 <= k < |ms| ==> ms[k].role in roles + others
    ensures |WithRoles(ms, roles)| + |WithRoles(ms, others)| == |ms|
  {
    if ms != [] {
      WithRolesSplit(ms[1..], roles, others);
    }
  }

  /** When every role is MTR, MBR or CTT, the count of `mentoring_home`
      is the number of members the detail views list. */
  lemma NumMembersCountsMembers(ms: seq<MemberRow>)
    requires forall k :: 0 <= k < |ms| ==> ms[k].role in {"MTR", "MBR", "CTT"}
    ensures NumMembers(ms) == |Members(ms)|
  {
    assert {"MTR", "MBR", "CTT"} == {"MTR"} + {"MBR", "CTT"};
    WithRolesSplit(ms, {"MTR"}, {"MBR", "CTT"});
  }

  // ------------------------------------------------------- frequency table

  function MemberTally(m: MemberRow, rankingsOf: string -> seq<int>): (t: Tally)
    ensures t.id == m.person.id && t.rank == Sum(rankingsOf(m.person.id)) && t.freq == |rankingsOf(m.person.id)|
  {
    TallyOf(m.person.id, m.person.shortName, m.role, rankingsOf(m.person.id))
  }

  function Tallies(ms: seq<MemberRow>, rankingsOf: string -> seq<int>): (r: seq<Tally>)
    ensures |r| == |ms| && forall k :: 0 <= k < |ms| ==> r[k] == MemberTally(ms[k], rankingsOf)
  {
    seq(|ms|, k requires 0 <= k < |ms| => MemberTally(ms[k], rankingsOf))
  }

  /** `mentoring_group_frequencies`: page `page` of 25 members in name
      order, each with freq the number of its frequencies and rank their
      sum, then that page sorted by rank, highest first. The sort never
      moves a member to another page. */
  function MemberFrequencies(ms: seq<MemberRow>, rankingsOf: string -> seq<int>, page: Option<int>): (r: seq<Tally>)
    ensures |r| <= 25
    ensures SortedByRank(r)
    ensures multiset(r) == multiset(Tallies(Paginate(Members(ms), 25, page), rankingsOf))
  {
    var ts := Tallies(Paginate(Members(ms), 25, page), rankingsOf);
    var r := SortByRank(ts);
    assert |r| == |multiset(r)| == |multiset(ts)| == |ts|;
    r
  }

  /** A row shown belongs to a member of the requested page. */
  lemma MemberFrequenciesFromPage(ms: seq<MemberRow>, rankingsOf: string -> seq<int>, page: Option<int>, t: Tally)
    requires t in MemberFrequencies(ms, rankingsOf, page)
    ensures exists m :: m in Paginate(Members(ms), 25, page) && t == MemberTally(m, rankingsOf)
  {
    var pg := Paginate(Members(ms), 25, page);
    var ts := Tallies(pg, rankingsOf);
    assert t in multiset(ts);
    var k :| 0 <= k < |ts| && ts[k] == t;
    assert pg[k] in pg;
  }

  // ------------------------------------------------------ attendance sheet

  /** A `Frequency` row already stored for the event. */
  datatype Recorded = Recorded(person: PersonRef, ranking: int, observations: string)

  /** One entry of the sheet kept in the session. */
  datatype SheetEntry = SheetEntry(personId: string, name: string, center: string, frequency: string, aspect: string, ranking: int, observations: string)

  /** The position of the first stored row of a person, or |recs|. */
  function FirstRecorded(recs: seq<Recorded>, id: string): (k: nat)
    ensures k <= |recs|
    ensures k < |recs| ==> recs[k].person.id == id
    ensures forall j :: 0 <= j < k ==> recs[j].person.id != id
  {
    if recs == [] then 0
    else if recs[0].person.id == id then 0
    else 1 + FirstRecorded(recs[1..], id)
  }

  predicate IsRecorded(recs: seq<Recorded>, id: string) {
    exists j :: 0 <= j < |recs| && recs[j].person.id == id
  }

  function EntryFor(p: PersonRef, recs: seq<Recorded>): SheetEntry {
    var k := FirstRecorded(recs, p.id);
    if k < |recs| then SheetEntry(p.id, p.shortName, p.center, "on", recs[k].person.aspect, recs[k].ranking, recs[k].observations)
    else SheetEntry(p.id, p.shortName, p.center, "", p.aspect, 0, "")
  }

  /** The persons of the sheet: the MBR memberships only, in name order. */
  function SheetPersons(ms: seq<MemberRow>): (r: seq<PersonRef>)
    ensures |r| == |WithRoles(ms, {"MBR"})|
    ensures forall k :: 0 <= k < |r| ==> r[k] == WithRoles(ms, {"MBR"})[k].person
  {
    var mbr := WithRoles(ms, {"MBR"});
    seq(|mbr|, k requires 0 <= k < |mbr| => mbr[k].person)
  }

  /** `preparing_the_session`: one entry per person, in order; a recorded
      person is marked "on" with the ranking and observations of its first
      stored row, any other is blank with ranking 0. The stored aspect is
      read through the stored row's person, which is the same person, so
      every entry carries the person's current aspect. */
  function PrepareSession(persons: seq<PersonRef>, recs: seq<Recorded>): (r: seq<SheetEntry>)
    requires forall j, i :: 0 <= j < |recs| && 0 <= i < |persons| && recs[j].person.id == persons[i].id ==> recs[j].person == persons[i]
    ensures |r| == |persons|
    ensures forall i :: 0 <= i < |persons| ==>
              r[i].personId == persons[i].id && r[i].name == persons[i].shortName && r[i].center == persons[i].center
              && r[i].aspect == persons[i].aspect
    ensures forall i :: 0 <= i < |persons| ==> (r[i].frequency == "on" <==> IsRecorded(recs, persons[i].id))
    ensures forall i :: 0 <= i < |persons| && !IsRecorded(recs, persons[i].id) ==>
              r[i].ranking == 0 && r[i].observations == ""
    ensures forall i :: 0 <= i < |persons| && IsRecorded(recs, persons[i].id) ==>
              var k := FirstRecorded(recs, persons[i].id);
              k < |recs| && r[i].ranking == recs[k].ranking && r[i].observations == recs[k].observations
  {
    seq(|persons|, i requires 0 <= i < |persons| => EntryFor(persons[i], recs))
  }

  /** The sheet of a workgroup for an event: members with role MBR only,
      contacts and mentors are not on it. */
  function EventSheet(ms: seq<MemberRow>, recs: seq<Recorded>): (r: seq<SheetEntry>)
    requires forall j, m :: 0 <= j < |recs| && m in ms && recs[j].person.id == m.person.id ==> recs[j].person == m.person
    ensures |r| == |WithRoles(ms, {"MBR"})|
    ensures forall i :: 0 <= i < |r| ==> r[i].personId == WithRoles(ms, {"MBR"})[i].person.id
    ensures forall i :: 0 <= i < |r| ==> exists m :: m in ms && m.role == "MBR" && m.person.id == r[i].personId
  {
    var persons := SheetPersons(ms);
    SheetPersonsConsistent(ms, recs);
    var r := PrepareSession(persons, recs);
    SheetIdsAreMembers(ms, r);
    assert forall i :: 0 <= i < |r| ==> WithRoles(ms, {"MBR"})[i].person.id == r[i].personId;
    r
  }

  /** The persons on an event's sheet are members, so a stored frequency
      with one's id is that person's. */
  lemma SheetPersonsConsistent(ms: seq<MemberRow>, recs: seq<Recorded>)
    requires forall j, m :: 0 <= j < |recs| && m in ms && recs[j].person.id == m.person.id ==> recs[j].person == m.person
    ensures forall j, i :: 0 <= j < |recs| && 0 <= i < |SheetPersons(ms)| && recs[j].person.id == SheetPersons(ms)[i].id ==>
              recs[j].person == SheetPersons(ms)[i]
  {
    var mbr := WithRoles(ms, {"MBR"});
    assert forall i :: 0 <= i < |mbr| ==> mbr[i] in mbr;
  }

  /** Entries matching the MBR rows one by one carry MBR members' ids. */
  lemma SheetIdsAreMembers(ms: seq<MemberRow>, r: seq<SheetEntry>)
    requires |r| == |WithRoles(ms, {"MBR"})|
    requires forall i :: 0 <= i < |r| ==> r[i].personId == SheetPersons(ms)[i].id
    ensures forall i :: 0 <= i < |r| ==> r[i].personId == WithRoles(ms, {"MBR"})[i].person.id
    ensures forall i :: 0 <= i < |r| ==> WithRoles(ms, {"MBR"})[i] in ms && WithRoles(ms, {"MBR"})[i].role == "MBR"
  {
    var mbr := WithRoles(ms, {"MBR"});
    assert forall i :: 0 <= i < |mbr| ==> mbr[i] in mbr;
  }

  // --------------------------------------------------------------- ranking

  /** Python's `int(s)` with ASCII digits: surrounding whitespace, an optional
      sign, then at least one digit; anything else raises (None). */
  function ParseInt(s: string): (r: Option<int>)
    ensures r.Some? ==> Strip(s) != ""
  {
    ParseSigned(Strip(s))
  }

  /** `int` on text already stripped: an optional sign and at least one digit. */
  function ParseSigned(t: string): (r: Option<int>)
    ensures r.Some? ==> t != []
  {
    if t == [] then None
    else
      var digits := if t[0] == '-' || t[0] == '+' then t[1..] else t;
      if digits == [] || !AllDigits(digits) then None
      else if t[0] == '-' then Some(-(ParseDigits(digits) as int))
      else Some(ParseDigits(digits))
  }

  /** Text that neither starts nor ends with whitespace is its own strip. */
  lemma StripUnspaced(s: string)
    requires s != [] && !IsSpace(s[0]) && !IsSpace(s[|s| - 1])
    ensures Strip(s) == s
  {
    assert DropSpaces(s) == s;
  }

  /** A digit string reads as its value. */
  lemma ParseUnsigned(d: string, m: nat)
    requires d != [] && AllDigits(d) && ParseDigits(d) == m
    ensures ParseInt(d) == Some(m as int)
  {
    assert IsDigit(d[0]) && IsDigit(d[|d| - 1]);
    StripUnspaced(d);
  }

  /** A minus sign and a digit string read as the negated value. */
  lemma ParseNegative(d: string, m: nat)
    requires d != [] && AllDigits(d) && ParseDigits(d) == m
    ensures ParseInt("-" + d) == Some(-(m as int))
  {
    var s := "-" + d;
    assert IsDigit(d[|d| - 1]);
    assert s[|s| - 1] == d[|d| - 1];
    StripUnspaced(s);
    SignedNegative(d, m);
  }

  lemma SignedNegative(d: string, m: nat)
    requires d != [] && AllDigits(d) && ParseDigits(d) == m
    ensures ParseSigned("-" + d) == Some(-(m as int))
  {
    var s := "-" + d;
    assert s[0] == '-' && s[1..] == d;
  }

  /** `int(str(n)) == n`. */
  lemma ParseIntToString(n: int)
    ensures ParseInt(IntToString(n)) == Some(n)
  {
    if n < 0 {
      ParseNatToString(-n);
      ParseNegative(NatToString(-n), -n);
    } else {
      ParseNatToString(n);
      ParseUnsigned(NatToString(n), n);
    }
  }

  /** `membership_update_frequency`: a missing or empty ranking is 0,
      anything else goes through `int`. */
  function RankingOf(posted: Option<string>): (r: Option<int>)
    ensures posted.None? || posted == Some("") ==> r == Some(0)
    ensures posted.Some? && posted.value != "" ==> r == ParseInt(posted.value)
  {
    if posted.None? || posted.value == "" then Some(0) else ParseInt(posted.value)
  }

  /** A ranking shown as text reads back as itself. */
  lemma RankingRoundTrip(n: int)
    ensures RankingOf(Some(IntToString(n))) == Some(n)
  {
    ParseIntToString(n);
  }
}

=== FILE: people_to_csv.dfy ===
/** scripts/people_to_csv.py: one export row per active person of a centre.
    The person's history is folded into the aspect date columns and into
    `obs2`, a text listing the other occurrences. History dates are the
    "%Y-%m-%d" text of the stored date. */
module PeopleToCsv {
  import opened Text
  import opened Wrappers
  import opened Persons

  /** One exported line. The aspect columns A1..A6 and GR live in
      `aspects`, keyed by column name; the other columns are fields, in
      output order. */
  datatype ExportLine = ExportLine(
    reg: string, name: string, birth: string, gender: string, idCard: string,
    cpf: string, address: string, number: string, complement: string,
    district: string, city: string, state: string, country: string, zip: string,
    phone: string, cellPhone: string, email: string, sosContact: string,
    sosPhone: string, from: string, to: string, date: string,
    aspects: map<string, string>, obs: string, obs2: string)

  type Aspects = map<string, string>

  /** The aspect columns the fold fills. */
  const AspectColumns: set<string> := {"A1", "A2", "A3", "A4", "GR", "A5", "A6"}

  const BlankAspects: Aspects := map c | c in AspectColumns :: ""

  /** `get_occurrence_display`: the (untranslated) label of an occurrence
      code; a code outside the choices shows as itself. */
  function OccurrenceLabel(code: string): string {
    match code
    case "TRF" => "transfered"
    case "RGS" => "regressed"
    case "OTH" => "other"
    case "PRP" => "preparatório"
    case "PRB" => "probatório"
    case "PRF" => "professo"
    case "--" => "--"
    case "A1" => "1st. Aspect"
    case "A2" => "2nd. Aspect"
    case "A3" => "3rd. Aspect"
    case "A4" => "4th. Aspect"
    case "GR" => "Grail"
    case "A5" => "5th. Aspect"
    case "A6" => "6th. Aspect"
    case "---" => "---"
    case "ACT" => "active"
    case "LIC" => "licensed"
    case "DEA" => "dead"
    case "DIS" => "disconnected"
    case "REM" => "removed"
    case _ => code
  }

  /** The aspect part of the loop: each history entry, in order, overwrites
      the column of its aspect code with its date. */
  function FoldAspects(row: Aspects, history: seq<HistoricEntry>): (r: Aspects)
    ensures r.Keys == row.Keys + (set e | e in history && e.occurrence in AspectColumns :: e.occurrence)
    decreases |history|
  {
    if history == [] then row
    else
      var e := history[0];
      var next := if e.occurrence in AspectColumns then row[e.occurrence := e.date] else row;
      FoldAspects(next, history[1..])
  }

  /** The reference: the date of the last entry with the given code. */
  function LastDateOf(history: seq<HistoricEntry>, code: string): (d: Option<string>)
    ensures d.Some? <==> exists i :: 0 <= i < |history| && history[i].occurrence == code
    ensures d.Some? ==> exists i :: 0 <= i < |history| && history[i].occurrence == code && history[i].date == d.value
                          && forall j :: i < j < |history| ==> history[j].occurrence != code
  {
    if history == [] then None
    else
      var n := |history| - 1;
      if history[n].occurrence == code then Some(history[n].date)
      else
        var d := LastDateOf(history[..n], code);
        assert forall i :: 0 <= i < n ==> history[..n][i] == history[i];
        d
  }

  lemma {:induction false} FoldAspectsIsLast(row: Aspects, history: seq<HistoricEntry>, code: string)
    requires code in AspectColumns && code in row
    ensures FoldAspects(row, history)[code]
            == if LastDateOf(history, code).Some? then LastDateOf(history, code).value else row[code]
    decreases |history|
  {
    if history != [] {
      var e := history[0];
      var next := if e.occurrence in AspectColumns then row[e.occurrence := e.date] else row;
      FoldAspectsIsLast(next, history[1..], code);
      LastDateOfCons(e, history[1..], code);
      assert [e] + history[1..] == history;
    }
  }

  lemma {:induction false} LastDateOfCons(e: HistoricEntry, rest: seq<HistoricEntry>, code: string)
    ensures LastDateOf([e] + rest, code)
            == if LastDateOf(rest, code).Some? then LastDateOf(rest, code)
               else if e.occurrence == code then Some(e.date) else None
    decreases |rest|
  {
    var h := [e] + rest;
    if rest != [] {
      var n := |rest| - 1;
      assert h[|h| - 1] == rest[n];
      assert h[..|h| - 1] == [e] + rest[..n];
      LastDateOfCons(e, rest[..n], code);
    } else {
      assert h[..0] == [];
    }
  }

  /** The `obs2` line of one entry: "\r\n- date - label" when its code is
      longer than two characters, nothing otherwise. */
  function EntryLine(e: HistoricEntry): (line: string)
    ensures line == "" <==> |e.occurrence| <= 2
  {
    if |e.occurrence| > 2 then "\r\n- " + e.date + " - " + OccurrenceLabel(e.occurrence) else ""
  }

  /** The `obs2` lines: one line per occurrence whose code is longer than
      two characters, in history order. */
  function OtherLines(history: seq<HistoricEntry>): (s: string)
    ensures s == "" <==> forall i :: 0 <= i < |history| ==> |history[i].occurrence| <= 2
  {
    if history == [] then ""
    else
      var rest := OtherLines(history[1..]);
      assert forall i :: 1 <= i < |history| ==> history[i] == history[1..][i - 1];
      EntryLine(history[0]) + rest
  }

  const ObsBanner := "*** Other Historic ***"

  /** `obs2`: blank when no occurrence qualifies, otherwise the banner
      followed by the lines. */
  function Obs2(history: seq<HistoricEntry>): (s: string)
    ensures s == "" <==> forall i :: 0 <= i < |history| ==> |history[i].occurrence| <= 2
    ensures s != "" ==> |s| > |ObsBanner| && s[..|ObsBanner|] == ObsBanner
  {
    var lines := OtherLines(history);
    if lines == "" then "" else ObsBanner + lines
  }

  /** Aspect codes never reach `obs2`; a longer code adds exactly its line. */
  lemma {:induction false} OtherLinesSnoc(history: seq<HistoricEntry>, e: HistoricEntry)
    ensures OtherLines(history + [e]) == OtherLines(history) + EntryLine(e)
    decreases |history|
  {
    var h := history + [e];
    if history == [] {
      assert h == [e] && h[1..] == [];
      AppendEmpty(EntryLine(e));
    } else {
      assert h[0] == history[0] && h[1..] == history[1..] + [e];
      OtherLinesSnoc(history[1..], e);
      AppendAssoc(EntryLine(history[0]), OtherLines(history[1..]), EntryLine(e));
    }
  }

  /** The export line of one person. `profile.phone` fills both phone
      columns. */
  function ExportRow(p: Person, pr: Profile): (line: ExportLine)
    ensures line.cpf == "" && line.from == "" && line.to == "" && line.date == ""
    ensures line.phone == line.cellPhone == pr.phone1
    ensures line.aspects.Keys == AspectColumns
  {
    FoldAspectsKeys(BlankAspects, p.history);
    ExportLine(p.reg, p.name, p.birth, pr.gender, p.idCard, "", pr.address, pr.number,
               pr.complement, pr.district, pr.city, pr.state, pr.country, pr.zipCode,
               pr.phone1, pr.phone1, p.userEmail, pr.sosContact, pr.sosPhone, "", "", "",
               FoldAspects(BlankAspects, p.history), p.observations, Obs2(p.history))
  }

  /** The `obs2` column lists the person's other occurrences: it is empty
      exactly when no code is longer than two characters. */
  lemma ExportRowObs2(p: Person, pr: Profile)
    ensures var o := ExportRow(p, pr).obs2;
            && (o == "" <==> forall i :: 0 <= i < |p.history| ==> |p.history[i].occurrence| <= 2)
            && (o != "" ==> |o| > |ObsBanner| && o[..|ObsBanner|] == ObsBanner)
  {
    assert ExportRow(p, pr).obs2 == Obs2(p.history);
  }

  lemma FoldAspectsKeys(row: Aspects, history: seq<HistoricEntry>)
    requires AspectColumns <= row.Keys
    ensures FoldAspects(row, history).Keys == row.Keys
  {
  }

  /** Each aspect column holds the date of the last entry with that code, or
      "" when there is none. */
  lemma ExportAspectColumns(p: Person, pr: Profile, code: string)
    requires code in AspectColumns
    ensures ExportRow(p, pr).aspects[code] == if LastDateOf(p.history, code).Some? then LastDateOf(p.history, code).value else ""
  {
    FoldAspectsIsLast(BlankAspects, p.history, code);
  }

  /** Whether a person is part of the export of a centre. */
  predicate Exported(entry: (Person, Profile), center: string) {
    entry.0.isActive && entry.0.center == center
  }

  /** The persons exported: the active ones of the centre, in order, each
      as its export line. */
  function Export(people: seq<(Person, Profile)>, center: string): (rows: seq<ExportLine>)
    ensures |rows| <= |people|
    ensures rows == [] <==> forall j :: 0 <= j < |people| ==> !Exported(people[j], center)
  {
    var keep := (e: (Person, Profile)) => Exported(e, center);
    SelectEmpty(people, keep, RowOf);
    Select(people, keep, RowOf)
  }

  function RowOf(e: (Person, Profile)): ExportLine {
    ExportRow(e.0, e.1)
  }

  /** The loop over the persons: `f` of each element that passes `keep`,
      in order. */
  function Select<T, U>(xs: seq<T>, keep: T -> bool, f: T -> U): (ys: seq<U>)
    ensures |ys| <= |xs|
  {
    if xs == [] then []
    else if keep(xs[0]) then [f(xs[0])] + Select(xs[1..], keep, f)
    else Select(xs[1..], keep, f)
  }

  lemma {:induction false} SelectEmpty<T, U>(xs: seq<T>, keep: T -> bool, f: T -> U)
    ensures Select(xs, keep, f) == [] <==> forall j :: 0 <= j < |xs| ==> !keep(xs[j])
  {
    if xs != [] {
      SelectEmpty(xs[1..], keep, f);
      assert forall j :: 1 <= j < |xs| ==> xs[j] == xs[1..][j - 1];
    }
  }

  /** Every selected element is `f` of an element that passes `keep`. */
  lemma {:induction false} SelectSound<T, U>(xs: seq<T>, keep: T -> bool, f: T -> U, i: nat) returns (j: nat)
    requires i < |Select(xs, keep, f)|
    ensures j < |xs| && keep(xs[j]) && Select(xs, keep, f)[i] == f(xs[j])
  {
    var rest := Select(xs[1..], keep, f);
    if keep(xs[0]) && i == 0 {
      j := 0;
    } else {
      var i' := if keep(xs[0]) then i - 1 else i;
      assert Select(xs, keep, f)[i] == rest[i'];
      var k := SelectSound(xs[1..], keep, f, i');
      j := k + 1;
      assert xs[1..][k] == xs[j];
    }
  }

  /** Every element that passes `keep` is selected. */
  lemma {:induction false} SelectComplete<T, U>(xs: seq<T>, keep: T -> bool, f: T -> U, j: nat)
    requires j < |xs| && keep(xs[j])
    ensures f(xs[j]) in Select(xs, keep, f)
  {
    if j > 0 {
      SelectComplete(xs[1..], keep, f, j - 1);
      assert xs[1..][j - 1] == xs[j];
    }
  }

  /** Every exported line is the line of an exported person. */
  lemma ExportSound(people: seq<(Person, Profile)>, center: string, i: nat) returns (j: nat)
    requires i < |Export(people, center)|
    ensures j < |people| && Exported(people[j], center)
    ensures Export(people, center)[i] == ExportRow(people[j].0, people[j].1)
  {
    var keep := (e: (Person, Profile)) => Exported(e, center);
    j := SelectSound(people, keep, RowOf, i);
  }

  /** Every active person of the centre is exported. */
  lemma ExportComplete(people: seq<(Person, Profile)>, center: string, j: nat)
    requires j < |people| && Exported(people[j], center)
    ensures ExportRow(people[j].0, people[j].1) in Export(people, center)
  {
    var keep := (e: (Person, Profile)) => Exported(e, center);
    SelectComplete(people, keep, RowOf, j);
  }
}

=== FILE: persons.dfy ===
/** The person record of person/models.py together with the state
    transitions of person/views/person.py: `clean`, `save`, soft delete,
    reinsertion, `add_historic` and the centre access check. Dates are the
    text of an already formatted date; "today" is a parameter. */
module Persons {
  import opened Text
  import opened Common
  import opened Wrappers

  /** A `Historic` row: an occurrence code, its date and who recorded it. */
  datatype HistoricEntry = HistoricEntry(occurrence: string, date: string, madeBy: string)

  /** The fields of `Person` the model uses, plus the owning user's e-mail and
      active flag, and the person's history in creation order. */
  datatype Person = Person(
    id: string,
    userEmail: string,
    userActive: bool,
    center: string,
    reg: string,
    name: string,
    nameSa: string,
    shortName: string,
    idCard: string,
    birth: string,
    aspect: string,
    aspectDate: string,
    status: string,
    observations: string,
    isActive: bool,
    madeBy: string,
    history: seq<HistoricEntry>)

  /** The profile of the person's user, as far as the import scripts fill it. */
  datatype Profile = Profile(
    socialName: string,
    gender: string,
    profession: string,
    address: string,
    number: string,
    complement: string,
    district: string,
    city: string,
    state: string,
    country: string,
    zipCode: string,
    phone1: string,
    phone2: string,
    sosContact: string,
    sosPhone: string)

  const BlankProfile := Profile("", "", "", "", "", "", "", "", "", "", "", "", "", "", "")

  /** The person a new user gets: model defaults (status "ACT", aspect "--",
      active) and no history. */
  function NewPerson(id: string, email: string): (p: Person)
    ensures p.status == "ACT" && p.isActive && p.userActive && p.history == []
  {
    Person(id, email, true, "", "", "", "", "", "", "", "--", "", "ACT", "", true, "", [])
  }

  /** The statuses under which `clean` marks a person active. */
  const ActiveStatuses: set<string> := {"ACT", "LIC", "---", "OTH"}

  /** `Person.clean`: derives `is_active` from the status. */
  function Clean(p: Person): (r: Person)
    ensures r.isActive <==> p.status in ActiveStatuses
    ensures r.(isActive := p.isActive) == p
  {
    p.(isActive := p.status in ActiveStatuses)
  }

  /** The name `save` falls back to: the local part of the user's e-mail
      between double angle brackets. */
  function DefaultName(email: string): (n: string)
    ensures |n| >= 4 && n[..2] == "<<" && n[|n| - 2..] == ">>"
  {
    "<<" + Split(email, '@')[0] + ">>"
  }

  /** `Person.save`: fills an empty name with `DefaultName`, and re-derives
      `name_sa` (through the opaque accent folding `fold`) and `short_name`
      from the name; nothing else changes. */
  function Save(p: Person, fold: string -> string): (r: Person)
    ensures p.name != "" ==> r.name == p.name
    ensures p.name == "" ==> r.name == DefaultName(p.userEmail)
    ensures r.name != ""
    ensures r.nameSa == fold(r.name) && r.shortName == ShortName(r.name)
    ensures r.(name := p.name, nameSa := p.nameSa, shortName := p.shortName) == p
  {
    var name := if p.name == "" then DefaultName(p.userEmail) else p.name;
    p.(name := name, nameSa := fold(name), shortName := ShortName(name))
  }

  /** Saving twice is saving once. */
  lemma SaveIdempotent(p: Person, fold: string -> string)
    ensures Save(Save(p, fold), fold) == Save(p, fold)
  {
  }

  /** `add_historic`: appends exactly one entry with the given occurrence,
      today's date and the acting user. */
  function AddHistoric(p: Person, occurrence: string, today: string, actor: string): (r: Person)
    ensures |r.history| == |p.history| + 1
    ensures r.history[..|p.history|] == p.history
    ensures r.history[|p.history|] == HistoricEntry(occurrence, today, actor)
    ensures r.(history := p.history) == p
  {
    p.(history := p.history + [HistoricEntry(occurrence, today, actor)])
  }

  /** `person_delete`: a person with history is deactivated (user and
      person), gets status "REM" and one "REM" entry; a person without
      history is removed with its user (None). */
  function Delete(p: Person, today: string, actor: string, fold: string -> string): (r: Option<Person>)
    ensures r.None? <==> p.history == []
    ensures r.Some? ==>
              var q := r.value;
              && !q.userActive && !q.isActive && q.status == "REM"
              && |q.history| == |p.history| + 1
              && q.history[..|p.history|] == p.history
              && q.history[|p.history|] == HistoricEntry("REM", today, actor)
              && q.shortName == ShortName(q.name)
    ensures r.Some? ==>
              r.value.(userActive := p.userActive, isActive := p.isActive, status := p.status, history := p.history)
              == Save(p, fold)
  {
    if p.history != [] then
      Some(AddHistoric(Save(p.(userActive := false, isActive := false, status := "REM"), fold), "REM", today, actor))
    else None
  }

  /** `person_reinsert`: the user and the person become active, status is
      "ACT", and one "ACT" entry is appended. */
  function Reinsert(p: Person, today: string, actor: string, fold: string -> string): (r: Person)
    ensures r.userActive && r.isActive && r.status == "ACT"
    ensures |r.history| == |p.history| + 1
    ensures r.history[..|p.history|] == p.history
    ensures r.history[|p.history|] == HistoricEntry("ACT", today, actor)
    ensures r.(userActive := p.userActive, isActive := p.isActive, status := p.status, history := p.history)
            == Save(p, fold)
  {
    AddHistoric(Save(p.(userActive := true, isActive := true, status := "ACT"), fold), "ACT", today, actor)
  }

  /** The flag the delete and reinsert views set by hand is the one `clean`
      would derive from the new status. */
  lemma DeleteReinsertAgreeWithClean(p: Person, today: string, actor: string, fold: string -> string)
    ensures Delete(p, today, actor, fold).Some? ==>
              Clean(Delete(p, today, actor, fold).value) == Delete(p, today, actor, fold).value
    ensures Clean(Reinsert(p, today, actor, fold)) == Reinsert(p, today, actor, fold)
  {
  }

  /** Deleting then reinserting restores an active person whose history ends
      with "REM" followed by "ACT" and whose other data is the saved data. */
  lemma ReinsertUndoesDelete(p: Person, today: string, actor: string, fold: string -> string)
    requires p.history != []
    ensures var r := Reinsert(Delete(p, today, actor, fold).value, today, actor, fold);
            && r.userActive && r.isActive && r.status == "ACT"
            && r.history == p.history + [HistoricEntry("REM", today, actor), HistoricEntry("ACT", today, actor)]
            && r.(history := p.history) == Save(p, fold).(userActive := true, isActive := true, status := "ACT")
  {
    var d := Delete(p, today, actor, fold).value;
    var r := Reinsert(d, today, actor, fold);
    assert r.history == d.history + [HistoricEntry("ACT", today, actor)];
    assert d.history == p.history + [HistoricEntry("REM", today, actor)];
  }

  // ---------------------------------------------------------- centre access

  /** The ids of the people of one centre, in order. */
  function CenterIds(people: seq<Person>, center: string): (ids: seq<string>)
    ensures forall id :: id in ids <==> exists i :: 0 <= i < |people| && people[i].id == id && people[i].center == center
  {
    if people == [] then []
    else
      var rest := CenterIds(people[1..], center);
      assert forall i :: 1 <= i < |people| ==> people[i] == people[1..][i - 1];
      if people[0].center == center then [people[0].id] + rest else rest
  }

  /** The guard of `person_detail` and the update views: the person must
      belong to the caller's centre, unless the caller is a superuser. */
  function CanAccess(id: string, callerCenter: string, isSuperuser: bool, people: seq<Person>): (ok: bool)
    ensures ok <==> isSuperuser || exists i :: 0 <= i < |people| && people[i].id == id && people[i].center == callerCenter
  {
    id in CenterIds(people, callerCenter) || isSuperuser
  }
}

=== FILE: publicwork_groups.dfy ===
/** publicwork/views/group.py: the member filters of a public-work group,
    its frequency table (`get_frequencies` and the sorted, paginated view),
    the attendance sheet kept in the session (`preparing_the_session`), the
    status rule of `group_add_member`, and `group_delete` / `group_reinsert`. */
module PublicworkGroups {
  import opened Text
  import opened Wrappers
  import opened Attendance
  import opened SeekerHistoric

  /** The fields of a `Seeker` the views read. */
  datatype SeekerRef = SeekerRef(id: string, name: string, shortName: string, center: string, status: string)

  /** `SEEKER_STATUS` of rcadmin/common.py: code and caption. */
  const SeekerStatus: seq<(string, string)> := [
    ("OBS", "observation"), ("NEW", "new"), ("MBR", "member"), ("INS", "installing"),
    ("ITD", "installed"), ("STD", "stand by"), ("RST", "restriction")
  ]

  /** Left out of the member list and of the frequency table. */
  const ListExcluded: set<string> := {"ITD", "RST", "STD"}

  /** Left out of the attendance sheet. */
  const SheetExcluded: set<string> := {"ITD", "STD"}

  /** `members.exclude(status__in=excluded)`, keeping the order. */
  function WithoutStatuses(ms: seq<SeekerRef>, excluded: set<string>): (r: seq<SeekerRef>)
    ensures |r| <= |ms|
    ensures forall m :: m in r <==> m in ms && m.status !in excluded
  {
    if ms == [] then []
    else
      var rest := WithoutStatuses(ms[1..], excluded);
      assert forall m :: m in ms <==> m == ms[0] || m in ms[1..];
      (if ms[0].status !in excluded then [ms[0]] else []) + rest
  }

  /** The filter keeps the members' order: filtering a concatenation is
      concatenating the filtered parts. */
  lemma {:induction false} WithoutStatusesAppend(a: seq<SeekerRef>, b: seq<SeekerRef>, excluded: set<string>)
    ensures WithoutStatuses(a + b, excluded) == WithoutStatuses(a, excluded) + WithoutStatuses(b, excluded)
  {
    if a == [] {
      assert a + b == b;
      EmptyAppend(WithoutStatuses(b, excluded));
    } else {
      assert (a + b)[0] == a[0] && (a + b)[1..] == a[1..] + b;
      WithoutStatusesAppend(a[1..], b, excluded);
      var head := if a[0].status !in excluded then [a[0]] else [];
      AppendAssoc(head, WithoutStatuses(a[1..], excluded), WithoutStatuses(b, excluded));
    }
  }

  function ActiveMembers(ms: seq<SeekerRef>): seq<SeekerRef> {
    WithoutStatuses(ms, ListExcluded)
  }

  function SheetMembers(ms: seq<SeekerRef>): seq<SeekerRef> {
    WithoutStatuses(ms, SheetExcluded)
  }

  /** The sheet holds every listed member, plus exactly the members under
      restriction. */
  lemma SheetIsActivePlusRestricted(ms: seq<SeekerRef>, m: SeekerRef)
    ensures m in ActiveMembers(ms) ==> m in SheetMembers(ms)
    ensures m in SheetMembers(ms) && m !in ActiveMembers(ms) <==> m in ms && m.status == "RST"
  {
  }

  // ------------------------------------------------------- frequency table

  /** `get_frequencies`: one row per seeker, in the order given, with the
      status caption, rank the sum of the seeker's listener rankings and
      freq their number. A status missing from `SeekerStatus` makes the
      dictionary lookup fail (None). */
  function GetFrequencies(seekers: seq<(SeekerRef, seq<int>)>): (r: Option<seq<Tally>>)
    ensures r.Some? ==> |r.value| == |seekers|
  {
    if seekers == [] then Some([])
    else
      var s := seekers[0].0;
      var caption := Lookup(SeekerStatus, s.status);
      var rest := GetFrequencies(seekers[1..]);
      if caption.None? || rest.None? then None
      else Some([TallyOf(s.id, s.name, caption.value, seekers[0].1)] + rest.value)
  }

  predicate Uncaptioned(seekers: seq<(SeekerRef, seq<int>)>, k: int) {
    0 <= k < |seekers| && Lookup(SeekerStatus, seekers[k].0.status).None?
  }

  /** The table fails exactly when some seeker's status has no caption. */
  lemma {:induction false} GetFrequenciesFails(seekers: seq<(SeekerRef, seq<int>)>)
    ensures GetFrequencies(seekers).None? <==> exists k :: Uncaptioned(seekers, k)
  {
    if seekers != [] {
      GetFrequenciesFails(seekers[1..]);
      UncaptionedCons(seekers);
    }
  }

  lemma UncaptionedCons(seekers: seq<(SeekerRef, seq<int>)>)
    requires seekers != []
    ensures (exists k :: Uncaptioned(seekers, k)) <==> Uncaptioned(seekers, 0) || exists k :: Uncaptioned(seekers[1..], k)
  {
    var tail := seekers[1..];
    if exists k :: Uncaptioned(tail, k) {
      var k :| Uncaptioned(tail, k);
      assert tail[k] == seekers[k + 1];
      assert Uncaptioned(seekers, k + 1);
    }
    if exists k :: Uncaptioned(seekers, k) {
      var k :| Uncaptioned(seekers, k);
      if k > 0 {
        assert tail[k - 1] == seekers[k];
        assert Uncaptioned(tail, k - 1);
      }
    }
  }

  /** Each row of a built table is its seeker's: same id, the status
      caption, rank the sum of the rankings and freq their count. */
  lemma {:induction false} GetFrequenciesRow(seekers: seq<(SeekerRef, seq<int>)>, k: nat)
    requires GetFrequencies(seekers).Some? && k < |seekers|
    ensures var t := GetFrequencies(seekers).value[k];
            && t.id == seekers[k].0.id
            && Some(t.status) == Lookup(SeekerStatus, seekers[k].0.status)
            && t.rank == Sum(seekers[k].1)
            && t.freq == |seekers[k].1|
  {
    var rows := GetFrequencies(seekers).value;
    var rest := GetFrequenciesCons(seekers);
    if k > 0 {
      GetFrequenciesRow(seekers[1..], k - 1);
      assert seekers[1..][k - 1] == seekers[k];
      assert rows[k] == rest[k - 1];
    }
  }

  /** A built table is the head seeker's row followed by the rest's table. */
  lemma GetFrequenciesCons(seekers: seq<(SeekerRef, seq<int>)>) returns (rest: seq<Tally>)
    requires GetFrequencies(seekers).Some? && seekers != []
    ensures GetFrequencies(seekers[1..]) == Some(rest)
    ensures var t := GetFrequencies(seekers).value[0];
            && t.id == seekers[0].0.id
            && Some(t.status) == Lookup(SeekerStatus, seekers[0].0.status)
            && t.rank == Sum(seekers[0].1)
            && t.freq == |seekers[0].1|
    ensures forall j :: 0 < j < |seekers| ==> GetFrequencies(seekers).value[j] == rest[j - 1]
  {
    rest := GetFrequencies(seekers[1..]).value;
  }

  /** Every status code of the table has its caption. */
  lemma StatusCaptioned(c: string)
    requires c in {"OBS", "NEW", "MBR", "INS", "ITD", "STD", "RST"}
    ensures Lookup(SeekerStatus, c).Some?
  {
    if c == "OBS" { assert SeekerStatus[0].0 == c; }
    else if c == "NEW" { assert SeekerStatus[1].0 == c; }
    else if c == "MBR" { assert SeekerStatus[2].0 == c; }
    else if c == "INS" { assert SeekerStatus[3].0 == c; }
    else if c == "ITD" { assert SeekerStatus[4].0 == c; }
    else if c == "STD" { assert SeekerStatus[5].0 == c; }
    else { assert SeekerStatus[6].0 == c; }
  }

  /** The table is built for any seekers whose statuses are codes of
      `SeekerStatus`. */
  lemma GetFrequenciesKnownStatuses(seekers: seq<(SeekerRef, seq<int>)>)
    requires forall k :: 0 <= k < |seekers| ==> seekers[k].0.status in {"OBS", "NEW", "MBR", "INS", "ITD", "STD", "RST"}
    ensures GetFrequencies(seekers).Some?
  {
    forall k | 0 <= k < |seekers| ensures !Uncaptioned(seekers, k) {
      StatusCaptioned(seekers[k].0.status);
    }
    GetFrequenciesFails(seekers);
  }

  /** The members' rankings: `rankingsOf(id)` are the rankings of the
      listener rows of seeker `id`. */
  function WithRankings(ms: seq<SeekerRef>, rankingsOf: string -> seq<int>): (r: seq<(SeekerRef, seq<int>)>)
    ensures |r| == |ms| && forall k :: 0 <= k < |ms| ==> r[k] == (ms[k], rankingsOf(ms[k].id))
  {
    seq(|ms|, k requires 0 <= k < |ms| => (ms[k], rankingsOf(ms[k].id)))
  }

  /** `group_frequencies`: the listed members' rows sorted by rank,
      highest first, then page `page` of 20. */
  function FrequenciesPage(ms: seq<SeekerRef>, rankingsOf: string -> seq<int>, page: Option<int>): (r: Option<seq<Tally>>)
    ensures r.None? <==> GetFrequencies(WithRankings(ActiveMembers(ms), rankingsOf)).None?
    ensures r.Some? ==> |r.value| <= 20 && SortedByRank(r.value)
  {
    var rows := GetFrequencies(WithRankings(ActiveMembers(ms), rankingsOf));
    if rows.None? then None
    else
      var sorted := SortByRank(rows.value);
      var b := PageBounds(|sorted|, 20, PageNumber(|sorted|, 20, page));
      SortedSlice(sorted, b.0, b.1);
      Some(Paginate(sorted, 20, page))
  }

  /** The pages of the view hold the listed members' rows once each: all
      of them together are a permutation of the unsorted table. */
  lemma FrequencyPagesArePermutation(ms: seq<SeekerRef>, rankingsOf: string -> seq<int>)
    requires GetFrequencies(WithRankings(ActiveMembers(ms), rankingsOf)).Some?
    ensures var rows := GetFrequencies(WithRankings(ActiveMembers(ms), rankingsOf)).value;
            var sorted := SortByRank(rows);
            multiset(FirstPages(sorted, 20, NumPages(|sorted|, 20))) == multiset(rows)
  {
    var rows := GetFrequencies(WithRankings(ActiveMembers(ms), rankingsOf)).value;
    var sorted := SortByRank(rows);
    PagesCoverRows(sorted, 20, NumPages(|sorted|, 20));
  }

  // ------------------------------------------------------ attendance sheet

  /** A `Listener` row already stored for the lecture. */
  datatype Recorded = Recorded(seekerId: string, ranking: int, observations: string)

  /** One entry of the sheet kept in the session. */
  datatype SheetEntry = SheetEntry(seekerId: string, name: string, center: string, freq: string, ranking: int, observations: string)

  /** The position of the first stored row of a seeker, or |recs| when
      there is none: the loop breaks at the first match. */
  function FirstRecorded(recs: seq<Recorded>, id: string): (k: nat)
    ensures k <= |recs|
    ensures k < |recs| ==> recs[k].seekerId == id
    ensures forall j :: 0 <= j < k ==> recs[j].seekerId != id
  {
    if recs == [] then 0
    else if recs[0].seekerId == id then 0
    else 1 + FirstRecorded(recs[1..], id)
  }

  predicate IsRecorded(recs: seq<Recorded>, id: string) {
    exists j :: 0 <= j < |recs| && recs[j].seekerId == id
  }

  function EntryFor(m: SeekerRef, recs: seq<Recorded>): SheetEntry {
    var k := FirstRecorded(recs, m.id);
    if k < |recs| then SheetEntry(m.id, m.shortName, m.center, "on", recs[k].ranking, recs[k].observations)
    else SheetEntry(m.id, m.shortName, m.center, "", 0, "")
  }

  /** `preparing_the_session`: one entry per member, in member order; a
      member already recorded is marked "on" with the ranking and
      observations of its first stored row, any other member is blank. */
  function PrepareSession(members: seq<SeekerRef>, recs: seq<Recorded>): (r: seq<SheetEntry>)
    ensures |r| == |members|
    ensures forall i :: 0 <= i < |members| ==>
              r[i].seekerId == members[i].id && r[i].name == members[i].shortName && r[i].center == members[i].center
    ensures forall i :: 0 <= i < |members| ==> (r[i].freq == "on" <==> IsRecorded(recs, members[i].id))
    ensures forall i :: 0 <= i < |members| && !IsRecorded(recs, members[i].id) ==>
              r[i].ranking == 0 && r[i].observations == ""
    ensures forall i :: 0 <= i < |members| && IsRecorded(recs, members[i].id) ==>
              var k := FirstRecorded(recs, members[i].id);
              k < |recs| && r[i].ranking == recs[k].ranking && r[i].observations == recs[k].observations
  {
    seq(|members|, i requires 0 <= i < |members| => EntryFor(members[i], recs))
  }

  /** The sheet for the lecture: the members not installed and not on
      stand-by. Its length is the number of listeners the POST is read
      for. */
  function LectureSheet(groupMembers: seq<SeekerRef>, recs: seq<Recorded>): (r: seq<SheetEntry>)
    ensures |r| == |SheetMembers(groupMembers)| <= |groupMembers|
    ensures forall i :: 0 <= i < |r| ==> r[i].seekerId == SheetMembers(groupMembers)[i].id
    ensures forall i :: 0 <= i < |r| ==> exists m :: m in groupMembers && m.status !in SheetExcluded && m.id == r[i].seekerId
  {
    var sheet := SheetMembers(groupMembers);
    var r := PrepareSession(sheet, recs);
    assert forall i :: 0 <= i < |r| ==> sheet[i] in sheet && sheet[i].id == r[i].seekerId;
    r
  }

  // ------------------------------------------------------ group membership

  /** `group_add_member`: the seeker joins the group; a MBR history entry
      dated today is added unless the seeker already is a member; then the
      status becomes MBR as of today, whatever the status date was. */
  function AddMember(group: set<string>, id: string, s: Seeker, today: int): (r: (set<string>, Seeker))
    ensures r.0 == group + {id}
    ensures s.status != "MBR" ==> r.1.history == s.history + [Entry("MBR", today)]
    ensures s.status == "MBR" ==> r.1.history == s.history
    ensures r.1.status == "MBR" && r.1.statusDate == Some(today) && r.1.isActive == s.isActive
  {
    var history := if s.status != "MBR" then s.history + [Entry("MBR", today)] else s.history;
    (group + {id}, s.(history := history, status := "MBR", statusDate := Some(today)))
  }

  /** Adding the same member twice on one day is adding it once. */
  lemma AddMemberIdempotent(group: set<string>, id: string, s: Seeker, today: int)
    ensures var once := AddMember(group, id, s, today);
            AddMember(once.0, id, once.1, today) == once
  {
  }

  /** When today is not before the status date, the status rule agrees
      with the "latest date wins" rule of the historic views; otherwise
      it moves the status date back. */
  lemma AddMemberVersusForward(group: set<string>, id: string, s: Seeker, today: int)
    ensures (s.statusDate.None? || today >= s.statusDate.value) ==>
              AddMember(group, id, s, today).1.(history := s.history) == Forward(s, "MBR", today)
    ensures s.statusDate.Some? && today < s.statusDate.value ==>
              AddMember(group, id, s, today).1.statusDate.value < s.statusDate.value
  {
  }

  /** A public-work group: whether it is active, its members and mentors. */
  datatype PwGroup = PwGroup(isActive: bool, members: set<string>, mentors: set<string>)

  /** `group_delete`: a group with members or mentors is deactivated; an
      empty one is removed (None). */
  function GroupDelete(g: PwGroup): (r: Option<PwGroup>)
    ensures r.None? <==> g.members == {} && g.mentors == {}
    ensures r.Some? ==> !r.value.isActive && r.value.members == g.members && r.value.mentors == g.mentors
  {
    if |g.members| > 0 || |g.mentors| > 0 then Some(g.(isActive := false)) else None
  }

  /** `group_reinsert`: the group becomes active again. */
  function GroupReinsert(g: PwGroup): (r: PwGroup)
    ensures r.isActive && r.members == g.members && r.mentors == g.mentors
  {
    g.(isActive := true)
  }

  /** Deleting a group that is kept and reinserting it gives back the
      group as it was when active. */
  lemma DeleteThenReinsert(g: PwGroup)
    requires g.isActive && GroupDelete(g).Some?
    ensures GroupReinsert(GroupDelete(g).value) == g
  {
  }
}

=== FILE: report.dfy ===
/** The report layout shared by the two import scripts: numbered detail
    lines "\n  k - item" under a title, omitted when there is nothing to
    list. */
module Reports {
  import opened Text
  import opened Wrappers

  /** The numbered lines "\n  k - item" of one detail list, from `k = start`. */
  function NumberedFrom(items: seq<string>, start: nat): (r: string)
    ensures items == [] <==> r == ""
  {
    if items == [] then ""
    else Line(start, items[0]) + NumberedFrom(items[1..], start + 1)
  }

  /** The detail line "\n  k - item". */
  function Line(k: nat, item: string): string {
    "\n  " + NatToString(k) + " - " + item
  }

  /** Appending an item adds one line, numbered one past the items before it:
      the numbering is 1..n in processing order. */
  lemma {:induction false} NumberedSnoc(items: seq<string>, x: string, start: nat)
    ensures NumberedFrom(items + [x], start) == NumberedFrom(items, start) + Line(start + |items|, x)
  {
    var line := Line(start + |items|, x);
    if items == [] {
      assert items + [x] == [x] && [x][1..] == [];
      AppendEmpty(line);
      EmptyAppend(line);
    } else {
      var tail := items[1..];
      assert (items + [x])[0] == items[0] && (items + [x])[1..] == tail + [x];
      NumberedSnoc(tail, x, start + 1);
      assert start + 1 + |tail| == start + |items|;
      AppendAssoc(Line(start, items[0]), NumberedFrom(tail, start + 1), line);
    }
  }

  /** A detail section: omitted when its list is empty. */
  function Section(title: string, items: seq<string>): (r: string)
    ensures items == [] <==> r == ""
    ensures items != [] ==> |r| > |title| + 2 && r[..|title| + 3] == "\n\n" + title + ":"
  {
    if items == [] then "" else "\n\n" + title + ":" + NumberedFrom(items, 1)
  }

  /** The number a count line "<tag><digits>" shows; None for any other
      line. */
  function CountOn(line: string, tag: string): Option<nat> {
    if |tag| < |line| && line[..|tag|] == tag && AllDigits(line[|tag|..])
    then Some(ParseDigits(line[|tag|..]))
    else None
  }

  /** A count line printed as tag and number reads back as that number. */
  lemma CountLineReadsBack(tag: string, n: nat)
    ensures CountOn(tag + NatToString(n), tag) == Some(n)
  {
    var line := tag + NatToString(n);
    assert line[..|tag|] == tag && line[|tag|..] == NatToString(n);
    ParseNatToString(n);
  }

  /** Lines joined by "\n" split back into those lines when none holds a
      line break; the report texts are read this way. */
  lemma ReportLines(lines: seq<string>)
    requires |lines| >= 1 && forall i :: 0 <= i < |lines| ==> '\n' !in lines[i]
    ensures Split(Join(lines, "\n"), '\n') == lines
  {
    SplitJoin(lines, '\n');
  }

  /** A printed number holds no line break. */
  lemma NoBreakInCount(n: nat)
    ensures '\n' !in NatToString(n)
  {
    var d := NatToString(n);
    assert forall i :: 0 <= i < |d| ==> IsDigit(d[i]);
  }
}

=== FILE: sanitize_csv.dfy ===
/** The `SanitizeCsv` class of rcadmin/common.py: it reads a CSV export of
    people, keeps the expected columns, blanks missing text cells, splits
    the full address, strips phone numbers down to digits and writes the
    rows out, separating those without an e-mail. The pandas frame is a
    sequence of rows, each a map from column name to cell. */
module SanitizeCsv {
  import opened Text
  import opened Wrappers

  /** A cell of the frame: text (object columns), a missing value (NaN or
      NaT), or a parsed date (an abstract day number). */
  datatype Cell = Text(s: string) | Missing | Date(day: int)

  type Row = map<string, Cell>

  datatype Frame = Frame(columns: seq<string>, rows: seq<Row>)

  /** The cell of `row` in column `c`; a column the row lacks reads as missing. */
  function Get(row: Row, c: string): Cell {
    if c in row then row[c] else Missing
  }

  const DefaultColumns: seq<string> := [
    "reg", "name", "gender", "birth", "__full_address", "district", "city",
    "state_prov", "zip", "country", "rg", "exp", "cpf", "phone", "cell_phone",
    "email", "profession", "sos_contact", "sos_phone", "ps",
    "A1", "A2", "A3", "A4", "GR", "A5", "A6"
  ]

  const DefaultDates: seq<string> := ["birth", "A1", "A2", "A3", "A4", "GR", "A5", "A6"]

  /** The constructor arguments of `SanitizeCsv`. */
  datatype Config = Config(columns: seq<string>, dates: seq<string>, fields: bool)

  /** `objs`: the columns read as text, i.e. neither dates nor "email", in
      column order. */
  function Objs(columns: seq<string>, dates: seq<string>): (objs: seq<string>)
    ensures |objs| <= |columns|
    ensures forall c :: c in objs <==> c in columns && c !in dates && c != "email"
  {
    if columns == [] then []
    else
      var rest := Objs(columns[1..], dates);
      var c := columns[0];
      if c !in dates && c != "email" then [c] + rest else rest
  }

  /** The columns whose name contains "phone". */
  function PhoneColumns(columns: seq<string>): (phones: seq<string>)
    ensures forall c :: c in phones <==> c in columns && Contains(c, "phone")
  {
    if columns == [] then []
    else
      var rest := PhoneColumns(columns[1..]);
      if Contains(columns[0], "phone") then [columns[0]] + rest else rest
  }

  // ----------------------------------------------------------- get_dataframe

  function Project(row: Row, columns: seq<string>): (r: Row)
    ensures r.Keys == set c | c in columns
    ensures forall c :: c in columns ==> Get(r, c) == Get(row, c)
  {
    map c | c in columns :: Get(row, c)
  }

  /** `get_dataframe` after reading: False (None) when a required column is
      absent, otherwise the frame cut down to the required columns, in the
      required order. */
  function GetDataframe(f: Frame, columns: seq<string>): (r: Option<Frame>)
    ensures r.None? <==> exists c :: c in columns && c !in f.columns
    ensures r.Some? ==>
              && r.value.columns == columns
              && |r.value.rows| == |f.rows|
              && forall i :: 0 <= i < |f.rows| ==>
                   && r.value.rows[i].Keys == (set c | c in columns)
                   && forall c :: c in columns ==> Get(r.value.rows[i], c) == Get(f.rows[i], c)
  {
    if exists c :: c in columns && c !in f.columns then None
    else Some(Frame(columns, seq(|f.rows|, i requires 0 <= i < |f.rows| => Project(f.rows[i], columns))))
  }

  // ------------------------------------------------------------- clear_phone

  /** `clear_phone`: a string keeps only its digits; any other value is
      returned as it is. */
  function ClearPhone(cell: Cell): (r: Cell)
    ensures cell.Text? ==> r.Text? && AllDigits(r.s) && |r.s| <= |cell.s|
    ensures !cell.Text? ==> r == cell
  {
    match cell
    case Text(s) => Text(Digits(s))
    case _ => cell
  }

  /** No digit is lost, and clearing twice is clearing once. */
  lemma ClearPhoneKeepsDigits(cell: Cell)
    requires cell.Text?
    ensures Digits(ClearPhone(cell).s) == Digits(cell.s)
    ensures ClearPhone(ClearPhone(cell)) == ClearPhone(cell)
  {
    DigitsOfDigits(Digits(cell.s));
  }

  // ------------------------------------------------------------- adjust_data

  /** `fillna("")` on one cell. */
  function FillBlank(cell: Cell): (r: Cell)
    ensures r != Missing
    ensures cell != Missing ==> r == cell
  {
    if cell == Missing then Text("") else cell
  }

  /** `fillna("")` on the given columns of one row. */
  function FillColumns(row: Row, cols: seq<string>): (r: Row)
    ensures forall c :: c in cols ==> Get(r, c) == FillBlank(Get(row, c))
    ensures forall c :: c !in cols ==> Get(r, c) == Get(row, c)
    decreases cols
  {
    if cols == [] then row
    else FillColumns(row[cols[0] := FillBlank(Get(row, cols[0]))], cols[1..])
  }

  /** `clear_phone` followed by `fillna("")` on the given columns of one row. */
  function ClearPhones(row: Row, cols: seq<string>): (r: Row)
    ensures forall c :: c in cols ==> Get(r, c) == FillBlank(ClearPhone(Get(row, c)))
    ensures forall c :: c !in cols ==> Get(r, c) == Get(row, c)
    decreases cols
  {
    if cols == [] then row
    else
      ClearPhoneFilledTwice(Get(row, cols[0]));
      ClearPhones(row[cols[0] := FillBlank(ClearPhone(Get(row, cols[0])))], cols[1..])
  }

  lemma ClearPhoneFilledTwice(cell: Cell)
    ensures FillBlank(ClearPhone(FillBlank(ClearPhone(cell)))) == FillBlank(ClearPhone(cell))
  {
    if cell.Text? {
      DigitsOfDigits(Digits(cell.s));
    }
  }

  /** The pieces of `str.split(",")` on one full-address cell; a non-text
      cell gives a single blank piece (all three columns end up blank). */
  function AddressParts(cell: Cell): (parts: seq<string>)
    ensures |parts| >= 1
  {
    if cell.Text? then Split(cell.s, ',') else [""]
  }

  /** The number of columns `expand=True` produces: the largest piece count. */
  function SplitWidth(rows: seq<Row>): nat {
    if rows == [] then 0
    else
      var w := |AddressParts(Get(rows[0], "__full_address"))|;
      var rest := SplitWidth(rows[1..]);
      if w > rest then w else rest
  }

  lemma {:induction false} SplitWidthBounds(rows: seq<Row>, i: nat)
    requires i < |rows|
    ensures |AddressParts(Get(rows[i], "__full_address"))| <= SplitWidth(rows)
  {
    if i > 0 {
      SplitWidthBounds(rows[1..], i - 1);
      assert rows[1..][i - 1] == rows[i];
    }
  }

  /** The piece `k` of a split, blank when the row has fewer pieces. */
  function PartOr(parts: seq<string>, k: nat): string {
    if k < |parts| then parts[k] else ""
  }

  function SplitAddress(row: Row): (r: Row) {
    var parts := AddressParts(Get(row, "__full_address"));
    row["address" := Text(PartOr(parts, 0))]["number" := Text(PartOr(parts, 1))]["complement" := Text(PartOr(parts, 2))]
  }

  const AddressColumns: seq<string> := ["address", "number", "complement"]

  /** Assigning to `df[extra]`: the names not yet present are appended. */
  function AddColumns(columns: seq<string>, extra: seq<string>): (r: seq<string>)
    ensures forall c :: c in r <==> c in columns || c in extra
    ensures |r| >= |columns| && r[..|columns|] == columns
    decreases extra
  {
    if extra == [] then columns
    else if extra[0] in columns then AddColumns(columns, extra[1..])
    else
      var r := AddColumns(columns + [extra[0]], extra[1..]);
      assert r[..|columns|] == (columns + [extra[0]])[..|columns|];
      r
  }

  function AdjustRow(row: Row, objs: seq<string>, split: bool, phones: seq<string>): Row {
    var filled := FillColumns(row, objs);
    var addressed := if split then SplitAddress(filled) else filled;
    ClearPhones(addressed, phones)
  }

  /** `adjust_data`: blanks the text columns, splits "__full_address" into
      address, number and complement when that column is present, and
      clears the phone columns. pandas refuses the split unless the widest
      address has exactly three pieces. */
  function AdjustData(f: Frame, cfg: Config): (r: Result<Frame, string>)
    requires f.columns == cfg.columns
    ensures r.Ok? ==> |r.value.rows| == |f.rows|
  {
    var objs := Objs(cfg.columns, cfg.dates);
    var phones := PhoneColumns(cfg.columns);
    var split := "__full_address" in f.columns;
    if split && SplitWidth(f.rows) != 3 then Err("Columns must be same length as key")
    else
      var cols := if split then AddColumns(f.columns, AddressColumns) else f.columns;
      Ok(Frame(cols, seq(|f.rows|, i requires 0 <= i < |f.rows| => AdjustRow(f.rows[i], objs, split, phones))))
  }

  /** What `adjust_data` guarantees of each row: no text column is left
      missing; every phone column holds digits only (or is a date cell the
      phone clearing leaves alone); and with a full address the street is
      the text before the first comma and the three parts, put back with
      commas, are the address whenever it had exactly three pieces. E-mail
      and date columns that are not phone or address columns are
      untouched. */
  lemma AdjustRowSpec(row: Row, cfg: Config, split: bool)
    ensures var objs := Objs(cfg.columns, cfg.dates);
            var phones := PhoneColumns(cfg.columns);
            var r := AdjustRow(row, objs, split, phones);
            && (forall c :: c in objs && c !in AddressColumns ==> Get(r, c) != Missing)
            && (forall c :: c in phones ==> Get(r, c) != Missing && (Get(r, c).Text? ==> AllDigits(Get(r, c).s)))
            && (forall c :: c !in objs && c !in phones && c !in AddressColumns ==> Get(r, c) == Get(row, c))
  {
    var objs := Objs(cfg.columns, cfg.dates);
    var phones := PhoneColumns(cfg.columns);
    var filled := FillColumns(row, objs);
    var addressed := if split then SplitAddress(filled) else filled;
    var r := ClearPhones(addressed, phones);
    forall c | c in objs && c !in AddressColumns ensures Get(r, c) != Missing {
      assert Get(addressed, c) == Get(filled, c);
    }
    forall c | c !in objs && c !in phones && c !in AddressColumns ensures Get(r, c) == Get(row, c) {
      assert Get(addressed, c) == Get(filled, c);
    }
  }

  /** The address split of one row: the street is the text before the first
      comma, and a three-piece address is recovered by joining the parts. */
  lemma SplitAddressSpec(row: Row, s: string)
    requires Get(row, "__full_address") == Text(s)
    ensures var r := SplitAddress(row);
            && Get(r, "address") == Text(s[..IndexOf(s, ',')])
            && (|Split(s, ',')| == 3 ==>
                  Join([Get(r, "address").s, Get(r, "number").s, Get(r, "complement").s], ",") == s)
  {
    SplitHead(s, ',');
    var parts := Split(s, ',');
    if |parts| == 3 {
      assert [parts[0], parts[1], parts[2]] == parts;
      JoinSplit(s, ',');
    }
  }

  /** The split succeeds exactly when the widest full address has three
      pieces; then every row has at most three. */
  lemma AdjustDataSplitWidth(f: Frame, cfg: Config)
    requires f.columns == cfg.columns && "__full_address" in f.columns
    ensures AdjustData(f, cfg).Ok? <==> SplitWidth(f.rows) == 3
    ensures AdjustData(f, cfg).Ok? ==>
              forall i :: 0 <= i < |f.rows| ==> |AddressParts(Get(f.rows[i], "__full_address"))| <= 3
  {
    if SplitWidth(f.rows) == 3 {
      forall i | 0 <= i < |f.rows| ensures |AddressParts(Get(f.rows[i], "__full_address"))| <= 3 {
        SplitWidthBounds(f.rows, i);
      }
    }
  }

  // ----------------------------------------------------------- generate_files

  /** One file written by `generate_files`. */
  datatype Output = Output(path: string, rows: seq<Row>)

  predicate NoEmail(row: Row) {
    Get(row, "email") == Missing
  }

  predicate AllWithEmail(rows: seq<Row>) {
    forall i :: 0 <= i < |rows| ==> !NoEmail(rows[i])
  }

  predicate AllWithoutEmail(rows: seq<Row>) {
    forall i :: 0 <= i < |rows| ==> NoEmail(rows[i])
  }

  /** The rows without an e-mail (`keep`) or with one (`!keep`), in order. */
  function ByEmail(rows: seq<Row>, keep: bool): (r: seq<Row>)
    ensures forall i :: 0 <= i < |r| ==> NoEmail(r[i]) == keep && r[i] in rows
  {
    if rows == [] then []
    else (if NoEmail(rows[0]) == keep then [rows[0]] else []) + ByEmail(rows[1..], keep)
  }

  lemma {:induction false} ByEmailPartition(rows: seq<Row>)
    ensures multiset(ByEmail(rows, true)) + multiset(ByEmail(rows, false)) == multiset(rows)
  {
    if rows != [] {
      ByEmailPartition(rows[1..]);
      assert rows == [rows[0]] + rows[1..];
    }
  }

  lemma {:induction false} ByEmailAll(rows: seq<Row>)
    requires AllWithEmail(rows)
    ensures ByEmail(rows, false) == rows
  {
    if rows != [] {
      ByEmailAll(rows[1..]);
      assert rows == [rows[0]] + rows[1..];
    }
  }

  /** `generate_files`: with `fields` the frame goes to "fields__<file>";
      otherwise rows with a missing e-mail go to "without_email/we__<file>"
      and the rest to "<file>". Without an "email" column pandas fails. */
  function GenerateFiles(f: Frame, path: string, file: string, fields: bool): (r: Result<seq<Output>, string>)
    ensures r.Err? <==> !fields && "email" !in f.columns
    ensures r.Ok? && fields ==> r.value == [Output(path + "/fields__" + file, f.rows)]
    ensures r.Ok? && !fields ==>
              && 1 <= |r.value| <= 2
              && r.value[|r.value| - 1].path == path + "/" + file
              && AllWithEmail(r.value[|r.value| - 1].rows)
              && (|r.value| == 2 ==>
                    && r.value[0].path == path + "/without_email/we__" + file
                    && |r.value[0].rows| > 0
                    && AllWithoutEmail(r.value[0].rows))
              && (|r.value| == 1 <==> AllWithEmail(f.rows))
  {
    if fields then Ok([Output(path + "/fields__" + file, f.rows)])
    else if "email" !in f.columns then Err("KeyError: 'email'")
    else if exists i :: 0 <= i < |f.rows| && NoEmail(f.rows[i]) then
      var without := ByEmail(f.rows, true);
      assert without != [] by { ByEmailNonEmpty(f.rows); }
      Ok([Output(path + "/without_email/we__" + file, without),
          Output(path + "/" + file, ByEmail(f.rows, false))])
    else
      ByEmailAll(f.rows);
      Ok([Output(path + "/" + file, f.rows)])
  }

  lemma {:induction false} ByEmailNonEmpty(rows: seq<Row>)
    requires exists i :: 0 <= i < |rows| && NoEmail(rows[i])
    ensures ByEmail(rows, true) != []
  {
    if !NoEmail(rows[0]) {
      var i :| 0 <= i < |rows| && NoEmail(rows[i]);
      assert rows[1..][i - 1] == rows[i];
      ByEmailNonEmpty(rows[1..]);
    }
  }

  /** Every row is written exactly once: the files together hold the
      frame's rows, with the same multiplicities. */
  lemma GenerateFilesPartition(f: Frame, path: string, file: string, fields: bool)
    requires GenerateFiles(f, path, file, fields).Ok?
    ensures var outs := GenerateFiles(f, path, file, fields).value;
            multiset(f.rows) == if |outs| == 1 then multiset(outs[0].rows)
                                else multiset(outs[0].rows) + multiset(outs[1].rows)
  {
    ByEmailPartition(f.rows);
  }
}

=== FILE: seeker_historic.dfy ===
/** publicwork/views/historic.py: a seeker's status follows its history.
    A new or edited entry wins when its date is on or after the current
    status date (`adjust_seeker_side`), and deleting an entry recomputes the
    status from the last remaining one. Dates are ordered ints. */
module SeekerHistoric {
  import opened Wrappers

  /** A `HistoricOfSeeker` row. */
  datatype Entry = Entry(occurrence: string, date: int)

  /** The fields of `Seeker` the rules touch, plus its history in order. */
  datatype Seeker = Seeker(status: string, statusDate: Option<int>, isActive: bool, history: seq<Entry>)

  /** `adjust_seeker_side` forward: the occurrence becomes the status when
      there is no status date yet or the new date is not earlier. */
  function Forward(s: Seeker, occurrence: string, date: int): (r: Seeker)
    ensures (s.statusDate.None? || date >= s.statusDate.value) ==>
              r == s.(status := occurrence, statusDate := Some(date))
    ensures (s.statusDate.Some? && date < s.statusDate.value) ==> r == s
    ensures s.statusDate.Some? ==> r.statusDate.Some? && r.statusDate.value >= s.statusDate.value
  {
    if s.statusDate.None? || date >= s.statusDate.value then s.(status := occurrence, statusDate := Some(date))
    else s
  }

  /** Applying the same entry twice is applying it once. */
  lemma ForwardIdempotent(s: Seeker, occurrence: string, date: int)
    ensures Forward(Forward(s, occurrence, date), occurrence, date) == Forward(s, occurrence, date)
  {
  }

  /** `adjust_seeker_side` reverse: the status and date of the last
      remaining entry; None where the source reads a field of a missing
      entry. */
  function Reverse(s: Seeker): (r: Option<Seeker>)
    ensures r.None? <==> s.history == []
    ensures r.Some? ==> r.value.status == s.history[|s.history| - 1].occurrence
                        && r.value.statusDate == Some(s.history[|s.history| - 1].date)
                        && r.value.(status := s.status, statusDate := s.statusDate) == s
  {
    if s.history == [] then None
    else
      var last := s.history[|s.history| - 1];
      Some(s.(status := last.occurrence, statusDate := Some(last.date)))
  }

  /** `create_historic`: the entry is stored; any occurrence but OBS goes
      through `Forward`; RST and STD also deactivate the seeker. */
  function CreateHistoric(s: Seeker, e: Entry): (r: Seeker)
    ensures r.history == s.history + [e]
    ensures e.occurrence == "OBS" ==> r.status == s.status && r.statusDate == s.statusDate
    ensures e.occurrence in {"RST", "STD"} ==> !r.isActive
    ensures e.occurrence !in {"RST", "STD"} ==> r.isActive == s.isActive
    ensures e.occurrence != "OBS" ==>
              r.(history := s.history, isActive := s.isActive) == Forward(s, e.occurrence, e.date)
  {
    var stored := s.(history := s.history + [e]);
    var adjusted := if e.occurrence != "OBS" then Forward(stored, e.occurrence, e.date) else stored;
    if e.occurrence in {"RST", "STD"} then adjusted.(isActive := false) else adjusted
  }

  /** `update_historic`: the entry at `i` is replaced; any occurrence but
      OBS goes through `Forward`. */
  function UpdateHistoric(s: Seeker, i: nat, e: Entry): (r: Seeker)
    requires i < |s.history|
    ensures r.history == s.history[i := e] && r.isActive == s.isActive
    ensures e.occurrence == "OBS" ==> r.status == s.status && r.statusDate == s.statusDate
    ensures e.occurrence != "OBS" ==> r.(history := s.history) == Forward(s, e.occurrence, e.date)
  {
    var stored := s.(history := s.history[i := e]);
    if e.occurrence != "OBS" then Forward(stored, e.occurrence, e.date) else stored
  }

  /** `delete_historic`: the entry at `i` is removed; unless it was an OBS
      or NEW entry the status is recomputed by `Reverse`, which fails when
      no entry remains. */
  function DeleteHistoric(s: Seeker, i: nat): (r: Option<Seeker>)
    requires i < |s.history|
    ensures s.history[i].occurrence in {"OBS", "NEW"} ==>
              r == Some(s.(history := s.history[..i] + s.history[i + 1..]))
    ensures s.history[i].occurrence !in {"OBS", "NEW"} ==>
              (r.None? <==> |s.history| == 1)
    ensures r.Some? && s.history[i].occurrence !in {"OBS", "NEW"} ==>
              var rest := s.history[..i] + s.history[i + 1..];
              r.value.status == rest[|rest| - 1].occurrence && r.value.statusDate == Some(rest[|rest| - 1].date)
  {
    var stored := s.(history := s.history[..i] + s.history[i + 1..]);
    if s.history[i].occurrence in {"OBS", "NEW"} then Some(stored) else Reverse(stored)
  }

  // ---------------------------------------------- the "latest wins" rule

  /** Entries applied one after the other through `Forward`. */
  function ForwardAll(s: Seeker, es: seq<Entry>): Seeker {
    if es == [] then s
    else
      var e := es[|es| - 1];
      Forward(ForwardAll(s, es[..|es| - 1]), e.occurrence, e.date)
  }

  /** The reference: the position of the latest entry, the last one among
      entries that share the latest date. */
  function Latest(es: seq<Entry>): (k: nat)
    requires es != []
    ensures k < |es|
    ensures forall j :: 0 <= j < |es| ==> es[j].date <= es[k].date
    ensures forall j :: k < j < |es| ==> es[j].date < es[k].date
  {
    if |es| == 1 then 0
    else
      var init := es[..|es| - 1];
      var k := Latest(init);
      assert forall j :: 0 <= j < |init| ==> init[j] == es[j];
      if es[|es| - 1].date >= es[k].date then |es| - 1 else k
  }

  /** Starting without a status date, applying entries in any order of
      arrival leaves the status of the latest-dated entry (the last of
      equal dates) and its date. */
  lemma {:induction false} ForwardAllIsLatest(s: Seeker, es: seq<Entry>)
    requires s.statusDate.None? && es != []
    ensures ForwardAll(s, es).status == es[Latest(es)].occurrence
    ensures ForwardAll(s, es).statusDate == Some(es[Latest(es)].date)
  {
    if |es| > 1 {
      var init := es[..|es| - 1];
      ForwardAllIsLatest(s, init);
      assert init[Latest(init)] == es[Latest(init)];
    }
  }

  /** Applying entries never moves the status date back. */
  lemma {:induction false} ForwardAllMonotone(s: Seeker, es: seq<Entry>)
    requires s.statusDate.Some?
    ensures ForwardAll(s, es).statusDate.Some?
    ensures ForwardAll(s, es).statusDate.value >= s.statusDate.value
  {
    if es != [] {
      ForwardAllMonotone(s, es[..|es| - 1]);
    }
  }
}

=== FILE: text.dfy ===
/** Python `str` behaviour used by the rest of the model: `\d`, whitespace,
    `split`, `join`, `strip`, clamped slices, `str(int)` and `str.center`.
    Case mapping and digit classes are restricted to ASCII. */
module Text {
  import opened Wrappers

  /** Python's `\d`, restricted to ASCII digits. */
  predicate IsDigit(c: char) {
    '0' <= c <= '9'
  }

  predicate AllDigits(s: string) {
    forall i :: 0 <= i < |s| ==> IsDigit(s[i])
  }

  function DigitValue(c: char): nat
    requires IsDigit(c)
  {
    (c as int) - ('0' as int)
  }

  function DigitChar(n: nat): (c: char)
    requires n < 10
    ensures IsDigit(c) && DigitValue(c) == n
  {
    (('0' as int) + n) as char
  }

  /** The characters Python's `str.split()` and `str.strip()` treat as whitespace. */
  predicate IsSpace(c: char) {
    || c == ' '
    || ('\t' <= c <= '\r')
    || ('\U{1c}' <= c <= '\U{1f}')
    || c == '\U{85}' || c == '\U{a0}' || c == '\U{1680}'
    || ('\U{2000}' <= c <= '\U{200a}')
    || c == '\U{2028}' || c == '\U{2029}' || c == '\U{202f}'
    || c == '\U{205f}' || c == '\U{3000}'
  }

  predicate NoSpace(s: string) {
    forall i :: 0 <= i < |s| ==> !IsSpace(s[i])
  }

  /** `"".join(re.findall(r"\d", s))`: the digits of `s`, in order. */
  function Digits(s: string): (r: string)
    ensures |r| <= |s|
    ensures AllDigits(r)
  {
    if s == [] then []
    else if IsDigit(s[0]) then [s[0]] + Digits(s[1..])
    else Digits(s[1..])
  }

  lemma {:induction false} DigitsAppend(a: string, b: string)
    ensures Digits(a + b) == Digits(a) + Digits(b)
  {
    if a == [] {
      assert a + b == b;
    } else {
      assert (a + b)[1..] == a[1..] + b;
      DigitsAppend(a[1..], b);
    }
  }

  lemma {:induction false} DigitsOfDigits(s: string)
    requires AllDigits(s)
    ensures Digits(s) == s
  {
    if s != [] {
      DigitsOfDigits(s[1..]);
    }
  }

  lemma {:induction false} DigitsOfNonDigits(s: string)
    requires forall i :: 0 <= i < |s| ==> !IsDigit(s[i])
    ensures Digits(s) == []
  {
    if s != [] {
      DigitsOfNonDigits(s[1..]);
    }
  }

  function LowerChar(c: char): char {
    if 'A' <= c <= 'Z' then ((c as int) + 32) as char else c
  }

  function UpperChar(c: char): char {
    if 'a' <= c <= 'z' then ((c as int) - 32) as char else c
  }

  /** `str.lower()` on ASCII letters. */
  function Lower(s: string): (r: string)
    ensures |r| == |s|
    ensures forall i :: 0 <= i < |s| ==> r[i] == LowerChar(s[i])
  {
    seq(|s|, i requires 0 <= i < |s| => LowerChar(s[i]))
  }

  /** `str.capitalize()` on ASCII letters: first character upper, the rest lower. */
  function Capitalize(s: string): (r: string)
    ensures |r| == |s|
  {
    if s == [] then [] else [UpperChar(s[0])] + Lower(s[1..])
  }

  lemma CaseKeepsSpaces(c: char)
    ensures IsSpace(LowerChar(c)) == IsSpace(c)
    ensures IsSpace(UpperChar(c)) == IsSpace(c)
    ensures (LowerChar(c) == ' ') == (c == ' ')
    ensures IsDigit(LowerChar(c)) == IsDigit(c)
  {
  }

  /** The `i` with `s[..i]` the characters before the first `c` (`|s|` when absent). */
  function IndexOf(s: string, c: char): (i: nat)
    ensures i <= |s|
    ensures c !in s[..i]
    ensures i < |s| ==> s[i] == c
  {
    if s == [] then 0
    else if s[0] == c then 0
    else 1 + IndexOf(s[1..], c)
  }

  /** Python's `s.split(sep)` for a one-character separator. */
  function Split(s: string, sep: char): (parts: seq<string>)
    ensures |parts| >= 1
    ensures forall i :: 0 <= i < |parts| ==> sep !in parts[i]
  {
    if s == [] then [""]
    else
      var rest := Split(s[1..], sep);
      if s[0] == sep then [""] + rest
      else [[s[0]] + rest[0]] + rest[1..]
  }

  /** Python's `sep.join(parts)`. */
  function Join(parts: seq<string>, sep: string): string {
    if parts == [] then ""
    else if |parts| == 1 then parts[0]
    else parts[0] + sep + Join(parts[1..], sep)
  }

  /** A character in no part and not in the separator is not in the join. */
  lemma {:induction false} JoinAvoids(parts: seq<string>, sep: string, c: char)
    requires c !in sep
    requires forall i :: 0 <= i < |parts| ==> c !in parts[i]
    ensures c !in Join(parts, sep)
  {
    if |parts| > 1 {
      JoinAvoids(parts[1..], sep, c);
      assert Join(parts, sep) == parts[0] + sep + Join(parts[1..], sep);
    }
  }

  lemma {:induction false} JoinSplit(s: string, sep: char)
    ensures Join(Split(s, sep), [sep]) == s
  {
    if s != [] {
      var rest := Split(s[1..], sep);
      JoinSplit(s[1..], sep);
      if s[0] == sep {
        assert Split(s, sep) == [""] + rest;
        assert ([""] + rest)[1..] == rest;
      } else {
        var parts := [[s[0]] + rest[0]] + rest[1..];
        assert Split(s, sep) == parts;
        if |rest| == 1 {
          assert Join(rest, [sep]) == rest[0];
        } else {
          assert parts[1..] == rest[1..];
          assert Join(rest, [sep]) == rest[0] + [sep] + Join(rest[1..], [sep]);
        }
      }
    }
  }

  lemma {:induction false} SplitPrefix(p: string, t: string, sep: char)
    requires sep !in p
    ensures Split(p + t, sep) == [p + Split(t, sep)[0]] + Split(t, sep)[1..]
  {
    var st := Split(t, sep);
    if p == [] {
      assert p + t == t;
      assert p + st[0] == st[0];
      assert [st[0]] + st[1..] == st;
    } else {
      assert (p + t)[1..] == p[1..] + t;
      SplitPrefix(p[1..], t, sep);
      assert [p[0]] + (p[1..] + Split(t, sep)[0]) == p + Split(t, sep)[0];
    }
  }

  lemma {:induction false} SplitJoin(ps: seq<string>, sep: char)
    requires |ps| >= 1
    requires forall i :: 0 <= i < |ps| ==> sep !in ps[i]
    ensures Split(Join(ps, [sep]), sep) == ps
  {
    if |ps| == 1 {
      SplitPrefix(ps[0], "", sep);
      assert ps[0] + "" == ps[0];
    } else {
      var tail := Join(ps[1..], [sep]);
      SplitJoin(ps[1..], sep);
      assert Join(ps, [sep]) == ps[0] + ([sep] + tail);
      SplitPrefix(ps[0], [sep] + tail, sep);
      assert ([sep] + tail)[1..] == tail;
      var st := Split([sep] + tail, sep);
      assert st == [""] + ps[1..];
      assert st[0] == "" && st[1..] == ps[1..];
      assert ps[0] + "" == ps[0];
      assert [ps[0]] + ps[1..] == ps;
    }
  }

  /** The text before the first `sep`: Python's `s.split(sep)[0]`. */
  lemma {:induction false} SplitHead(s: string, sep: char)
    ensures Split(s, sep)[0] == s[..IndexOf(s, sep)]
  {
    if s != [] && s[0] != sep {
      SplitHead(s[1..], sep);
      assert s[..IndexOf(s, sep)] == [s[0]] + s[1..][..IndexOf(s[1..], sep)];
    }
  }

  lemma {:induction false} SplitNoSep(s: string, sep: char)
    requires sep !in s
    ensures Split(s, sep) == [s]
  {
    SplitPrefix(s, "", sep);
    assert s + "" == s;
  }

  /** `s` without its leading whitespace. */
  function DropSpaces(s: string): (r: string)
    ensures |r| <= |s|
    ensures r == [] || !IsSpace(r[0])
    ensures r == s[|s| - |r|..]
  {
    if s != [] && IsSpace(s[0]) then DropSpaces(s[1..]) else s
  }

  /** The longest prefix of `s` without whitespace. */
  function WordPrefix(s: string): (w: string)
    ensures |w| <= |s| && w == s[..|w|]
    ensures NoSpace(w)
    ensures |w| < |s| ==> IsSpace(s[|w|])
  {
    if s == [] || IsSpace(s[0]) then [] else [s[0]] + WordPrefix(s[1..])
  }

  /** Python's `s.split()`: the maximal runs of non-whitespace characters. */
  function Words(s: string): (ws: seq<string>)
    ensures forall i :: 0 <= i < |ws| ==> |ws[i]| > 0 && NoSpace(ws[i])
    decreases |s|
  {
    var t := DropSpaces(s);
    if t == [] then []
    else
      var w := WordPrefix(t);
      [w] + Words(t[|w|..])
  }

  lemma {:induction false} WordPrefixOf(w: string, t: string)
    requires NoSpace(w)
    requires t == [] || IsSpace(t[0])
    ensures WordPrefix(w + t) == w
  {
    if w == [] {
      assert w + t == t;
    } else {
      assert (w + t)[1..] == w[1..] + t;
      WordPrefixOf(w[1..], t);
    }
  }

  lemma WordsSkipSpace(c: char, t: string)
    requires IsSpace(c)
    ensures Words([c] + t) == Words(t)
  {
    assert ([c] + t)[1..] == t;
    assert DropSpaces([c] + t) == DropSpaces(t);
  }

  lemma WordsOfWord(w: string, t: string)
    requires |w| > 0 && NoSpace(w)
    requires t == [] || IsSpace(t[0])
    ensures Words(w + t) == [w] + Words(t)
  {
    var s := w + t;
    assert DropSpaces(s) == s;
    WordPrefixOf(w, t);
    assert s[|w|..] == t;
  }

  predicate PlainWords(ws: seq<string>) {
    forall i :: 0 <= i < |ws| ==> |ws[i]| > 0 && NoSpace(ws[i])
  }

  lemma JoinCons(ws: seq<string>, sep: string)
    requires |ws| >= 2
    ensures Join(ws, sep) == ws[0] + (sep + Join(ws[1..], sep))
  {
  }

  lemma WordsOfWordThenSpace(w: string, tail: string)
    requires |w| > 0 && NoSpace(w)
    ensures Words(w + (" " + tail)) == [w] + Words(tail)
  {
    WordsOfWord(w, " " + tail);
    WordsSkipSpace(' ', tail);
  }

  lemma PlainWordsTail(ws: seq<string>)
    requires ws != [] && PlainWords(ws)
    ensures PlainWords(ws[1..])
  {
    forall i | 0 <= i < |ws| - 1 ensures |ws[1..][i]| > 0 && NoSpace(ws[1..][i]) {
      assert ws[1..][i] == ws[i + 1];
    }
  }

  /** Joining words with single spaces and splitting on whitespace gives the words back. */
  lemma {:induction false} WordsOfJoin(ws: seq<string>)
    requires PlainWords(ws)
    ensures Words(Join(ws, " ")) == ws
  {
    if |ws| == 1 {
      WordsOfJoinOne(ws);
    } else if |ws| >= 2 {
      PlainWordsTail(ws);
      WordsOfJoin(ws[1..]);
      WordsOfJoinCons(ws);
    }
  }

  lemma WordsOfJoinOne(ws: seq<string>)
    requires |ws| == 1 && PlainWords(ws)
    ensures Words(Join(ws, " ")) == ws
  {
    var w := ws[0];
    assert ws == [w];
    WordsOfWord(w, "");
    assert w + "" == w;
  }

  lemma WordsOfJoinCons(ws: seq<string>)
    requires |ws| >= 2 && PlainWords(ws)
    requires Words(Join(ws[1..], " ")) == ws[1..]
    ensures Words(Join(ws, " ")) == ws
  {
    var w, rest := ws[0], ws[1..];
    assert |w| > 0 && NoSpace(w);
    JoinCons(ws, " ");
    WordsOfWordThenSpace(w, Join(rest, " "));
    HeadTail(ws);
  }

  lemma HeadTail<T>(s: seq<T>)
    requires s != []
    ensures [s[0]] + s[1..] == s
  {
  }

  lemma AppendAssoc<T>(a: seq<T>, b: seq<T>, c: seq<T>)
    ensures a + (b + c) == (a + b) + c
  {
  }

  lemma AppendEmpty<T>(a: seq<T>)
    ensures a + [] == a
  {
  }

  lemma EmptyAppend<T>(a: seq<T>)
    ensures [] + a == a
  {
  }

  /** `s` without its trailing whitespace. */
  function DropTrailingSpaces(s: string): (r: string)
    ensures |r| <= |s| && r == s[..|r|]
    ensures r == [] || !IsSpace(r[|r| - 1])
  {
    if s != [] && IsSpace(s[|s| - 1]) then DropTrailingSpaces(s[..|s| - 1]) else s
  }

  /** Python's `s.strip()`. */
  function Strip(s: string): (r: string)
    ensures |r| <= |s|
    ensures r == [] || (!IsSpace(r[0]) && !IsSpace(r[|r| - 1]))
  {
    DropTrailingSpaces(DropSpaces(s))
  }

  /** Python's `s[i:j]` for non-negative bounds: out-of-range bounds are clamped. */
  function Slice(s: string, i: nat, j: nat): (r: string)
    ensures |r| <= |s|
  {
    var hi := if j <= |s| then j else |s|;
    var lo := if i <= hi then i else hi;
    s[lo..hi]
  }

  /** Python's `s[i:]`. */
  function From(s: string, i: nat): string {
    Slice(s, i, |s|)
  }

  /** Consecutive clamped slices put back together give the string back. */
  lemma SliceConcat(s: string, i: nat, j: nat, k: nat)
    requires i <= j <= k
    ensures Slice(s, i, j) + Slice(s, j, k) == Slice(s, i, k)
  {
  }

  /** Python's `needle in haystack` for strings. */
  predicate Contains(haystack: string, needle: string)
    decreases |haystack|
  {
    |needle| <= |haystack| && (haystack[..|needle|] == needle || Contains(haystack[1..], needle))
  }

  /** `str(n)` for a natural number. */
  function NatToString(n: nat): (s: string)
    ensures |s| >= 1 && AllDigits(s)
  {
    if n < 10 then [DigitChar(n)] else NatToString(n / 10) + [DigitChar(n % 10)]
  }

  /** The value of a decimal digit string (the reverse of `NatToString`). */
  function ParseDigits(s: string): nat
    requires AllDigits(s)
  {
    if s == [] then 0 else ParseDigits(s[..|s| - 1]) * 10 + DigitValue(s[|s| - 1])
  }

  lemma {:induction false} ParseNatToString(n: nat)
    ensures ParseDigits(NatToString(n)) == n
  {
    if n >= 10 {
      var s := NatToString(n);
      assert s[..|s| - 1] == NatToString(n / 10);
      ParseNatToString(n / 10);
    }
  }

  /** `str(i)` for an integer. */
  function IntToString(i: int): (s: string)
    ensures |s| >= 1
  {
    if i < 0 then "-" + NatToString(-i) else NatToString(i)
  }

  lemma NatToStringInjective(m: nat, n: nat)
    requires NatToString(m) == NatToString(n)
    ensures m == n
  {
    ParseNatToString(m);
    ParseNatToString(n);
  }

  function Repeat(c: char, n: nat): (r: string)
    ensures |r| == n
    ensures forall i :: 0 <= i < n ==> r[i] == c
  {
    seq(n, _ => c)
  }

  /** Python's `s.center(width, fill)`, with CPython's rule for the odd cell. */
  function Center(s: string, width: nat, fill: char): (r: string)
    ensures |r| == if |s| >= width then |s| else width
  {
    if |s| >= width then s
    else
      var marg := width - |s|;
      var left := marg / 2 + (if marg % 2 == 1 && width % 2 == 1 then 1 else 0);
      Repeat(fill, left) + s + Repeat(fill, marg - left)
  }

  /** The elements of `xs` that are not `x`. */
  function Without(xs: seq<string>, x: string): (r: seq<string>)
    ensures forall i :: 0 <= i < |r| ==> r[i] != x && r[i] in xs
  {
    if xs == [] then []
    else (if xs[0] == x then [] else [xs[0]]) + Without(xs[1..], x)
  }

  /** `s.replace(c, "")` for a one-character `c`. */
  function RemoveChar(s: string, c: char): (r: string)
    ensures c !in r
    ensures |r| <= |s|
    ensures forall i :: 0 <= i < |r| ==> r[i] in s
  {
    if s == [] then []
    else (if s[0] == c then [] else [s[0]]) + RemoveChar(s[1..], c)
  }

  lemma {:induction false} RemoveAbsentChar(s: string, c: char)
    requires c !in s
    ensures RemoveChar(s, c) == s
  {
    if s != [] {
      RemoveAbsentChar(s[1..], c);
    }
  }

  lemma {:induction false} RemoveCharAppend(a: string, b: string, c: char)
    ensures RemoveChar(a + b, c) == RemoveChar(a, c) + RemoveChar(b, c)
  {
    if a == [] {
      assert a + b == b;
      EmptyAppend(RemoveChar(b, c));
    } else {
      var head := if a[0] == c then [] else [a[0]];
      assert (a + b)[0] == a[0] && (a + b)[1..] == a[1..] + b;
      RemoveCharAppend(a[1..], b, c);
      AppendAssoc(head, RemoveChar(a[1..], c), RemoveChar(b, c));
    }
  }

  /** Python's `s.split(sep)[-1]`: the text after the last `sep`. */
  function LastPart(s: string, sep: char): (r: string)
    ensures sep !in r
  {
    var parts := Split(s, sep);
    parts[|parts| - 1]
  }

  /** Whatever precedes the last separator, the last part is what follows it. */
  lemma {:induction false} LastPartAfter(p: string, t: string, sep: char)
    requires sep !in t
    ensures |Split(p + [sep] + t, sep)| >= 2
    ensures LastPart(p + [sep] + t, sep) == t
  {
    var s := p + [sep] + t;
    if p == [] {
      assert s == [sep] + t && s[1..] == t;
      SplitNoSep(t, sep);
    } else {
      assert s[1..] == p[1..] + [sep] + t;
      LastPartAfter(p[1..], t, sep);
    }
  }

  /** A piece of a concatenation is contained in it. */
  lemma {:induction false} ContainsMiddle(a: string, b: string, c: string)
    ensures Contains(a + b + c, b)
    decreases |a|
  {
    var s := a + b + c;
    if a == [] {
      assert s[..|b|] == b;
    } else {
      assert s[1..] == a[1..] + b + c;
      ContainsMiddle(a[1..], b, c);
    }
  }

  /** The value of the first pair with the given key in a Django choices
      table; None where `[v for k, v in table if k == key][0]` fails. */
  function Lookup(table: seq<(string, string)>, key: string): (v: Option<string>)
    ensures v.None? <==> forall i :: 0 <= i < |table| ==> table[i].0 != key
    ensures v.Some? ==> (key, v.value) in table
  {
    if table == [] then None
    else if table[0].0 == key then Some(table[0].1)
    else
      assert forall i :: 1 <= i < |table| ==> table[i] == table[1..][i - 1];
      Lookup(table[1..], key)
  }
}

=== FILE: treasury.dfy ===
/** treasury/views/useful.py, `OrderByPeriod`: the orders of a period are
    flattened into items (one per form of payment, or one per payment),
    grouped by type in order of first appearance, and each group keeps its
    concluded, pending and overall totals. Amounts are integer cents; the
    creation date of an order is its already formatted text. */
module Treasury {
  import opened Text
  import opened Wrappers
  import opened TreasuryModels

  /** `PAYFORM_TYPES`: code and (untranslated) label. */
  const PayformTypes: seq<(string, string)> := [
    ("PIX", "pix"), ("CSH", "cash"), ("CHK", "check"), ("PRE", "pre check"),
    ("DBT", "debit"), ("CDT", "credit"), ("DPT", "deposit"), ("TRF", "transfer"),
    ("SLP", "bank slip")]

  /** The label of the first `PAYFORM_TYPES` entry with the code; None where
      the source's `[...][0]` raises IndexError. */
  function PayformLabel(code: string): (l: Option<string>)
    ensures l.None? <==> forall i :: 0 <= i < |PayformTypes| ==> PayformTypes[i].0 != code
    ensures l.Some? ==> (code, l.value) in PayformTypes
  {
    Lookup(PayformTypes, code)
  }

  /** The per-item fields that only the templates show. */
  datatype Detail =
    | PayformDetail(bankFlag: Option<string>, ctrlNumber: Option<string>, complement: Option<string>)
    | PaymentDetail(person: string, event: string, refMonth: string, obs: string)

  /** One row of a group: the order's id, date text, status and self-paid
      flag, the grouping key (payform code or pay type name) and the value. */
  datatype Item = Item(orderId: string, date: string, status: string, key: string,
                       value: int, selfPayed: bool, detail: Detail)

  /** A group of items of one key, with its running totals. `caption` is what
      the summary shows for it. */
  datatype Group = Group(key: string, caption: string, items: seq<Item>,
                         concluded: int, pending: int, total: int)

  // ------------------------------------------------------------ measures

  function ConcludedPart(it: Item): int { if it.status == "CCD" then it.value else 0 }
  function PendingPart(it: Item): int { if it.status == "PND" then it.value else 0 }
  function ValuePart(it: Item): int { it.value }
  function One(it: Item): int { 1 }
  function SelfPendingPart(it: Item): int { if it.selfPayed && it.status == "PND" then it.value else 0 }

  /** The sum of a measure over items. */
  function ItemSum(xs: seq<Item>, m: Item -> int): int {
    if xs == [] then 0 else ItemSum(xs[..|xs| - 1], m) + m(xs[|xs| - 1])
  }

  /** The sum of a measure over the items of every group. */
  function GroupSum(gs: seq<Group>, m: Item -> int): int {
    if gs == [] then 0 else GroupSum(gs[..|gs| - 1], m) + ItemSum(gs[|gs| - 1].items, m)
  }

  lemma {:induction false} ItemSumOne(xs: seq<Item>)
    ensures ItemSum(xs, One) == |xs|
  {
    if xs != [] {
      ItemSumOne(xs[..|xs| - 1]);
    }
  }

  // ------------------------------------------------------------ grouping

  /** The keys of a sequence of keyed values, in order. */
  function KeysBy<T>(xs: seq<T>, key: T -> string): (ks: seq<string>)
    ensures |ks| == |xs| && forall i :: 0 <= i < |xs| ==> ks[i] == key(xs[i])
  {
    seq(|xs|, i requires 0 <= i < |xs| => key(xs[i]))
  }

  function GroupKey(g: Group): string { g.key }

  function ItemKey(it: Item): string { it.key }

  /** The keys of the groups, in order. */
  function Keys(gs: seq<Group>): seq<string> {
    KeysBy(gs, GroupKey)
  }

  /** The position of the group with key `k` (`|gs|` when there is none). */
  function FindKey(gs: seq<Group>, k: string): (i: nat)
    ensures i <= |gs|
    ensures forall j :: 0 <= j < i ==> gs[j].key != k
    ensures i < |gs| ==> gs[i].key == k
  {
    if gs == [] then 0
    else if gs[0].key == k then 0
    else
      assert forall j :: 1 <= j < |gs| ==> gs[j] == gs[1..][j - 1];
      1 + FindKey(gs[1..], k)
  }

  /** The group a new key opens. */
  function NewGroup(it: Item, labelOf: string -> string): Group {
    Group(it.key, labelOf(it.key), [it], ConcludedPart(it), PendingPart(it), it.value)
  }

  /** A group extended by one more item of its key. */
  function Extend(g: Group, it: Item): Group {
    g.(items := g.items + [it], concluded := g.concluded + ConcludedPart(it),
       pending := g.pending + PendingPart(it), total := g.total + it.value)
  }

  /** One step of the loop: a new key opens a group at the end, a known key
      extends its group and adds to its totals. */
  function AddItem(gs: seq<Group>, it: Item, labelOf: string -> string): (r: seq<Group>)
    ensures Keys(r) == if it.key in Keys(gs) then Keys(gs) else Keys(gs) + [it.key]
  {
    var i := FindKey(gs, it.key);
    if i == |gs| then gs + [NewGroup(it, labelOf)] else gs[i := Extend(gs[i], it)]
  }

  /** The whole loop over the items, in order. */
  function GroupItems(items: seq<Item>, labelOf: string -> string): (gs: seq<Group>) {
    if items == [] then []
    else AddItem(GroupItems(items[..|items| - 1], labelOf), items[|items| - 1], labelOf)
  }

  // ------------------------------------------------------------ reference

  /** The keys of the items, in order. */
  function ItemKeys(items: seq<Item>): seq<string> {
    KeysBy(items, ItemKey)
  }

  /** The keys in order of first appearance. */
  function FirstAppearances(ks: seq<string>): (r: seq<string>)
    ensures forall k :: k in r <==> k in ks
    ensures forall i, j :: 0 <= i < j < |r| ==> r[i] != r[j]
  {
    if ks == [] then []
    else
      var init := FirstAppearances(ks[..|ks| - 1]);
      var k := ks[|ks| - 1];
      assert ks == ks[..|ks| - 1] + [k];
      if k in ks[..|ks| - 1] then init else init + [k]
  }

  /** The items with key `k`, in order. */
  function OfKey(items: seq<Item>, k: string): (r: seq<Item>)
    ensures forall x :: x in r ==> x in items && x.key == k
  {
    if items == [] then []
    else
      var last := items[|items| - 1];
      OfKey(items[..|items| - 1], k) + (if last.key == k then [last] else [])
  }

  lemma {:induction false} OfKeyAbsent(items: seq<Item>, k: string)
    requires k !in ItemKeys(items)
    ensures OfKey(items, k) == []
  {
    if items != [] {
      var init := items[..|items| - 1];
      assert forall i :: 0 <= i < |init| ==> ItemKeys(init)[i] == ItemKeys(items)[i];
      OfKeyAbsent(init, k);
    }
  }

  /** What every group says about the items grouped so far. */
  predicate GroupOk(g: Group, items: seq<Item>, labelOf: string -> string) {
    && g.caption == labelOf(g.key)
    && g.items == OfKey(items, g.key)
    && g.total == ItemSum(g.items, ValuePart)
    && g.concluded == ItemSum(g.items, ConcludedPart)
    && g.pending == ItemSum(g.items, PendingPart)
  }

  predicate Grouped(gs: seq<Group>, items: seq<Item>, labelOf: string -> string) {
    && Keys(gs) == FirstAppearances(ItemKeys(items))
    && forall i :: 0 <= i < |gs| ==> GroupOk(gs[i], items, labelOf)
  }

  lemma ItemKeysSnoc(items: seq<Item>, it: Item)
    ensures ItemKeys(items + [it]) == ItemKeys(items) + [it.key]
    ensures (items + [it])[..|items|] == items
  {
    assert ItemKeys(items + [it]) == ItemKeys(items) + [it.key];
  }

  lemma OfKeySnoc(items: seq<Item>, it: Item, k: string)
    ensures OfKey(items + [it], k) == OfKey(items, k) + if it.key == k then [it] else []
  {
    assert (items + [it])[..|items|] == items;
  }

  lemma FirstAppearancesSnoc(ks: seq<string>, k: string)
    ensures FirstAppearances(ks + [k]) == if k in ks then FirstAppearances(ks) else FirstAppearances(ks) + [k]
  {
    assert (ks + [k])[..|ks|] == ks;
  }

  lemma GroupOkKept(g: Group, items: seq<Item>, it: Item, labelOf: string -> string)
    requires GroupOk(g, items, labelOf) && g.key != it.key
    ensures GroupOk(g, items + [it], labelOf)
  {
    OfKeySnoc(items, it, g.key);
  }

  lemma GroupOkExtended(g: Group, items: seq<Item>, it: Item, labelOf: string -> string)
    requires GroupOk(g, items, labelOf) && g.key == it.key
    ensures GroupOk(Extend(g, it), items + [it], labelOf)
  {
    OfKeySnoc(items, it, g.key);
    ExtendSums(g, it);
  }

  /** Extending a group keeps its totals the sums over its items. */
  lemma ExtendSums(g: Group, it: Item)
    requires g.total == ItemSum(g.items, ValuePart)
    requires g.concluded == ItemSum(g.items, ConcludedPart)
    requires g.pending == ItemSum(g.items, PendingPart)
    ensures Extend(g, it).total == ItemSum(g.items + [it], ValuePart)
    ensures Extend(g, it).concluded == ItemSum(g.items + [it], ConcludedPart)
    ensures Extend(g, it).pending == ItemSum(g.items + [it], PendingPart)
  {
    var t := ItemSumSnoc(g.items, it, ValuePart);
    var c := ItemSumSnoc(g.items, it, ConcludedPart);
    var p := ItemSumSnoc(g.items, it, PendingPart);
    assert c == g.concluded + ConcludedPart(it);
    assert p == g.pending + PendingPart(it);
    assert t == g.total + it.value;
  }

  lemma ItemSumSnoc(xs: seq<Item>, x: Item, m: Item -> int) returns (sum: int)
    ensures sum == ItemSum(xs, m) + m(x) && sum == ItemSum(xs + [x], m)
  {
    assert (xs + [x])[..|xs|] == xs;
    sum := ItemSum(xs, m) + m(x);
  }

  lemma GroupOkNew(items: seq<Item>, it: Item, labelOf: string -> string)
    requires it.key !in ItemKeys(items)
    ensures GroupOk(NewGroup(it, labelOf), items + [it], labelOf)
  {
    OfKeyAbsent(items, it.key);
    OfKeySnoc(items, it, it.key);
    assert [it][..0] == [];
  }

  lemma AddItemGrouped(gs: seq<Group>, items: seq<Item>, it: Item, labelOf: string -> string)
    requires Grouped(gs, items, labelOf)
    ensures Grouped(AddItem(gs, it, labelOf), items + [it], labelOf)
  {
    var all := items + [it];
    ItemKeysSnoc(items, it);
    FirstAppearancesSnoc(ItemKeys(items), it.key);
    var r := AddItem(gs, it, labelOf);
    var i := FindKey(gs, it.key);
    assert it.key in Keys(gs) <==> it.key in ItemKeys(items);
    if i == |gs| {
      assert r == gs + [NewGroup(it, labelOf)];
      forall j | 0 <= j < |r| ensures GroupOk(r[j], all, labelOf) {
        if j < |gs| {
          assert Keys(gs)[j] == gs[j].key;
          GroupOkKept(gs[j], items, it, labelOf);
        } else {
          GroupOkNew(items, it, labelOf);
        }
      }
    } else {
      assert r == gs[i := Extend(gs[i], it)];
      forall j | 0 <= j < |r| ensures GroupOk(r[j], all, labelOf) {
        if j == i {
          GroupOkExtended(gs[i], items, it, labelOf);
        } else {
          assert Keys(gs)[j] != Keys(gs)[i];
          GroupOkKept(gs[j], items, it, labelOf);
        }
      }
    }
  }

  /** The loop builds the reference grouping: keys in order of first
      appearance, one group per key, each holding exactly the items of its
      key in order, with totals that are sums over those items. */
  lemma {:induction false} GroupItemsGrouped(items: seq<Item>, labelOf: string -> string)
    ensures Grouped(GroupItems(items, labelOf), items, labelOf)
  {
    if items != [] {
      var init, last := items[..|items| - 1], items[|items| - 1];
      assert init + [last] == items;
      var gs := GroupItems(init, labelOf);
      assert GroupItems(items, labelOf) == AddItem(gs, last, labelOf);
      GroupItemsGrouped(init, labelOf);
      AddItemGrouped(gs, init, last, labelOf);
    }
  }

  /** No key has two groups. */
  lemma GroupKeysUnique(items: seq<Item>, labelOf: string -> string, i: nat, j: nat)
    requires i < j < |GroupItems(items, labelOf)|
    ensures GroupItems(items, labelOf)[i].key != GroupItems(items, labelOf)[j].key
  {
    GroupItemsGrouped(items, labelOf);
    var gs := GroupItems(items, labelOf);
    assert Keys(gs)[i] != Keys(gs)[j];
  }

  // ------------------------------------------------------------ sums

  lemma {:induction false} GroupSumUpdate(gs: seq<Group>, i: nat, g: Group, m: Item -> int)
    requires i < |gs|
    ensures GroupSum(gs[i := g], m) == GroupSum(gs, m) - ItemSum(gs[i].items, m) + ItemSum(g.items, m)
  {
    var n := |gs| - 1;
    var hs := gs[i := g];
    assert hs[..n] == if i == n then gs[..n] else gs[..n][i := g];
    if i < n {
      GroupSumUpdate(gs[..n], i, g, m);
    }
  }

  lemma AddItemSum(gs: seq<Group>, it: Item, labelOf: string -> string, m: Item -> int)
    ensures GroupSum(AddItem(gs, it, labelOf), m) == GroupSum(gs, m) + m(it)
  {
    var i := FindKey(gs, it.key);
    if i == |gs| {
      var r := gs + [NewGroup(it, labelOf)];
      assert r[..|r| - 1] == gs;
      assert ItemSum([it], m) == m(it) by { assert [it][..0] == []; }
    } else {
      var xs := gs[i].items + [it];
      assert xs[..|xs| - 1] == gs[i].items;
      assert ItemSum(Extend(gs[i], it).items, m) == ItemSum(gs[i].items, m) + m(it);
      GroupSumUpdate(gs, i, Extend(gs[i], it), m);
    }
  }

  /** Grouping neither loses nor duplicates anything: any per-item measure
      summed over all groups equals its sum over the items. */
  lemma {:induction false} GroupedSum(items: seq<Item>, labelOf: string -> string, m: Item -> int)
    ensures GroupSum(GroupItems(items, labelOf), m) == ItemSum(items, m)
  {
    if items != [] {
      GroupedSum(items[..|items| - 1], labelOf, m);
      AddItemSum(GroupItems(items[..|items| - 1], labelOf), items[|items| - 1], labelOf, m);
    }
  }

  /** The groups hold as many items as there are. */
  lemma GroupedCount(items: seq<Item>, labelOf: string -> string)
    ensures GroupSum(GroupItems(items, labelOf), One) == |items|
  {
    GroupedSum(items, labelOf, One);
    ItemSumOne(items);
  }

  // ------------------------------------------------------------ orders

  /** A payment of an order, with what the payment list shows of its event
      (centre and date text) and its observations. */
  datatype PaymentEntry = PaymentEntry(payment: Payment, event: Option<(string, string)>, obs: Option<string>)

  datatype Order = Order(id: string, date: string, status: string, selfPayed: bool,
                         forms: seq<FormOfPayment>, payments: seq<PaymentEntry>)

  function FormItem(o: Order, f: FormOfPayment): Item {
    Item(o.id, o.date, o.status, f.payformType, f.value, o.selfPayed,
         PayformDetail(f.bankFlag, f.ctrlNumber, f.complement))
  }

  function FormItems(o: Order, fs: seq<FormOfPayment>): (r: seq<Item>)
    ensures |r| == |fs|
    ensures forall i :: 0 <= i < |fs| ==> r[i] == FormItem(o, fs[i])
  {
    if fs == [] then [] else [FormItem(o, fs[0])] + FormItems(o, fs[1..])
  }

  /** The nested loop of `get_payform_list`: orders in order, each order's
      forms of payment in order. */
  function PayformItems(orders: seq<Order>): (r: seq<Item>) {
    if orders == [] then [] else FormItems(orders[0], orders[0].forms) + PayformItems(orders[1..])
  }

  /** The number of (order, form of payment) pairs. */
  function FormCount(orders: seq<Order>): nat {
    if orders == [] then 0 else |orders[0].forms| + FormCount(orders[1..])
  }

  lemma {:induction false} PayformItemsCount(orders: seq<Order>)
    ensures |PayformItems(orders)| == FormCount(orders)
  {
    if orders != [] {
      PayformItemsCount(orders[1..]);
    }
  }

  lemma ItemKeysAppend(a: seq<Item>, b: seq<Item>)
    ensures ItemKeys(a + b) == ItemKeys(a) + ItemKeys(b)
  {
    assert ItemKeys(a + b) == ItemKeys(a) + ItemKeys(b);
  }

  /** The keys of one order's items are the codes of its forms of payment. */
  lemma FormItemsKeys(o: Order, k: string)
    ensures k in ItemKeys(FormItems(o, o.forms)) <==> exists j :: 0 <= j < |o.forms| && o.forms[j].payformType == k
  {
    var ks := ItemKeys(FormItems(o, o.forms));
    if k in ks {
      var j :| 0 <= j < |ks| && ks[j] == k;
      assert o.forms[j].payformType == k;
    }
    if exists j :: 0 <= j < |o.forms| && o.forms[j].payformType == k {
      var j :| 0 <= j < |o.forms| && o.forms[j].payformType == k;
      assert ks[j] == k;
    }
  }

  /** The keys of the flattened items are the codes of the forms of payment. */
  lemma {:induction false} PayformItemsKeys(orders: seq<Order>, k: string)
    ensures k in ItemKeys(PayformItems(orders)) <==>
              exists i, j :: 0 <= i < |orders| && 0 <= j < |orders[i].forms| && orders[i].forms[j].payformType == k
  {
    if orders != [] {
      var head := FormItems(orders[0], orders[0].forms);
      var rest := PayformItems(orders[1..]);
      PayformItemsKeys(orders[1..], k);
      FormItemsKeys(orders[0], k);
      ItemKeysAppend(head, rest);
      assert PayformItems(orders) == head + rest;
      PaidWithCons(orders, k);
    }
  }

  lemma PaidWithCons(orders: seq<Order>, k: string)
    requires orders != []
    ensures (exists i, j :: 0 <= i < |orders| && 0 <= j < |orders[i].forms| && orders[i].forms[j].payformType == k) <==>
            (exists j :: 0 <= j < |orders[0].forms| && orders[0].forms[j].payformType == k) ||
            (exists i, j :: 0 <= i < |orders[1..]| && 0 <= j < |orders[1..][i].forms| && orders[1..][i].forms[j].payformType == k)
  {
    var tail := orders[1..];
    if exists i, j :: 0 <= i < |tail| && 0 <= j < |tail[i].forms| && tail[i].forms[j].payformType == k {
      var i, j :| 0 <= i < |tail| && 0 <= j < |tail[i].forms| && tail[i].forms[j].payformType == k;
      assert tail[i] == orders[i + 1];
      assert orders[i + 1].forms[j].payformType == k;
    }
    if exists i, j :: 0 <= i < |orders| && 0 <= j < |orders[i].forms| && orders[i].forms[j].payformType == k {
      var i, j :| 0 <= i < |orders| && 0 <= j < |orders[i].forms| && orders[i].forms[j].payformType == k;
      if i > 0 {
        assert tail[i - 1] == orders[i];
        assert tail[i - 1].forms[j].payformType == k;
      }
    }
  }

  function PayformLabelOrBlank(code: string): string {
    var l := PayformLabel(code);
    if l.Some? then l.value else ""
  }

  /** `get_payform_list`: None when an item's type is not one of
      `PAYFORM_TYPES` (the IndexError of the label lookup). */
  function PayformList(orders: seq<Order>): (r: Option<seq<Group>>)
    ensures r.None? <==> exists k :: k in ItemKeys(PayformItems(orders)) && PayformLabel(k).None?
    ensures r.Some? ==> r.value == GroupItems(PayformItems(orders), PayformLabelOrBlank)
  {
    var items := PayformItems(orders);
    if forall i :: 0 <= i < |items| ==> PayformLabel(items[i].key).Some? then
      Some(GroupItems(items, PayformLabelOrBlank))
    else None
  }

  /** `get_self_payeds`: the self-paid orders, in order. */
  function SelfPayeds(orders: seq<Order>): (r: seq<Order>)
    ensures forall o :: o in r <==> o in orders && o.selfPayed
  {
    if orders == [] then []
    else (if orders[0].selfPayed then [orders[0]] else []) + SelfPayeds(orders[1..])
  }

  /** The groups of `self_payeds` only hold self-paid items. */
  lemma SelfPayedGroups(orders: seq<Order>, g: Group, it: Item)
    requires PayformList(SelfPayeds(orders)).Some?
    requires g in PayformList(SelfPayeds(orders)).value && it in g.items
    ensures it.selfPayed
  {
    var items := PayformItems(SelfPayeds(orders));
    GroupItemsGrouped(items, PayformLabelOrBlank);
    SelfPayedItems(SelfPayeds(orders));
  }

  lemma {:induction false} SelfPayedItems(orders: seq<Order>)
    requires forall o :: o in orders ==> o.selfPayed
    ensures forall it :: it in PayformItems(orders) ==> it.selfPayed
  {
    if orders != [] {
      SelfPayedItems(orders[1..]);
    }
  }

  // ------------------------------------------------------------ payments

  const MonthAbbrevs: seq<string> := ["Jan", "Feb", "Mar", "Apr", "May", "Jun", "Jul", "Aug", "Sep", "Oct", "Nov", "Dec"]

  /** `strftime("%b/%y")` of a reference month. */
  function MonthText(m: Month): string {
    var y := m.year % 100;
    (if 1 <= m.month <= 12 then MonthAbbrevs[m.month - 1] else "") + "/" + [DigitChar(y / 10), DigitChar(y % 10)]
  }

  /** The event column: the first four characters of the pay type's name,
      "... ", the event's centre, " - " and its date; "" without an event. */
  function EventText(e: PaymentEntry): (s: string)
    ensures s == "" <==> e.event.None?
  {
    if e.event.Some? then Slice(e.payment.paytype, 0, 4) + "... " + e.event.value.0 + " - " + e.event.value.1
    else ""
  }

  /** A payment can be listed only with a person and a reference month: the
      list reads the person's short name and formats the month, and either
      read fails (AttributeError) on a missing one. */
  predicate Listable(e: PaymentEntry) {
    e.payment.person.Some? && e.payment.refMonth.Some?
  }

  function PaymentItem(o: Order, e: PaymentEntry): Item
    requires Listable(e)
  {
    Item(o.id, o.date, o.status, e.payment.paytype, e.payment.value, o.selfPayed,
         PaymentDetail(e.payment.person.value.shortName, EventText(e), MonthText(e.payment.refMonth.value),
                       OptionText(e.obs)))
  }

  function PaymentItemsOf(o: Order, es: seq<PaymentEntry>): (r: Option<seq<Item>>)
    ensures r.None? <==> exists i :: 0 <= i < |es| && !Listable(es[i])
    ensures r.Some? ==> |r.value| == |es| && forall i :: 0 <= i < |es| ==> r.value[i].key == es[i].payment.paytype
  {
    if es == [] then Some([])
    else
      var rest := PaymentItemsOf(o, es[1..]);
      assert forall i :: 1 <= i < |es| ==> es[i] == es[1..][i - 1];
      if !Listable(es[0]) || rest.None? then None
      else Some([PaymentItem(o, es[0])] + rest.value)
  }

  function PaymentItems(orders: seq<Order>): (r: Option<seq<Item>>)
    ensures r.None? <==> exists i, j :: 0 <= i < |orders| && 0 <= j < |orders[i].payments| && !Listable(orders[i].payments[j])
  {
    if orders == [] then Some([])
    else
      var head := PaymentItemsOf(orders[0], orders[0].payments);
      var rest := PaymentItems(orders[1..]);
      assert forall i :: 1 <= i < |orders| ==> orders[i] == orders[1..][i - 1];
      if head.None? || rest.None? then None else Some(head.value + rest.value)
  }

  function NameLabel(name: string): string { name }

  /** `get_payment_list`: the same grouping keyed by pay type name. */
  function PaymentList(orders: seq<Order>): (r: Option<seq<Group>>)
    ensures r.None? <==> exists i, j :: 0 <= i < |orders| && 0 <= j < |orders[i].payments| && !Listable(orders[i].payments[j])
    ensures r.Some? ==> r.value == GroupItems(PaymentItems(orders).value, NameLabel)
  {
    var items := PaymentItems(orders);
    if items.Some? then Some(GroupItems(items.value, NameLabel)) else None
  }

  // ------------------------------------------------------------ summaries

  /** The group field a summary reads. */
  datatype Column = Concluded | Pending | Total

  function ColumnOf(g: Group, c: Column): int {
    match c
    case Concluded => g.concluded
    case Pending => g.pending
    case Total => g.total
  }

  function PartOf(c: Column): Item -> int {
    match c
    case Concluded => ConcludedPart
    case Pending => PendingPart
    case Total => ValuePart
  }

  /** `summary(status)` for a group column (and `summary_of_payments` for
      `Concluded`): one (label, item count, column) row per group, and the
      column's total. */
  function Summary(gs: seq<Group>, c: Column): (r: (seq<(string, nat, int)>, int))
    ensures |r.0| == |gs|
    ensures forall i :: 0 <= i < |gs| ==> r.0[i] == (gs[i].caption, |gs[i].items|, ColumnOf(gs[i], c))
  {
    if gs == [] then ([], 0)
    else
      var init := Summary(gs[..|gs| - 1], c);
      var g := gs[|gs| - 1];
      (init.0 + [(g.caption, |g.items|, ColumnOf(g, c))], init.1 + ColumnOf(g, c))
  }

  lemma {:induction false} SummaryTotalOfGroups(gs: seq<Group>, items: seq<Item>, labelOf: string -> string, c: Column)
    requires forall i :: 0 <= i < |gs| ==> GroupOk(gs[i], items, labelOf)
    ensures Summary(gs, c).1 == GroupSum(gs, PartOf(c))
  {
    if gs != [] {
      SummaryTotalOfGroups(gs[..|gs| - 1], items, labelOf, c);
    }
  }

  /** The summary total of a column is the column's measure over all items:
      the concluded total sums the CCD items, the pending total the PND
      items, the overall total every item. */
  lemma SummaryTotal(items: seq<Item>, labelOf: string -> string, c: Column)
    ensures Summary(GroupItems(items, labelOf), c).1 == ItemSum(items, PartOf(c))
  {
    GroupItemsGrouped(items, labelOf);
    SummaryTotalOfGroups(GroupItems(items, labelOf), items, labelOf, c);
    GroupedSum(items, labelOf, PartOf(c));
  }

  /** The self-paid pending items of one group: their codes and their sum. */
  function SelfPendingOf(xs: seq<Item>): (r: (seq<string>, int))
    ensures r.1 == ItemSum(xs, SelfPendingPart)
    ensures forall k :: k in r.0 ==> exists i :: 0 <= i < |xs| && xs[i].key == k && xs[i].selfPayed && xs[i].status == "PND"
  {
    if xs == [] then ([], 0)
    else
      var init := SelfPendingOf(xs[..|xs| - 1]);
      var it := xs[|xs| - 1];
      assert forall i :: 0 <= i < |xs| - 1 ==> xs[..|xs| - 1][i] == xs[i];
      if it.selfPayed && it.status == "PND" then (init.0 + [it.key], init.1 + it.value) else init
  }

  /** `summary("self_payed")`: the type codes of the self-paid pending
      items, group by group, and the sum of their values. */
  function SelfPayedSummary(gs: seq<Group>): (r: (seq<string>, int))
    ensures r.1 == GroupSum(gs, SelfPendingPart)
  {
    if gs == [] then ([], 0)
    else
      var init := SelfPayedSummary(gs[..|gs| - 1]);
      var own := SelfPendingOf(gs[|gs| - 1].items);
      (init.0 + own.0, init.1 + own.1)
  }

  /** The self-paid total is the value of every self-paid pending item. */
  lemma SelfPayedTotal(items: seq<Item>, labelOf: string -> string)
    ensures SelfPayedSummary(GroupItems(items, labelOf)).1 == ItemSum(items, SelfPendingPart)
  {
    GroupedSum(items, labelOf, SelfPendingPart);
  }
}

=== FILE: treasury_models.dfy ===
/** The text rules of treasury/models.py: decimal amounts as text, the
    voucher image path, and the `__str__`/`reference` of payments and forms
    of payment. Amounts are integer cents; "today" and the creation stamp are
    parameters. */
module TreasuryModels {
  import opened Text
  import opened Wrappers

  /** `str(Decimal)` of a value with two decimal places, e.g. "12.50",
      "-0.05". */
  function DecimalText(cents: int): (s: string)
    ensures |s| >= 4 && s[|s| - 3] == '.'
    ensures (s[0] == '-') <==> cents < 0
  {
    var m: nat := if cents < 0 then -cents else cents;
    var r := m % 100;
    (if cents < 0 then "-" else "") + NatToString(m / 100) + "." + [DigitChar(r / 10), DigitChar(r % 10)]
  }

  /** The amount a decimal text denotes: its digits read as cents, negated
      after a leading "-". */
  function CentsOf(s: string): int {
    if s != [] && s[0] == '-' then
      var v: int := ParseDigits(Digits(s[1..]));
      -v
    else ParseDigits(Digits(s))
  }

  lemma {:induction false} UnsignedText(m: nat)
    ensures CentsOf(NatToString(m / 100) + "." + [DigitChar(m % 100 / 10), DigitChar(m % 100 % 10)]) == m
  {
    var w := NatToString(m / 100);
    var f := [DigitChar(m % 100 / 10), DigitChar(m % 100 % 10)];
    var t := w + "." + f;
    assert w[0] != '-' by { assert IsDigit(w[0]); }
    assert t[0] == w[0];
    DigitsOfDigits(w);
    DigitsOfDigits(f);
    DigitsOfNonDigits(".");
    DigitsAppend(w, ".");
    DigitsAppend(w + ".", f);
    assert Digits(w + ".") == w;
    var d := w + f;
    assert Digits(t) == d;
    assert d[..|d| - 1] == w + [f[0]];
    assert (w + [f[0]])[..|w|] == w;
    ParseNatToString(m / 100);
    var q := m / 100;
    var r := m % 100;
    assert ParseDigits(w + [f[0]]) == q * 10 + r / 10;
    assert ParseDigits(d) == (q * 10 + r / 10) * 10 + r % 10;
    assert (q * 10 + r / 10) * 10 + r % 10 == q * 100 + r;
  }

  /** Reading the text back gives the amount. */
  lemma DecimalTextRoundTrip(cents: int)
    ensures CentsOf(DecimalText(cents)) == cents
  {
    var m: nat := if cents < 0 then -cents else cents;
    var u := NatToString(m / 100) + "." + [DigitChar(m % 100 / 10), DigitChar(m % 100 % 10)];
    UnsignedText(m);
    if cents < 0 {
      assert DecimalText(cents) == "-" + u;
      assert ("-" + u)[1..] == u;
    } else {
      assert DecimalText(cents) == u;
      assert u[0] != '-' by { assert IsDigit(NatToString(m / 100)[0]); }
    }
  }

  /** The fields of `FormOfPayment` the rules read; the bank flag is shown
      by its name. */
  datatype FormOfPayment = FormOfPayment(
    payformType: string,
    bankFlag: Option<string>,
    ctrlNumber: Option<string>,
    complement: Option<string>,
    value: int)

  /** Python's `str()` of an optional text: `None` shows as "None". */
  function OptionText(o: Option<string>): string {
    if o.Some? then o.value else "None"
  }

  /** The new file name before the extension: "<today>_<type>_<value>",
      then "_<bank flag>" and "_<control number>" when they are set. The
      value is printed as stored, with two decimals. */
  function VoucherStem(f: FormOfPayment, today: string): string {
    today + "_" + f.payformType + "_" + DecimalText(f.value)
    + (if f.bankFlag.Some? then "_" + f.bankFlag.value else "")
    + (if f.ctrlNumber.Some? && f.ctrlNumber.value != "" then "_" + f.ctrlNumber.value else "")
  }

  /** `voucher_img_filename`: an empty upload name gives the bare folder;
      otherwise the stem, "." and the upload's extension, inside the
      folder. */
  function VoucherPath(f: FormOfPayment, filename: string, today: string): (path: string)
    ensures filename == "" ==> path == "voucher_pics"
    ensures filename != "" ==>
              |path| > 13 && path[..13] == "voucher_pics/"
              && LastPart(path, '.') == LastPart(filename, '.')
    ensures filename != "" ==>
              var ext := LastPart(filename, '.');
              |path| >= 14 + |ext| && path[|path| - |ext| - 1] == '.'
              && path[13..|path| - |ext| - 1] == VoucherStem(f, today)
  {
    if filename == "" then "voucher_pics"
    else
      var ext := LastPart(filename, '.');
      var stem := VoucherStem(f, today);
      var folder := "voucher_pics/";
      var head := folder + stem;
      var path := head + ['.'] + ext;
      LastPartAfter(head, ext, '.');
      assert head[..13] == folder;
      assert path[..13] == head[..13];
      assert path[13..|path| - |ext| - 1] == stem;
      path
  }

  /** The stem records the bank flag and the control number when they are
      set, and is just date, type and value when neither is. */
  lemma VoucherStemParts(f: FormOfPayment, today: string)
    ensures f.bankFlag.Some? ==> Contains(VoucherStem(f, today), "_" + f.bankFlag.value)
    ensures f.ctrlNumber.Some? && f.ctrlNumber.value != "" ==> Contains(VoucherStem(f, today), "_" + f.ctrlNumber.value)
    ensures f.bankFlag.None? && (f.ctrlNumber.None? || f.ctrlNumber.value == "") ==>
              VoucherStem(f, today) == today + "_" + f.payformType + "_" + DecimalText(f.value)
  {
    var head := today + "_" + f.payformType + "_" + DecimalText(f.value);
    var bank := if f.bankFlag.Some? then "_" + f.bankFlag.value else "";
    var ctrl := if f.ctrlNumber.Some? && f.ctrlNumber.value != "" then "_" + f.ctrlNumber.value else "";
    assert VoucherStem(f, today) == head + bank + ctrl;
    ContainsMiddle(head, bank, ctrl);
    ContainsMiddle(head + bank, ctrl, "");
    assert head + bank + ctrl + "" == head + bank + ctrl;
  }

  /** `FormOfPayment.__str__`: "type $value", followed by " - <bank flag>
      <control number>" only when a bank flag is set. */
  function FormOfPaymentText(f: FormOfPayment): (s: string)
    ensures var base := f.payformType + " $" + DecimalText(f.value);
            |s| >= |base| && s[..|base|] == base
            && (s == base <==> f.bankFlag.None?)
            && (f.bankFlag.Some? ==> s[|base|..] == " - " + f.bankFlag.value + " " + OptionText(f.ctrlNumber))
  {
    var base := f.payformType + " $" + DecimalText(f.value);
    if f.bankFlag.Some? then
      var s := base + " - " + f.bankFlag.value + " " + OptionText(f.ctrlNumber);
      assert s[..|base|] == base;
      s
    else base
  }

  /** A reference month: the month and year of the `ref_month` date. */
  datatype Month = Month(month: nat, year: nat)

  /** The person a payment is for: full name, short name and centre name. */
  datatype Payer = Payer(name: string, shortName: string, center: string)

  /** The fields of `Payment` the rules read: the pay type's name, the
      person, the reference month and the amount. */
  datatype Payment = Payment(
    paytype: string,
    person: Option<Payer>,
    refMonth: Option<Month>,
    value: int)

  /** `Payment.reference`: "month/year", or "" when there is no reference
      month (the exception handler). */
  function Reference(p: Payment): (s: string)
    ensures s == "" <==> p.refMonth.None?
  {
    if p.refMonth.Some? then NatToString(p.refMonth.value.month) + "/" + NatToString(p.refMonth.value.year)
    else ""
  }

  /** Reads a reference back. */
  function ParseReference(s: string): (m: Option<Month>) {
    var parts := Split(s, '/');
    if s == "" || |parts| != 2 || !AllDigits(parts[0]) || !AllDigits(parts[1]) then None
    else Some(Month(ParseDigits(parts[0]), ParseDigits(parts[1])))
  }

  lemma ReferenceRoundTrip(p: Payment)
    ensures ParseReference(Reference(p)) == p.refMonth
  {
    if p.refMonth.Some? {
      var m := NatToString(p.refMonth.value.month);
      var y := NatToString(p.refMonth.value.year);
      assert '/' !in m by { assert forall i :: 0 <= i < |m| ==> IsDigit(m[i]); }
      assert '/' !in y by { assert forall i :: 0 <= i < |y| ==> IsDigit(y[i]); }
      SplitJoin([m, y], '/');
      assert Join([m, y], "/") == m + "/" + y;
      ParseNatToString(p.refMonth.value.month);
      ParseNatToString(p.refMonth.value.year);
    }
  }

  /** The person part of a payment's text: empty exactly when no person
      is set. */
  function PersonPart(p: Payment): (part: string)
    ensures part == "" <==> p.person.None?
    ensures p.person.Some? ==> part == " person: " + p.person.value.name + " (" + p.person.value.center + ")"
  {
    match p.person
    case None => ""
    case Some(payer) => " person: " + payer.name + " (" + payer.center + ")"
  }

  /** The month part of a payment's text: empty exactly when no reference
      month is set. */
  function MonthPart(p: Payment): (part: string)
    ensures part == "" <==> p.refMonth.None?
    ensures p.refMonth.Some? ==> part == " month: " + Reference(p) && Reference(p) != ""
  {
    match p.refMonth
    case None => ""
    case Some(_) => " month: " + Reference(p)
  }

  /** `Payment.__str__`: "paytype $value", then " person: <name> (<centre>)"
      when a person is set, then " month: <reference>" when a reference
      month is set, then " at <creation stamp>". */
  function PaymentText(p: Payment, createdOn: string): (s: string)
    ensures s == p.paytype + " $" + DecimalText(p.value) + PersonPart(p) + MonthPart(p) + " at " + createdOn
    ensures p.person.None? && p.refMonth.None? ==> s == p.paytype + " $" + DecimalText(p.value) + " at " + createdOn
  {
    p.paytype + " $" + DecimalText(p.value)
    + (if p.person.Some? then " person: " + p.person.value.name + " (" + p.person.value.center + ")" else "")
    + (if p.refMonth.Some? then " month: " + Reference(p) else "")
    + " at " + createdOn
  }

  /** The person and month segments appear when their fields are set. */
  lemma PaymentTextSegments(p: Payment, createdOn: string)
    ensures p.person.Some? ==> Contains(PaymentText(p, createdOn), " person: " + p.person.value.name + " (" + p.person.value.center + ")")
    ensures p.refMonth.Some? ==> Contains(PaymentText(p, createdOn), " month: " + Reference(p))
  {
    var head := p.paytype + " $" + DecimalText(p.value);
    var who := PersonPart(p);
    var when := MonthPart(p);
    var tail := " at " + createdOn;
    assert PaymentText(p, createdOn) == head + who + (when + tail);
    ContainsMiddle(head, who, when + tail);
    assert PaymentText(p, createdOn) == (head + who) + when + tail;
    ContainsMiddle(head + who, when, tail);
  }
}

=== FILE: wrappers.dfy ===
/** Failure-carrying values used where the modelled code returns "nothing"
    or raises an exception that ends the operation. */
module Wrappers {

  datatype Option<+T> = None | Some(value: T)

  /** `Err` stands for an exception the source lets escape: the operation
      stops and its remaining effects do not happen. */
  datatype Result<+T, +E> = Ok(value: T) | Err(error: E)
}
